=== FILE: README.md ===
# UX-research interview simulator, modelled in Dafny

The system simulates user-research interviews with a language model. A run is a
small workflow graph with four nodes:

- **configuration** asks the model for interview questions;
- **persona generation** asks for a list of validated personas, with at most
  five attempts;
- **interview** answers one (persona, question) pair per step. A router sends
  the run back to this node until every persona has been interviewed;
- **synthesis** asks for an analysis of all interviews. A failure here becomes
  a placeholder text.

Three copies of the graph exist:

- the Flask server (`flask_app.py`);
- the backend package (`backend/uxr_logic.py`). It overrides both counts with
  the defaults 10 and 5, and serializes the final state;
- the dashboard bridge's core (`uxr_core.py`). It adds one follow-up
  exchange at the end of every interview.

Around the graph, the model covers:

- the dashboard bridge (`uxr_api.py`): the section extractor, the participant
  table and the sample answers;
- the Flask handler's own section parser and table;
- the stand-alone script (`enhanced_uxr.py`);
- the backend's stub endpoint (`backend/app.py`).

Every language-model call is an oracle argument. Interview answers are a
function from the call number to the answer or the exception the call raised. JSON parsing and model
validation are oracle outcomes as well. With these, the model can state where
each answer lands: persona `i`'s answer to question `j` is call `i·Q + j`
without follow-ups, and call `i·(Q+2) + j` with them.

Modules, one per file:

- `Results`: exceptions, Option and Result.
- `Text`: Python string operations on ASCII.
- `Personas`: persona model and mapping forms, with or without the background
  field (the backend's model has no background).
- `Workflow`: the plain interview loop.
- `FollowupWorkflow`: the loop with follow-ups.
- `PersonaGeneration`: the retry loop.
- `Nodes`: configuration, initial state and synthesis.
- `Templates`: `str.format` and the backend prompt.
- `Serialization`: the backend payload.
- `InsightExtraction`: the bridge's section extractor.
- `InlineSections`: the Flask parser.
- `Dashboard`: the participant tables and samples.
- `Enhanced`: the stand-alone script.
- `StubPayload`: the stub endpoint.
- `Pipeline`: whole backend and bridge runs.
- `FlaskHandler`: the Flask endpoint.

## Model

| member | source | states |
|---|---|---|
| Personas.Dump | flask_app.py:48-54 | a dumped persona has every field and validates back to the same persona |
| Personas.DumpAs | backend/uxr_logic.py:62-67 | the dump has a background key exactly under the schema with one; it carries the other five fields and validates back to the schema's model of the persona, whose background the backend schema drops |
| Text.Upper | flask_app.py:362 | upper-casing keeps the length and maps every character through the ASCII upper-case table |
| Text.ContainsTransitive | uxr_api.py:72 | containment is transitive, so a line containing "KEY THEMES" contains "THEMES" |
| Text.IndexOf | enhanced_uxr.py:81 | -1 exactly when the text is absent; otherwise an occurrence with none earlier |
| Text.LastIndexOf | enhanced_uxr.py:82 | -1 exactly when the text is absent; otherwise an occurrence with none later |
| Text.Split | uxr_api.py:89 | at least one piece, and no piece contains the separator |
| Text.JoinSplit | uxr_api.py:66 | joining the pieces of a split with the same separator gives the text back |
| Text.SplitJoin | uxr_api.py:35 | splitting a join gives the parts back when no part contains a self-non-overlapping separator |
| Text.Strip | uxr_api.py:71 | the result is a window of the text with no whitespace at either end, empty exactly when the text is all whitespace |
| Text.PyTake | uxr_api.py:220 | a slice `xs[:n]` is a prefix, of length n clamped to the sequence, counting from the end for negative n |
| Text.PySlice | enhanced_uxr.py:84 | `s[a:b]` is the sub-sequence for in-range bounds and empty when b <= a |
| Text.IntToStringRoundTrip | uxr_api.py:36 | `str(age)` is an optional minus sign and digits that read back as the age |
| Text.NatToStringInjective | backend/app.py:40 | different numbers have different decimal renderings |
| Nodes.ConfigureNode | flask_app.py:117-132 | succeeds exactly when the call returns a list, installed as it is; None raises AttributeError; a raised error escapes |
| Nodes.ConfigureIgnoresCounts | flask_app.py:128-132 | the requested counts pass through unchanged and do not affect the question list |
| Nodes.BackendConfigureNode | backend/uxr_logic.py:100-120 | as above, but both counts come out as the defaults 5 questions and 10 interviews |
| Nodes.BackendOverridesCounts | backend/uxr_logic.py:116-120 | whatever counts were requested, the backend configuration leaves the same state |
| Nodes.OrDefault | backend/uxr_logic.py:362-363 | `n or default`: a missing or zero count takes the default, anything else is kept |
| Nodes.InitialState | backend/uxr_logic.py:359-372 | the initial state is fresh, with empty lists, the given texts and non-zero counts that keep a non-zero request |
| Nodes.SynthesisNode | flask_app.py:239-244 | only the synthesis changes: the reply's text, or the placeholder around the failure's description |
| Nodes.SynthesisFailureRecoverable | flask_app.py:241-242 | the failure description can be cut back out of the placeholder |
| PersonaGeneration.AttemptError | flask_app.py:144-158 | an attempt raises nothing exactly when it validated with the requested count; a None reply becomes ValueError("LLM returned None") and a wrong count the mismatch ValueError, both retryable; an error the call raised is reported as it is |
| PersonaGeneration.AttemptFrom | flask_app.py:142-169 | a successful retry loop returns exactly the requested number of personas, and a failed one never ends with a retryable exception |
| PersonaGeneration.FirstDecisiveAttempt | flask_app.py:142-169 | the first attempt that is not a retryable failure decides the result; five retryable failures end in the RuntimeError |
| PersonaGeneration.PersonaNode | flask_app.py:134-165 | the node succeeds exactly when the retry loop does, installs its personas and resets both indices and the interview list, touching nothing else, and fails with the loop's exception |
| PersonaGeneration.Generate | flask_app.py:142-169 | the retry loop from its first attempt returns exactly the requested number of personas on success, and no retryable exception (validation, value or type error) ever escapes it |
| PersonaGeneration.AtMostFiveAttempts | flask_app.py:138-142 | outcomes after the fifth attempt never affect the result |
| PersonaGeneration.GenerateOutcomes | flask_app.py:142-169 | the loop either returns the right count, or the first non-retryable error, or the RuntimeError after five retryable failures |
| PersonaGeneration.WrongCountExhausts | flask_app.py:157-169 | a model that always returns the wrong count ends in the RuntimeError reporting the fifth mismatch |
| PersonaGeneration.NoneExhausts | flask_app.py:144-169 | a model that always returns None ends in the RuntimeError reporting "LLM returned None" |
| PersonaGeneration.NoneIsRetried | flask_app.py:152-153 | a None reply before the fifth attempt does not end the loop: the next attempt decides |
| Templates.PlainPassesThrough | backend/uxr_logic.py:124-125 | brace-free text passes through formatting unchanged |
| Templates.Format | backend/uxr_logic.py:136 | `str.format` with keyword arguments fails only with KeyError, IndexError or ValueError, and a KeyError names a non-empty argument that is missing (the part of the field before any `:`, `!`, `.` or `[`) |
| Templates.FieldReplaced | backend/uxr_logic.py:147-149 | a field naming a present argument (no spec, conversion, attribute or index) is replaced by its value |
| Templates.FieldMissing | backend/uxr_logic.py:136 | a field naming a missing argument (no attribute or index) raises KeyError with that name, whatever format spec follows |
| Templates.AccessOnMissingRaises | backend/uxr_logic.py:136 | an attribute or index field (`{a.b}`, `{a[0]}`) on a missing argument raises KeyError with the argument name alone |
| Templates.DoubledBraces | flask_app.py:89 | a doubled brace formats to one literal brace |
| Templates.PromptFormatsHint | backend/uxr_logic.py:123-127 | formatting the persona prompt fills in both arguments, then fails or succeeds as its closing hint does |
| Templates.BackendPromptRaises | backend/uxr_logic.py:126 | the backend prompt raises KeyError(" personas") for every count and demographic |
| Templates.PersonaPromptFills | flask_app.py:86-90 | with doubled braces, the prompt substitutes count and demographic and keeps one pair of braces |
| Templates.BackendPersonaNodeAsWritten | backend/uxr_logic.py:130-178 | a formatting error in the progress message escapes before any attempt |
| Templates.BackendPersonaNodeAlwaysRaises | backend/uxr_logic.py:136 | the backend persona node as written always fails with KeyError(" personas") |
| Templates.BackendPersonaNode | backend/uxr_logic.py:130-178 | with the braces doubled, a successful node has exactly the requested number of personas |
| Templates.BackendPersonaNodeIsRetryLoop | backend/uxr_logic.py:141-178 | with the braces doubled, the node is the bounded retry loop with the backend's fixed exhaustion message |
| Workflow.Step | flask_app.py:171-213 | the step fails with IndexError exactly when an index is out of range, otherwise with the exception of its answer call (line 189) when that raises; on success it moves to the next (persona, question) pair and changes nothing else |
| Workflow.StepCloses | flask_app.py:198-207 | at a persona's last question, the interview is filed with its full transcript and the next persona starts |
| Workflow.StepAdvances | flask_app.py:209-213 | before the last question, only the answer is recorded and the question index advances |
| Workflow.StepExtendsTranscript | flask_app.py:191-207 | every step appends exactly its entry to the transcript, so filing an interview loses and reorders nothing |
| Workflow.Conduct | flask_app.py:247-278 | the loop ends only where the router chooses synthesis, with the same run, or fails with IndexError or with the exception of one of its answer calls |
| Workflow.FreshInv | flask_app.py:160-165 | the state after persona generation satisfies the loop invariant |
| Workflow.StepPreservesInv | flask_app.py:197-213 | a step keeps one complete, question-ordered interview per finished persona |
| Workflow.Router | flask_app.py:247-252 | `interview_router` chooses synthesis exactly when the persona index has reached the number of personas; RouterMeansAllInterviewed gives its meaning |
| Workflow.RouterMeansAllInterviewed | flask_app.py:247-252 | between steps, the router chooses synthesis exactly when every persona has a filed interview |
| Workflow.CloseKeepsOrder | flask_app.py:198-207 | filing an interview keeps every answer in its row-major slot |
| Workflow.StepKeepsOrder | flask_app.py:171-213 | a step keeps every answer in its row-major slot |
| Workflow.ConductUnfolds | flask_app.py:271-278 | one round of the loop is a step followed by synthesis or the next round |
| Workflow.ConductCompletes | flask_app.py:255-281 | from any reachable state with a persona left whose remaining answer calls all return, the loop reaches synthesis with every persona interviewed, answers in row-major order |
| Workflow.FinishedInRowMajorOrder | flask_app.py:247-252 | a finished loop has interview i for persona i, answering question j with oracle call i·Q + j |
| Workflow.ConductFromFresh | flask_app.py:255-281 | from a fresh run with personas and questions whose answer calls all return, the loop succeeds and visits every pair in row-major order |
| Workflow.ConductRaises | flask_app.py:189 | from a reachable state, when answer call n is the first to raise, the loop fails with exactly that exception |
| Workflow.ConductFromFreshRaises | flask_app.py:189 | the same from a fresh run |
| Workflow.ConductWithoutPairsFails | flask_app.py:178-179 | with no personas or no questions, the first step raises IndexError |
| FollowupWorkflow.StepWithFollowup | uxr_core.py:171-236 | the step fails with IndexError exactly when an index is out of range; otherwise it fails exactly when one of its calls raises (the answer at line 184, the follow-up question and answer at lines 198 and 205 at a close-out), with the first such exception; it uses one call, or three when adding a follow-up |
| FollowupWorkflow.FollowupGuard | uxr_core.py:197 | a main-question entry never makes the guard see a follow-up |
| FollowupWorkflow.StepWithFollowupTranscript | uxr_core.py:186-230 | every step appends the main answer to the transcript, followed by the follow-up exchange at a close-out without one |
| FollowupWorkflow.FollowupCloses | uxr_core.py:194-230 | the close-out files the main answer, followed by a fresh follow-up unless the open transcript already holds one |
| FollowupWorkflow.ConductWithFollowup | uxr_core.py:270-301 | the loop ends only where the router chooses synthesis, with the same run, or fails with IndexError or with the exception of one of its calls |
| FollowupWorkflow.FreshFollowupInv | uxr_core.py:160-165 | the state after persona generation satisfies this variant's invariant |
| FollowupWorkflow.GuardAlwaysHolds | uxr_core.py:196-197 | in a reachable state the open transcript never holds a follow-up, so the guard always passes |
| FollowupWorkflow.CloseOut | uxr_core.py:194-230 | from a reachable state, the close-out files the main answer and the follow-up exchange together |
| FollowupWorkflow.Advance | uxr_core.py:232-236 | before the last question, only the main answer is recorded |
| FollowupWorkflow.StepPreservesFollowupInv | uxr_core.py:171-236 | a step keeps each filed interview as the main answers in order followed by exactly one follow-up |
| FollowupWorkflow.CloseOutKeepsOrder | uxr_core.py:194-230 | filing the follow-up exchange keeps every answer in its slot of width Q + 2 |
| FollowupWorkflow.AdvanceKeepsOrder | uxr_core.py:184-191 | recording a main answer keeps it in its slot |
| FollowupWorkflow.StepKeepsFollowupOrder | uxr_core.py:171-236 | a step keeps every answer in its slot |
| FollowupWorkflow.ConductWithFollowupCompletes | uxr_core.py:278-303 | from a reachable state with a persona left whose remaining calls all return, the loop reaches synthesis with every persona interviewed and every answer in place |
| FollowupWorkflow.FinishedWithFollowups | uxr_core.py:270-275 | a finished loop has Q main answers and one follow-up per persona, after P·(Q+2) calls |
| FollowupWorkflow.ConductWithFollowupFromFresh | uxr_core.py:278-303 | from a fresh run with personas and questions whose P·(Q+2) calls all return, the follow-up loop succeeds with every interview in row-major order |
| FollowupWorkflow.ConductWithFollowupRaises | uxr_core.py:184-210 | from a reachable state, when call n is the first to raise, whether main answer, follow-up question or follow-up answer, the loop fails with exactly that exception |
| FollowupWorkflow.ConductWithFollowupFromFreshRaises | uxr_core.py:184-210 | the same from a fresh run |
| Serialization.Serialize | backend/uxr_logic.py:321-344 | counts and order of personas and interviews are kept, a model persona becomes its dump under the schema, a mapping persona passes through, responses are copied |
| Serialization.SerializeRoundTrip | backend/uxr_logic.py:330-342 | serializing a run loses nothing its schema's model holds: scalars are copied and every persona is the schema's dump and validates back in place |
| Serialization.SerializeDefaults | backend/uxr_logic.py:323-343 | a state without keys serializes to empty defaults |
| Pipeline.RunFrom | backend/uxr_logic.py:374-375 | a successful run after persona generation keeps the interview count and the persona count |
| Pipeline.BackendRun | backend/uxr_logic.py:347-375 | with the persona template corrected as in the finding below, a successful backend run reports 10 interviews and 5 questions and holds 10 personas, whatever was requested |
| Pipeline.BackendRunAsWritten | backend/uxr_logic.py:130-136 | `execute_research` as written never produces a result: it always fails, and once configuration returns questions the failure is KeyError(" personas") |
| Pipeline.BackendRunCompletes | backend/uxr_logic.py:347-375 | with the corrected persona template, questions, a successful persona loop and answer calls that all return, the payload holds ten personas dumped without a background that validate back into the backend model, each interviewed on every question in row-major order |
| Pipeline.BackendRunInterviewRaises | backend/uxr_logic.py:208 | with the corrected persona template, when answer call n is the first to raise, the backend run fails with exactly that exception |
| Pipeline.RunFromKeepsPersonas | backend/uxr_logic.py:330-342 | when every answer call returns, the loop, synthesis and serialization keep every persona in order, without a background key |
| Pipeline.RunFromKeepsAnswers | backend/uxr_logic.py:334-342 | when every answer call returns, the loop, synthesis and serialization keep every answer in row-major order |
| Pipeline.SerializedResponses | backend/uxr_logic.py:334-342 | serialization copies every interview's entries |
| Pipeline.BridgeRun | uxr_api.py:148-230 | a successful bridge run has no empty insight field |
| Pipeline.BridgeFrom | uxr_api.py:176-230 | the same after persona generation |
| Pipeline.BridgeRunCompletes | uxr_api.py:148-230 | with questions, a successful persona loop and calls that all return, there is one row per persona in order, and one sample per each of the first three interviews, pairing name and first answer |
| Pipeline.BridgeFromFresh | uxr_api.py:176-228 | the same from a fresh state with personas and questions |
| Pipeline.BridgeRunInterviewRaises | uxr_core.py:184-210 | when call n of the follow-up loop is the first to raise, the bridge run fails with exactly that exception |
| Pipeline.BridgeRowsAndSamples | uxr_api.py:187-228 | a finished follow-up run gives those rows and samples |
| InsightExtraction.HeadingOf | uxr_api.py:72-86 | a line opens key insights when it contains THEMES, observations when it contains PERSPECTIVES but not THEMES, takeaways when it contains only RECOMMENDATIONS |
| InsightExtraction.PhraseContainsWord | uxr_api.py:72 | a line containing a two-word heading contains its last word, so only the single words decide |
| InsightExtraction.NonEmptyStripped | uxr_api.py:90 | the kept pieces are non-empty and stripped, and there are no more of them than pieces |
| InsightExtraction.Fragments | uxr_api.py:89-90 | the fragments of a line are non-empty and stripped |
| InsightExtraction.ScanLines | uxr_api.py:70-90 | gathered fragments are non-empty, and nothing is gathered before a heading |
| InsightExtraction.FirstSentence | uxr_api.py:98 | the text before the first period, which contains no period |
| InsightExtraction.Extract | uxr_api.py:50-104 | an empty synthesis gives the fixed triple naming the question; no field is ever empty |
| InsightExtraction.CommitMatchesClose | uxr_api.py:73-74 | committing the open section gives each field the value its closed blocks leave |
| InsightExtraction.FeedMatchesAddLine | uxr_api.py:70-90 | one pass of the loop mirrors adding one line to the block reading |
| InsightExtraction.ScanMatchesBlocks | uxr_api.py:70-90 | the loop's variables always mirror the block reading of the lines so far |
| InsightExtraction.ExtractMatchesBlocks | uxr_api.py:65-104 | each field is the value its last block with content gives, or the field's fallback |
| InsightExtraction.PreambleIgnored | uxr_api.py:87 | lines before the first heading do not affect the result |
| InsightExtraction.NoHeadingNoBlocks | uxr_api.py:87 | a text without headings opens no section |
| InsightExtraction.LastBlockWins | uxr_api.py:73-94 | a later block of the same kind replaces an earlier one's value; a heading without content changes nothing |
| InlineSections.BucketOf | flask_app.py:366-381 | the heading a line opens, by priority: KEY THEMES, DIVERSE PERSPECTIVES, PAIN POINTS or OPPORTUNITIES, RECOMMENDATIONS |
| InlineSections.CleanNonEmpty | flask_app.py:390-394 | cleaning a stripped, non-empty line never leaves it empty |
| InlineSections.Clean | flask_app.py:390-394 | cleaning never lengthens a line, and a line it changes comes out empty or starting with a non-blank character |
| InlineSections.CleanRemovesMarker | flask_app.py:391-392 | cleaning removes a "- ", "* " or "• " bullet and strips the rest |
| InlineSections.CleanRemovesNumber | flask_app.py:393-394 | a line opening with a digit and ". " loses that marker and the rest is stripped, whatever spaces follow the marker |
| InlineSections.CleanKeepsUnmarked | flask_app.py:390-394 | a line with neither a bullet nor a single-digit number is kept as it is |
| InlineSections.ContentOf | flask_app.py:383-394 | a line adds content exactly when it is not a heading, blank or a '#' line, and what it adds is never empty |
| InlineSections.ParseSections | flask_app.py:356-402 | an empty synthesis leaves all three fields empty |
| InlineSections.StepFields | flask_app.py:361-402 | a content line under a heading is appended to that heading's field; every other line changes nothing |
| InlineSections.JoinAppend | flask_app.py:398 | appending with "; " is joining one more entry |
| InlineSections.StepMatchesRouting | flask_app.py:361-402 | one more line updates each field as one more routed entry would |
| InlineSections.ParseMatchesRouting | flask_app.py:361-402 | after any prefix, the current heading is the last one and each field is its routed content joined with "; " |
| InlineSections.ParseSectionsMatchesRouting | flask_app.py:356-402 | pain points and recommendations both feed takeaways; each field is its routed content joined with "; " |
| InlineSections.NonContentAddsNothing | flask_app.py:366-385 | heading, blank and '#' lines add nothing to any field |
| InlineSections.NothingBeforeFirstHeading | flask_app.py:388 | nothing is collected before the first heading |
| Dashboard.FormatPersona | uxr_api.py:27-48 | a model row shows name, job and two traits or "Unknown"; a mapping row shows the name, job and age it holds and falls back to a numbered name, "Unknown", age 25 and job "Unknown" for missing keys |
| Dashboard.TargetRecoversAge | uxr_api.py:36 | the target column reads back as the persona's age, or 25 when a mapping has none |
| Dashboard.StatusRecoversTraits | uxr_api.py:35-45 | the status column splits back into the first two traits |
| Dashboard.ModelMatchesMapping | uxr_api.py:29-48 | a model and its dumped mapping give the same row, except for a model with no traits |
| Dashboard.RowsFromInterviews | uxr_api.py:188-192 | at most one row per interview, ids within range and strictly rising |
| Dashboard.RowsFromPersonas | uxr_api.py:195-197 | one row per persona, numbered from 1 |
| Dashboard.Participants | uxr_api.py:187-197 | the table's ids are positive and strictly rising |
| Dashboard.EveryInterviewGivesARow | uxr_api.py:189-192 | when every interview has a persona, there is one row per interview in order |
| Dashboard.NoPersonaNoRows | uxr_api.py:190-191 | interviews without a persona give no rows |
| Dashboard.ParticipantsFallBack | uxr_api.py:194-197 | the persona list is used exactly when no interview carries a persona |
| Dashboard.SomePersonaSomeRow | uxr_api.py:189-192 | one interview with a persona is enough for a row |
| Dashboard.SampleName | uxr_api.py:225 | naming a sample fails with AttributeError exactly when the persona is missing |
| Dashboard.SamplesFrom | uxr_api.py:220-227 | at most one sample per interview; SamplesSkipUnanswered gives which ones and in what order |
| Dashboard.SampleResponses | uxr_api.py:217-228 | no interviews give no samples; otherwise at most three |
| Dashboard.SamplesFailIff | uxr_api.py:220-227 | sampling fails exactly when some interview with responses has no persona |
| Dashboard.SamplesOfCompleteInterviews | uxr_api.py:220-227 | complete interviews give one sample each: persona name and first answer |
| Dashboard.SamplesSkipUnanswered | uxr_api.py:220-227 | interviews without responses are skipped and the rest keep their order: sample k is the persona name and first answer of the k-th interview with responses (WithResponses) |
| Dashboard.FlaskParticipant | flask_app.py:432-440 | the inline row shows the name, job and age the mapping holds, and falls back to "Unknown", no traits, an empty target and job "N/A" for missing keys |
| Dashboard.FlaskRows | flask_app.py:414-440 | one row per persona, each beside the interview at its index when there is one |
| Dashboard.FlaskStatusRecoversTraits | flask_app.py:436 | the inline status splits back into all of a model's traits |
| Dashboard.FlaskInterviewPersonaRecoverable | flask_app.py:423-425 | the persona filed with an inline row's interview validates back to the model |
| Dashboard.FlaskAgreesWithBridge | flask_app.py:432-440 | the inline and bridge rows agree for one or two traits; with more, the inline row lists them all |
| Enhanced.Candidate | enhanced_uxr.py:80-84 | a candidate exists exactly when the reply has '{' and '['; it runs from the first '[' to the last ']', or is empty without a ']' |
| Enhanced.GeneratePersonas | enhanced_uxr.py:76-100 | failure is always the undefined fallback's NameError; a success is non-empty and has at most the requested number |
| Enhanced.GeneratedIsParsedPrefix | enhanced_uxr.py:80-92 | a success is a prefix of the parsed candidate's list, or of the whole reply's when there is no usable candidate |
| Enhanced.UnparseableCandidateSkipsWholeReply | enhanced_uxr.py:78-98 | an unparseable candidate skips the whole-reply parse and goes straight to the fallback |
| Enhanced.GenerateQuestions | enhanced_uxr.py:112-123 | a parsed list is returned as it is; a parsed non-list gives no questions; a parse failure gives a prefix of the three fixed questions |
| Enhanced.CountBoundsOnlyFallback | enhanced_uxr.py:114-123 | the requested count cuts only the fallback questions: a longer parsed list is returned whole |
| Enhanced.FallbackMentionsQuestion | enhanced_uxr.py:119-123 | the first fixed question names the research question |
| Enhanced.Responses | enhanced_uxr.py:129-147 | one entry per question, in order, with its reply and the persona's name |
| Enhanced.SimulateInterview | enhanced_uxr.py:125-149 | the interview fails exactly when there are questions and name, age or job is missing, with KeyError of the first missing key in that order; otherwise one entry per question, in order, carrying the persona's name |
| Enhanced.OneNamePerInterview | enhanced_uxr.py:143-147 | every entry of an interview carries the same persona name |
| Enhanced.InterviewAll | enhanced_uxr.py:210-217 | a successful loop has one interview per persona and one entry per question |
| Enhanced.InterviewAllFailsIff | enhanced_uxr.py:210-217 | the loop fails exactly when there are questions and some persona is incomplete |
| Enhanced.EnhancedRows | enhanced_uxr.py:224-233 | at most the requested number of rows, numbered from 1 |
| Enhanced.EnhancedRowsMatchBridge | enhanced_uxr.py:224-233 | the stand-alone table is the bridge's mapping-branch table for the same personas |
| Enhanced.SynthesizeInsights | enhanced_uxr.py:173-184 | a parsed reply is used as it is; otherwise the fixed triple names the question in its first and last fields |
| StubPayload.Count | backend/app.py:27 | `range(n)` runs n times, or none for negative n |
| StubPayload.StubAge | backend/app.py:24 | synthetic ages lie in 20..29 |
| StubPayload.StubInterview | backend/app.py:30-47 | one response per requested question, labelled with its number |
| StubPayload.RunStub | backend/app.py:10-59 | always success; counts echoed with defaults 5 and 3; one row and one interview per requested interview, ids from 1 |
| StubPayload.RowMatchesInterview | backend/app.py:18-47 | row i and interview i describe the same participant; the target reads back as the age |
| StubPayload.AudienceOrGenZ | backend/app.py:22 | the participant type is the audience, or "Gen Z" when it is empty |
| StubPayload.StubPersonaNotValid | backend/app.py:32-37 | the stub's persona mappings never validate as personas |
| StubPayload.StubQuestionsDistinct | backend/app.py:40 | two responses of an interview never carry the same question label |
| FlaskHandler.Handle | flask_app.py:291-306 | 400 exactly when question or audience is empty, with the matching message; a success echoes the counts and has one row per requested interview |
| FlaskHandler.Start | flask_app.py:318-330 | the initial state is fresh and carries the request's counts, defaulting to 5 and 3 |
| FlaskHandler.Run | flask_app.py:314-344 | the workflow never answers 400; a success has one row and one dumped persona per requested interview |
| FlaskHandler.HandleFrom | flask_app.py:344-463 | the same after persona generation |
| FlaskHandler.HandleCompletes | flask_app.py:291-472 | a valid request with questions, personas and answer calls that all return gives one row per persona, beside its interview in row-major answer order, with sections parsed from the synthesis |
| FlaskHandler.RunCompletes | flask_app.py:314-440 | the same from the handler's initial state |
| FlaskHandler.HandleFromFresh | flask_app.py:344-440 | the same from a fresh state with personas and questions |
| FlaskHandler.InterviewFailureIsServerError | flask_app.py:474-477 | when answer call n is the first to raise, the handler answers 500 with exactly that exception |

## Left out

- Language-model calls, structured output, `json.loads` and pydantic validation are oracle arguments. Their internals are not modelled.
- Timestamps, elapsed times, progress printing, writing `uxr-result.json`, and the HTTP and CORS layers are left out. They are I/O.
- Only ASCII behaviour is modelled. That covers `str.upper`, `str.strip`, `str.isdigit` and the bullet "• ".
- `int(...)` of a request field is left out. The counts arrive as integers, and a conversion error, which would give a 500 answer, is not modelled.
- The workflow framework's recursion limit is not modelled: 100 steps in the bridge and backend, `max(n·q + 20, 100)` in the Flask handler.
- Pipeline.BackendRun: models `execute_research` with the persona template's braces doubled (the corrected member of the finding below). As written, every backend run stops with KeyError(" personas") before any answer call; that run is Pipeline.BackendRunAsWritten, whose contract proves it.
- Pipeline.BackendRunInterviewRaises: holds of the corrected template only, as above.
- Pipeline.BackendRunCompletes: holds of the corrected template only, as above; it also ignores the recursion limit. A backend run with more than about 97 interview steps would stop with GraphRecursionError.
- Pipeline.BridgeRunCompletes: ignores the recursion limit in the same way.
- Pipeline.BridgeRun: an exception of the workflow is returned as an error. The bridge instead re-runs the stand-alone script and parses its printed JSON, which depends on redirected standard output.
- The bridge's `metadata`, `full_synthesis` and `LANGGRAPH_AVAILABLE` import fallback are left out.
- The format specs `{num_personas}` and `{demographic}` are modelled as plain substitution. Conversions, nested replacement fields inside a spec, and positional fields beyond the empty name are not.
- Templates.Format: an attribute or index access (`{a.b}`, `{a[0]}`) on a present argument substitutes the whole argument. Python would look up the attribute or index on the string instead. A missing argument is modelled exactly: KeyError of the name before the `.` or `[`.
- Prompt texts are not modelled beyond the persona template that causes the finding below.
- The stand-alone script's `generate_fallback_personas` is not defined in any shown file. Reaching it is modelled as NameError.
- The stand-alone script's HTTP fallback in `call_cerebras_api` is left out: it is a network call.
- Personas.PersonaDict: each field is present with a well-typed value or absent. A key present with JSON null or with a value of another type, which `json.loads` of a model reply can give (enhanced_uxr.py:86), is not expressible. For such input `persona['name']` does not raise and `persona.get('name', default)` gives None rather than the default. So Enhanced.SimulateInterview, Enhanced.InterviewAllFailsIff, Enhanced.EnhancedRows, Dashboard.FormatPersona and Dashboard.FlaskParticipant hold only for null-free, well-typed mappings.
- Enhanced.SimulateInterview: its answer oracle returns text only. `call_cerebras_api` catches every exception and returns an "API Error: ..." text instead, so no interview call of the stand-alone script raises.
- The stand-alone script's `main` is modelled through its parts (generation, interview loop, table). Reading environment variables and printing the JSON are I/O.
- Enhanced.Candidate: the guard `json_end != -1` always holds, because an `rfind` plus one is never -1. The model makes this explicit instead of modelling a dead branch.
- The synthesis prompt and interview summary texts are not modelled. Synthesis is an oracle reply.
- InsightExtraction.Extract: the contract does not give each field's exact text. ExtractMatchesBlocks states it through the block reading.
- Where the code and its description differ, the model follows the code:
  - the bridge's extractor keeps the last section of a kind, not the first;
  - it drops the heading line's own text;
  - it strips no emphasis markers.

## Findings

| source | as written | input that shows it | evidently intended | confidence | as-written member | corrected member |
|---|---|---|---|---|---|---|
| backend/uxr_logic.py:126 | the persona prompt's closing hint uses single braces, `{ personas: [ ... ] }`, so `str.format` at line 136 reads it as a field named " personas" | any state: formatting with `num_personas` and `demographic` raises KeyError(" personas") before the first attempt | doubled braces, as in flask_app.py:89, so the hint is literal | not executed | Templates.BackendPersonaNodeAlwaysRaises | Templates.BackendPersonaNodeIsRetryLoop |

=== FILE: dashboard.dfy ===
/** The dashboard's participant table and detail samples, built from a
    finished run. A persona reaches these builders either as a validated
    model or as a plain mapping, and each builder fills a missing field with
    its own default. */
module Dashboard {
  import opened Results
  import opened Personas
  import opened Text
  import opened FollowupWorkflow

  /** `f"Participant {index + 1}"`. */
  function ParticipantName(index: int): string {
    "Participant " + IntToString(index + 1)
  }

  /** The bridge's row for one persona. A model shows its first two traits,
      or "Unknown" when it has none; a mapping falls back to a numbered name,
      the single trait "Unknown", age 25 and job "Unknown". */
  function FormatPersona(shape: PersonaShape, index: int, audience: string): (r: ParticipantRow)
    ensures r.id == index + 1 && r.audience == audience
    ensures shape.Model? ==> r.header == shape.persona.name && r.limit == shape.persona.job
    ensures shape.Model? && shape.persona.traits == [] ==> r.status == "Unknown"
    ensures shape.Mapping? && shape.fields.name.Some? ==> r.header == shape.fields.name.value
    ensures shape.Mapping? && shape.fields.job.Some? ==> r.limit == shape.fields.job.value
    ensures shape.Mapping? && shape.fields.age.Some? ==> r.target == IntToString(shape.fields.age.value)
    ensures shape.Mapping? && shape.fields.name.None? ==> r.header == ParticipantName(index)
    ensures shape.Mapping? && shape.fields.traits.None? ==> r.status == "Unknown"
    ensures shape.Mapping? && shape.fields.age.None? ==> r.target == "25"
    ensures shape.Mapping? && shape.fields.job.None? ==> r.limit == "Unknown"
  {
    match shape
    case Model(p) =>
      ParticipantRow(index + 1, p.name, audience,
                     if p.traits != [] then Join(", ", PyTake(p.traits, 2)) else "Unknown",
                     IntToString(p.age), p.job)
    case Mapping(d) =>
      ParticipantRow(index + 1, d.name.GetOr(ParticipantName(index)), audience,
                     Join(", ", PyTake(d.traits.GetOr(["Unknown"]), 2)),
                     IntToString(d.age.GetOr(25)), d.job.GetOr("Unknown"))
  }

  /** The age a row shows, as a number. */
  function ShownAge(shape: PersonaShape): int {
    match shape
    case Model(p) => p.age
    case Mapping(d) => d.age.GetOr(25)
  }

  /** The traits a row summarises. */
  function ShownTraits(shape: PersonaShape): seq<string> {
    match shape
    case Model(p) => p.traits
    case Mapping(d) => d.traits.GetOr(["Unknown"])
  }

  /** ", " cannot overlap itself, so splitting on it undoes joining with it. */
  lemma CommaSpaceBorderFree()
    ensures BorderFree(", ")
  {
    assert ", "[1..][0] == ' ' && ", "[..1][0] == ',';
  }

  /** The target column reads back as the persona's age (25 when a mapping has none). */
  lemma TargetRecoversAge(shape: PersonaShape, index: int, audience: string)
    ensures var t := FormatPersona(shape, index, audience).target;
      && |t| >= 1 && (t[0] == '-' || IsDigit(t[0]))
      && (forall k :: 1 <= k < |t| ==> IsDigit(t[k]))
      && ParseInt(t) == ShownAge(shape)
  {
    IntToStringRoundTrip(ShownAge(shape));
  }

  /** The status column splits back into the first two traits, provided
      there is a trait to show and none contains the separator itself. */
  lemma StatusRecoversTraits(shape: PersonaShape, index: int, audience: string)
    requires ShownTraits(shape) != []
    requires forall k :: 0 <= k < |ShownTraits(shape)| ==> !Contains(ShownTraits(shape)[k], ", ")
    ensures Split(FormatPersona(shape, index, audience).status, ", ") == PyTake(ShownTraits(shape), 2)
  {
    var ts := PyTake(ShownTraits(shape), 2);
    CommaSpaceBorderFree();
    SplitJoin(ts, ", ");
  }

  /** A model and its dumped mapping give the same row, except that a model
      without traits shows "Unknown" where its mapping shows nothing. */
  lemma ModelMatchesMapping(p: Persona, index: int, audience: string)
    ensures p.traits != [] ==> FormatPersona(Model(p), index, audience) == FormatPersona(Mapping(Dump(p)), index, audience)
    ensures p.traits == [] ==>
      && FormatPersona(Model(p), index, audience).status == "Unknown"
      && FormatPersona(Mapping(Dump(p)), index, audience).status == ""
  {
  }

  /** Python truthiness of the `persona` an interview carries: a missing
      persona and an empty mapping are false. */
  predicate Truthy(persona: Option<PersonaShape>) {
    && persona.Some?
    && (persona.value.Mapping? ==> persona.value.fields != PersonaDict(None, None, None, None, None, None))
  }

  /** One row per interview whose persona is truthy, numbered by the
      interview's position, so the ids rise strictly and skip the
      interviews without a persona. */
  function RowsFromInterviews<E>(ivs: seq<Interview<Option<PersonaShape>, E>>, audience: string): (r: seq<ParticipantRow>)
    ensures |r| <= |ivs|
    ensures forall k :: 0 <= k < |r| ==> 1 <= r[k].id <= |ivs|
    ensures forall k, l :: 0 <= k < l < |r| ==> r[k].id < r[l].id
  {
    if |ivs| == 0 then []
    else
      var rows := RowsFromInterviews(ivs[..|ivs| - 1], audience);
      var p := ivs[|ivs| - 1].persona;
      if Truthy(p) then rows + [FormatPersona(p.value, |ivs| - 1, audience)] else rows
  }

  /** One row per persona, numbered from 1. */
  function RowsFromPersonas(ps: seq<PersonaShape>, audience: string): (r: seq<ParticipantRow>)
    ensures |r| == |ps|
    ensures forall k :: 0 <= k < |r| ==> r[k] == FormatPersona(ps[k], k, audience)
  {
    seq(|ps|, k requires 0 <= k < |ps| => FormatPersona(ps[k], k, audience))
  }

  /** The bridge's participant table: the interviews' personas, or the bare
      persona list when no interview has one. */
  function Participants<E>(ivs: seq<Interview<Option<PersonaShape>, E>>, ps: seq<PersonaShape>,
                           audience: string): (r: seq<ParticipantRow>)
    ensures forall k, l :: 0 <= k < l < |r| ==> r[k].id < r[l].id
    ensures forall k :: 0 <= k < |r| ==> r[k].id >= 1
  {
    var rows := RowsFromInterviews(ivs, audience);
    if rows == [] then RowsFromPersonas(ps, audience) else rows
  }

  /** When every interview carries a persona, the table has one row per
      interview, in order. */
  lemma {:induction false} EveryInterviewGivesARow<E>(ivs: seq<Interview<Option<PersonaShape>, E>>, audience: string)
    requires forall k :: 0 <= k < |ivs| ==> Truthy(ivs[k].persona)
    ensures var r := RowsFromInterviews(ivs, audience);
      |r| == |ivs| && forall k :: 0 <= k < |ivs| ==> ivs[k].persona.Some? && r[k] == FormatPersona(ivs[k].persona.value, k, audience)
  {
    if |ivs| > 0 {
      var init := ivs[..|ivs| - 1];
      EveryInterviewGivesARow(init, audience);
    }
  }

  /** Interviews without a persona contribute no rows. */
  lemma {:induction false} NoPersonaNoRows<E>(ivs: seq<Interview<Option<PersonaShape>, E>>, audience: string)
    requires forall k :: 0 <= k < |ivs| ==> !Truthy(ivs[k].persona)
    ensures RowsFromInterviews(ivs, audience) == []
  {
    if |ivs| > 0 {
      NoPersonaNoRows(ivs[..|ivs| - 1], audience);
    }
  }

  /** The persona list is used exactly when no interview carries a persona. */
  lemma ParticipantsFallBack<E>(ivs: seq<Interview<Option<PersonaShape>, E>>, ps: seq<PersonaShape>, audience: string)
    ensures (forall k :: 0 <= k < |ivs| ==> !Truthy(ivs[k].persona))
            ==> Participants(ivs, ps, audience) == RowsFromPersonas(ps, audience)
    ensures (exists k :: 0 <= k < |ivs| && Truthy(ivs[k].persona))
            ==> Participants(ivs, ps, audience) == RowsFromInterviews(ivs, audience)
  {
    if forall k :: 0 <= k < |ivs| ==> !Truthy(ivs[k].persona) {
      NoPersonaNoRows(ivs, audience);
    } else {
      var k :| 0 <= k < |ivs| && Truthy(ivs[k].persona);
      SomePersonaSomeRow(ivs, audience, k);
    }
  }

  lemma {:induction false} SomePersonaSomeRow<E>(ivs: seq<Interview<Option<PersonaShape>, E>>, audience: string, k: nat)
    requires k < |ivs| && Truthy(ivs[k].persona)
    ensures RowsFromInterviews(ivs, audience) != []
  {
    if k < |ivs| - 1 {
      SomePersonaSomeRow(ivs[..|ivs| - 1], audience, k);
    }
  }

  /** One entry of the detail view's samples. */
  datatype Sample = Sample(personaName: string, sampleAnswer: string)

  /** The name a sample shows: a model's name, a mapping's name or
      "Unknown"; a missing persona has no `.get`, which raises. */
  function SampleName(persona: Option<PersonaShape>): (r: Result<string>)
    ensures r.Err? <==> persona.None?
    ensures r.Err? ==> r.error == AttributeError
  {
    match persona
    case None => Err(AttributeError)
    case Some(Model(p)) => Ok(p.name)
    case Some(Mapping(d)) => Ok(d.name.GetOr("Unknown"))
  }

  /** The samples of these interviews, one per interview with responses:
      its persona's name and its first answer. */
  function SamplesFrom(ivs: seq<Interview<Option<PersonaShape>, CoreEntry>>): (r: Result<seq<Sample>>)
    ensures r.Ok? ==> |r.value| <= |ivs|
  {
    if |ivs| == 0 then Ok([])
    else
      match SamplesFrom(ivs[..|ivs| - 1])
      case Err(e) => Err(e)
      case Ok(ss) =>
        var iv := ivs[|ivs| - 1];
        if iv.responses == [] then Ok(ss)
        else
          match SampleName(iv.persona)
          case Err(e) => Err(e)
          case Ok(name) => Ok(ss + [Sample(name, iv.responses[0].answer)])
  }

  /** `sample_responses`: absent when there are no interviews, otherwise
      drawn from the first three. */
  function SampleResponses(ivs: seq<Interview<Option<PersonaShape>, CoreEntry>>): (r: Result<Option<seq<Sample>>>)
    ensures ivs == [] ==> r == Ok(None)
    ensures r.Ok? && r.value.Some? ==> |r.value.value| <= 3
  {
    if ivs == [] then Ok(None)
    else
      match SamplesFrom(PyTake(ivs, 3))
      case Err(e) => Err(e)
      case Ok(ss) => Ok(Some(ss))
  }

  /** Collecting samples fails exactly when some interview with responses
      has no persona. */
  lemma {:induction false} SamplesFailIff(ivs: seq<Interview<Option<PersonaShape>, CoreEntry>>)
    ensures SamplesFrom(ivs).Err? <==> exists k :: 0 <= k < |ivs| && ivs[k].responses != [] && ivs[k].persona.None?
  {
    if |ivs| > 0 {
      var init := ivs[..|ivs| - 1];
      SamplesFailIff(init);
      if exists k :: 0 <= k < |init| && init[k].responses != [] && init[k].persona.None? {
        var k :| 0 <= k < |init| && init[k].responses != [] && init[k].persona.None?;
        assert ivs[k] == init[k];
      } else {
        forall k | 0 <= k < |ivs| - 1
          ensures !(ivs[k].responses != [] && ivs[k].persona.None?)
        {
          assert ivs[k] == init[k];
        }
      }
    }
  }

  /** When every interview has responses and a persona, there is one sample
      per interview, its persona's name beside its first answer. */
  lemma {:induction false} SamplesOfCompleteInterviews(ivs: seq<Interview<Option<PersonaShape>, CoreEntry>>)
    requires forall k :: 0 <= k < |ivs| ==> ivs[k].responses != [] && ivs[k].persona.Some?
    ensures SamplesFrom(ivs).Ok?
    ensures var ss := SamplesFrom(ivs).value;
      |ss| == |ivs|
      && forall k :: 0 <= k < |ss| ==>
           ss[k] == Sample(SampleName(ivs[k].persona).value, ivs[k].responses[0].answer)
  {
    if |ivs| > 0 {
      SamplesOfCompleteInterviews(ivs[..|ivs| - 1]);
    }
  }

  /** Reference filter: the interviews that have responses, in order. */
  function WithResponses<P>(ivs: seq<Interview<P, CoreEntry>>): (r: seq<Interview<P, CoreEntry>>)
    ensures |r| <= |ivs|
    ensures forall k :: 0 <= k < |r| ==> r[k].responses != [] && r[k] in ivs
  {
    if |ivs| == 0 then []
    else if ivs[|ivs| - 1].responses == [] then WithResponses(ivs[..|ivs| - 1])
    else WithResponses(ivs[..|ivs| - 1]) + [ivs[|ivs| - 1]]
  }

  /** Interviews without responses are skipped and the others keep their
      order: sample k is filtered interview k's persona name beside its
      first answer. */
  lemma {:induction false} SamplesSkipUnanswered(ivs: seq<Interview<Option<PersonaShape>, CoreEntry>>)
    requires SamplesFrom(ivs).Ok?
    ensures var ss := SamplesFrom(ivs).value; var f := WithResponses(ivs);
      |ss| == |f|
      && forall k :: 0 <= k < |ss| ==>
           f[k].persona.Some?
           && ss[k] == Sample(SampleName(f[k].persona).value, f[k].responses[0].answer)
  {
    if |ivs| > 0 {
      SamplesSkipUnanswered(ivs[..|ivs| - 1]);
    }
  }

  /** The inline handler's reading of a persona mapping: name "Unknown",
      every trait joined, an empty target without an age, job "N/A". */
  function FlaskParticipant(d: PersonaDict, index: int, demographic: string): (r: ParticipantRow)
    ensures r.id == index + 1 && r.audience == demographic
    ensures d.name.Some? ==> r.header == d.name.value
    ensures d.job.Some? ==> r.limit == d.job.value
    ensures d.age.Some? ==> r.target == IntToString(d.age.value)
    ensures d.name.None? ==> r.header == "Unknown"
    ensures d.traits.None? ==> r.status == ""
    ensures d.age.None? ==> r.target == ""
    ensures d.job.None? ==> r.limit == "N/A"
  {
    ParticipantRow(index + 1, d.name.GetOr("Unknown"), demographic,
                   Join(", ", d.traits.GetOr([])),
                   if d.age.Some? then IntToString(d.age.value) else "",
                   d.job.GetOr("N/A"))
  }

  /** A row of the inline handler's table, with the interview at the same
      position when there is one. */
  datatype FlaskRow = FlaskRow(row: ParticipantRow, interview: Option<Interview<PersonaDict, Entry>>)

  /** One row per persona, each paired with the interview at its index. */
  function FlaskRows(personas: seq<PersonaShape>, ivs: seq<Interview<PersonaShape, Entry>>,
                     demographic: string): (r: seq<FlaskRow>)
    ensures |r| == |personas|
    ensures forall k :: 0 <= k < |r| ==> r[k].row == FlaskParticipant(AsMapping(WithBackground, personas[k]), k, demographic)
    ensures forall k :: 0 <= k < |r| ==> (r[k].interview.Some? <==> k < |ivs|)
    ensures forall k :: 0 <= k < |r| && k < |ivs| ==>
      r[k].interview.value == Interview(AsMapping(WithBackground, ivs[k].persona), ivs[k].responses)
  {
    seq(|personas|, k requires 0 <= k < |personas| =>
      FlaskRow(FlaskParticipant(AsMapping(WithBackground, personas[k]), k, demographic),
               if k < |ivs| then Some(Interview(AsMapping(WithBackground, ivs[k].persona), ivs[k].responses)) else None))
  }

  /** The inline table's status splits back into all of a model's traits. */
  lemma FlaskStatusRecoversTraits(p: Persona, index: int, demographic: string)
    requires p.traits != []
    requires forall k :: 0 <= k < |p.traits| ==> !Contains(p.traits[k], ", ")
    ensures Split(FlaskParticipant(Dump(p), index, demographic).status, ", ") == p.traits
  {
    CommaSpaceBorderFree();
    SplitJoin(p.traits, ", ");
  }

  /** The persona filed with an interview validates back to the model it was. */
  lemma FlaskInterviewPersonaRecoverable(personas: seq<PersonaShape>, ivs: seq<Interview<PersonaShape, Entry>>,
                                         demographic: string, k: nat, p: Persona)
    requires k < |personas| && k < |ivs| && ivs[k].persona == Model(p)
    ensures Load(FlaskRows(personas, ivs, demographic)[k].interview.value.persona) == Some(p)
  {
  }

  /** For a model with one or two traits the two tables agree on the row;
      with more traits the inline table lists them all, the bridge only two. */
  lemma FlaskAgreesWithBridge(p: Persona, index: int, audience: string)
    ensures 1 <= |p.traits| <= 2 ==> FlaskParticipant(Dump(p), index, audience) == FormatPersona(Model(p), index, audience)
    ensures |p.traits| > 2 && (forall k :: 0 <= k < |p.traits| ==> !Contains(p.traits[k], ", "))
            ==> FlaskParticipant(Dump(p), index, audience).status != FormatPersona(Model(p), index, audience).status
  {
    if |p.traits| > 2 && (forall k :: 0 <= k < |p.traits| ==> !Contains(p.traits[k], ", ")) {
      FlaskStatusRecoversTraits(p, index, audience);
      StatusRecoversTraits(Model(p), index, audience);
      assert |PyTake(p.traits, 2)| == 2;
    }
  }
}

=== FILE: enhanced.dfy ===
/** The stand-alone simulator used when the workflow library is missing:
    plain prompts whose replies are parsed as JSON, with fallbacks when
    parsing fails. Each reply comes from an oracle; what `json.loads` made
    of a text is a second oracle. */
module Enhanced {
  import opened Results
  import opened Personas
  import opened Text
  import opened InsightExtraction
  import opened Dashboard

  /** What `json.loads` made of a text. */
  datatype Parsed<T> =
    | ParsedList(items: seq<T>)  // a JSON array
    | ParsedOther                // valid JSON, but not an array
    | Unparseable                // `json.loads` raised

  /** The fallback the persona generator calls, which no shown file defines. */
  const FallbackGenerator := "generate_fallback_personas"

  /** A text contains any text it has in the middle. */
  lemma ContainsMiddle(a: string, t: string, b: string)
    ensures Contains(a + t + b, t)
  {
    assert (a + t + b)[|a|..|a| + |t|] == t;
    assert OccursAt(a + t + b, t, |a|);
  }

  /** A text contains its own ending. */
  lemma ContainsEnd(a: string, t: string)
    ensures Contains(a + t, t)
  {
    assert (a + t)[|a|..|a| + |t|] == t;
    assert OccursAt(a + t, t, |a|);
  }

  /** The JSON candidate: from the first '[' through the last ']', tried only
      when the reply contains '{' and a '['. The guard on the end index
      always passes (an rfind plus one is never -1), so without a ']' the
      candidate is empty. */
  function Candidate(response: string): (c: Option<string>)
    ensures c.Some? <==> Contains(response, "{") && Contains(response, "[")
    ensures c.Some? && Contains(response, "]") && IndexOf(response, "[") < LastIndexOf(response, "]") ==>
      && c.value == response[IndexOf(response, "[")..LastIndexOf(response, "]") + 1]
      && c.value[0] == '[' && c.value[|c.value| - 1] == ']'
    ensures c.Some? && !Contains(response, "]") ==> c.value == []
  {
    if Contains(response, "{") && IndexOf(response, "[") != -1
    then
      BracketedEnds(response);
      Some(PySlice(response, IndexOf(response, "["), LastIndexOf(response, "]") + 1))
    else None
  }

  /** The text from the first '[' through a later last ']' starts and ends
      with those brackets. */
  lemma BracketedEnds(s: string)
    ensures var a := IndexOf(s, "["); var b := LastIndexOf(s, "]");
      0 <= a < b ==> b < |s| && s[a..b + 1][0] == '[' && s[a..b + 1][b - a] == ']'
  {
    var a := IndexOf(s, "[");
    var b := LastIndexOf(s, "]");
    if 0 <= a < b {
      assert s[a..a + 1] == "[";
      assert s[b..b + 1] == "]";
      assert s[a..b + 1][0] == s[a];
      assert s[a..b + 1][b - a] == s[b];
    }
  }

  /** Persona generation: the bracketed candidate if it parses to a non-empty
      list, else the whole reply if that does; every success is cut to the
      requested number. Anything else reaches the undefined fallback. */
  function GeneratePersonas(response: string, num: int, parse: string -> Parsed<PersonaDict>): (r: Result<seq<PersonaDict>>)
    ensures r.Err? ==> r.error == NameError(FallbackGenerator)
    ensures r.Ok? && num >= 0 ==> |r.value| <= num
    ensures r.Ok? ==> r.value != [] || num <= 0
  {
    var c := Candidate(response);
    if c.Some? && parse(c.value).Unparseable? then Err(NameError(FallbackGenerator))
    else if c.Some? && parse(c.value).ParsedList? && parse(c.value).items != [] then Ok(PyTake(parse(c.value).items, num))
    else match parse(response)
      case ParsedList(xs) => if xs != [] then Ok(PyTake(xs, num)) else Err(NameError(FallbackGenerator))
      case _ => Err(NameError(FallbackGenerator))
  }

  /** A successful generation returns a prefix of the list parsed from the
      candidate when the candidate was usable, and of the whole reply otherwise;
      it is the whole list when no more were returned than asked for. */
  lemma GeneratedIsParsedPrefix(response: string, num: int, parse: string -> Parsed<PersonaDict>)
    requires GeneratePersonas(response, num, parse).Ok?
    ensures var ps := GeneratePersonas(response, num, parse).value;
      var c := Candidate(response);
      var src := if c.Some? && parse(c.value).ParsedList? && parse(c.value).items != []
                 then parse(c.value).items else parse(response).items;
      && (c.None? || !parse(c.value).ParsedList? || parse(c.value).items == [] ==> parse(response).ParsedList?)
      && ps == src[..|ps|]
      && (|src| <= num ==> ps == src)
  {
  }

  /** A failed candidate parse never falls back to the whole reply: the
      exception skips straight to the fallback. */
  lemma UnparseableCandidateSkipsWholeReply(response: string, num: int, p1: string -> Parsed<PersonaDict>,
                                            p2: string -> Parsed<PersonaDict>)
    requires Candidate(response).Some?
    requires p1(Candidate(response).value) == p2(Candidate(response).value) == Unparseable
    ensures GeneratePersonas(response, num, p1) == GeneratePersonas(response, num, p2) == Err(NameError(FallbackGenerator))
  {
  }

  /** The three questions used when the reply does not parse. */
  function FallbackQuestions(question: string): seq<string> {
    ["How do you feel about " + question + "?",
     "What concerns or excitement does this bring up for you?",
     "How might this impact your daily routine?"]
  }

  /** Question generation: a parsed list as it is, a parsed non-list as no
      questions at all, and on a parse failure the fixed questions cut to
      the requested number. */
  function GenerateQuestions(question: string, num: int, parsed: Parsed<string>): (r: seq<string>)
    ensures parsed.ParsedList? ==> r == parsed.items
    ensures parsed.ParsedOther? ==> r == []
    ensures parsed.Unparseable? ==> |r| <= 3 && r == FallbackQuestions(question)[..|r|]
    ensures parsed.Unparseable? && num >= 0 ==> |r| == if num < 3 then num else 3
  {
    match parsed
    case ParsedList(qs) => qs
    case ParsedOther => []
    case Unparseable => PyTake(FallbackQuestions(question), num)
  }

  /** The requested count bounds only the fallback: a parsed list longer
      than requested is returned whole, while the fallback never exceeds
      the request. */
  lemma CountBoundsOnlyFallback(question: string, num: nat, items: seq<string>)
    requires |items| > num
    ensures |GenerateQuestions(question, num, ParsedList(items))| > num
    ensures |GenerateQuestions(question, num, Unparseable)| <= num
  {
  }

  /** The first fallback question names the research question. */
  lemma FallbackMentionsQuestion(question: string, num: int)
    requires num >= 1
    ensures Contains(GenerateQuestions(question, num, Unparseable)[0], question)
  {
    ContainsMiddle("How do you feel about ", question, "?");
  }

  /** One answered question of the stand-alone interview. */
  datatype EnhancedEntry = EnhancedEntry(question: string, response: string, personaName: string)

  /** The entries for these questions, in order, the `j`-th answered by
      reply `j`. */
  function Responses(name: string, questions: seq<string>, answer: nat -> string): (r: seq<EnhancedEntry>)
    ensures |r| == |questions|
    ensures forall j :: 0 <= j < |r| ==> r[j] == EnhancedEntry(questions[j], answer(j), name)
  {
    if |questions| == 0 then []
    else
      var n := |questions| - 1;
      Responses(name, questions[..n], answer) + [EnhancedEntry(questions[n], answer(n), name)]
  }

  /** `simulate_interview`: each prompt reads the persona's name, age and
      job, so a persona missing one of them raises KeyError on the first
      question; without questions nothing is read. */
  function SimulateInterview(persona: PersonaDict, questions: seq<string>, answer: nat -> string): (r: Result<seq<EnhancedEntry>>)
    ensures r.Err? <==> questions != [] && (persona.name.None? || persona.age.None? || persona.job.None?)
    ensures r.Err? && persona.name.None? ==> r.error == KeyError("name")
    ensures r.Err? && persona.name.Some? && persona.age.None? ==> r.error == KeyError("age")
    ensures r.Err? && persona.name.Some? && persona.age.Some? ==> r.error == KeyError("job")
    ensures r.Ok? ==> |r.value| == |questions|
    ensures r.Ok? ==> forall j :: 0 <= j < |questions| ==>
      r.value[j].question == questions[j] && r.value[j].response == answer(j)
      && (persona.name.Some? ==> r.value[j].personaName == persona.name.value)
  {
    if questions == [] then Ok([])
    else if persona.name.None? then Err(KeyError("name"))
    else if persona.age.None? then Err(KeyError("age"))
    else if persona.job.None? then Err(KeyError("job"))
    else Ok(Responses(persona.name.value, questions, answer))
  }

  /** Every entry of one interview carries the same persona name. */
  lemma OneNamePerInterview(persona: PersonaDict, questions: seq<string>, answer: nat -> string)
    requires SimulateInterview(persona, questions, answer).Ok?
    ensures forall j :: 0 <= j < |questions| ==>
      SimulateInterview(persona, questions, answer).value[j].personaName == persona.name.value
  {
  }

  /** One stand-alone interview: the persona's name and its entries. */
  datatype EnhancedInterview = EnhancedInterview(personaName: string, responses: seq<EnhancedEntry>)

  /** The interview loop of the stand-alone run over the (already cut)
      personas; `answer(i, j)` is the reply to question `j` of persona `i`. */
  function InterviewAll(ps: seq<PersonaDict>, questions: seq<string>, answer: (nat, nat) -> string): (r: Result<seq<EnhancedInterview>>)
    ensures r.Ok? ==> |r.value| == |ps|
    ensures r.Ok? ==> forall i :: 0 <= i < |ps| ==> |r.value[i].responses| == |questions|
  {
    if |ps| == 0 then Ok([])
    else
      var i: nat := |ps| - 1;
      match InterviewAll(ps[..i], questions, answer)
      case Err(e) => Err(e)
      case Ok(ivs) =>
        match SimulateInterview(ps[i], questions, (j: nat) => answer(i, j))
        case Err(e) => Err(e)
        case Ok(entries) => Ok(ivs + [EnhancedInterview(ps[i].name.GetOr(ParticipantName(i)), entries)])
  }

  /** A persona that would make its prompt fail. */
  predicate Incomplete(d: PersonaDict) {
    d.name.None? || d.age.None? || d.job.None?
  }

  /** The loop fails exactly when there are questions and some persona lacks
      a name, an age or a job. */
  lemma {:induction false} InterviewAllFailsIff(ps: seq<PersonaDict>, questions: seq<string>, answer: (nat, nat) -> string)
    ensures InterviewAll(ps, questions, answer).Err? <==>
      questions != [] && exists i :: 0 <= i < |ps| && Incomplete(ps[i])
  {
    if |ps| > 0 {
      var i := |ps| - 1;
      var init := ps[..i];
      InterviewAllFailsIff(init, questions, answer);
      if exists k :: 0 <= k < i && Incomplete(init[k]) {
        var k :| 0 <= k < i && Incomplete(init[k]);
        assert ps[k] == init[k];
      }
      if exists k :: 0 <= k < |ps| && Incomplete(ps[k]) {
        var k :| 0 <= k < |ps| && Incomplete(ps[k]);
        if k < i {
          assert init[k] == ps[k];
        }
      }
    }
  }

  /** The stand-alone table: the first `num` personas through the bridge's
      mapping branch. */
  function EnhancedRows(personas: seq<PersonaDict>, num: int, audience: string): (r: seq<ParticipantRow>)
    ensures |r| <= |personas| && (num >= 0 ==> |r| <= num)
    ensures forall i :: 0 <= i < |r| ==> r[i].id == i + 1
  {
    var ps := PyTake(personas, num);
    seq(|ps|, i requires 0 <= i < |ps| => FormatPersona(Mapping(ps[i]), i, audience))
  }

  /** The stand-alone table is the bridge's fallback table for the same
      personas: same defaults, same two-trait status, same numbering. */
  lemma EnhancedRowsMatchBridge(personas: seq<PersonaDict>, num: int, audience: string)
    ensures var ps := PyTake(personas, num);
      EnhancedRows(personas, num, audience)
      == Participants<Entry>([],
                      seq(|ps|, i requires 0 <= i < |ps| => Mapping(ps[i])), audience)
  {
  }

  /** `synthesize_insights`: the parsed reply, or on a parse failure a fixed
      triple whose first and last fields name the research question. */
  function SynthesizeInsights(question: string, parsed: Option<Insights>): (r: Insights)
    ensures parsed.Some? ==> r == parsed.value
    ensures parsed.None? ==> Contains(r.keyInsights, question) && Contains(r.takeaways, question)
    ensures parsed.None? ==> r.observations != []
  {
    match parsed
    case Some(ins) => ins
    case None =>
      ContainsEnd("Users showed varied reactions to the research question: ", question);
      ContainsEnd("Consider user diversity when implementing changes related to ", question);
      Insights("Users showed varied reactions to the research question: " + question,
               "Participants expressed both concerns and interest based on their backgrounds",
               "Consider user diversity when implementing changes related to " + question)
  }
}

=== FILE: flask_handler.dfy ===
/** The Flask server's research endpoint: it validates the request, runs the
    workflow graph without follow-ups, parses the synthesis into the three
    dashboard fields and builds one table row per persona, each beside the
    interview at the same position. */
module FlaskHandler {
  import opened Results
  import opened Personas
  import opened Workflow
  import opened PersonaGeneration
  import opened Nodes
  import opened InsightExtraction
  import opened InlineSections
  import opened Dashboard
  import opened Serialization
  import opened Pipeline

  /** The request fields the handler reads; a missing count takes 5
      interviews or 3 questions, a missing text is empty. */
  datatype Request = Request(question: Option<string>, audience: Option<string>,
                             numInterviews: Option<int>, numQuestions: Option<int>)

  /** The `data` of a successful answer: the dumped run, the parsed
      sections and the participant table. */
  datatype ResultData = ResultData(payload: Serialized, sections: Insights, participants: seq<FlaskRow>)

  /** The handler's three kinds of answer: 400 with a message, 500 with the
      exception that escaped the workflow, or success. */
  datatype Reply =
    | BadRequest(message: string)
    | ServerError(error: Error)
    | Success(data: ResultData)

  const QuestionRequired := "Research question is required"
  const DemographicRequired := "Target demographic is required"

  /** `run_uxr`: both texts are required, the counts are used as given
      (no default replaces a zero), and any exception of the workflow
      becomes a 500 answer. */
  function Handle(req: Request, o: Oracles): (r: Reply)
    ensures r.BadRequest? <==> req.question.GetOr("") == "" || req.audience.GetOr("") == ""
    ensures req.question.GetOr("") == "" ==> r == BadRequest(QuestionRequired)
    ensures req.question.GetOr("") != "" && req.audience.GetOr("") == "" ==> r == BadRequest(DemographicRequired)
    ensures r.Success? ==>
      && r.data.payload.numInterviews == req.numInterviews.GetOr(5)
      && r.data.payload.numQuestions == req.numQuestions.GetOr(3)
      && |r.data.participants| == |r.data.payload.personas| == req.numInterviews.GetOr(5)
  {
    if req.question.GetOr("") == "" then BadRequest(QuestionRequired)
    else if req.audience.GetOr("") == "" then BadRequest(DemographicRequired)
    else Run(Start(req), o)
  }

  /** The initial state the handler builds from the request. */
  function Start(req: Request): (s: RunState<Entry>)
    ensures Fresh(s) && s.personas == [] && s.questions == []
    ensures s.targetDemographic == req.audience.GetOr("")
    ensures s.numInterviews == req.numInterviews.GetOr(5) && s.numQuestions == req.numQuestions.GetOr(3)
  {
    RunState(req.question.GetOr(""), req.audience.GetOr(""), req.numInterviews.GetOr(5),
             req.numQuestions.GetOr(3), [], [], 0, 0, [], [], "")
  }

  /** The workflow inside the handler's `try`: configuration, personas, then the rest. */
  function Run(s0: RunState<Entry>, o: Oracles): (r: Reply)
    ensures !r.BadRequest?
    ensures r.Success? ==>
      && r.data.payload.numInterviews == s0.numInterviews && r.data.payload.numQuestions == s0.numQuestions
      && |r.data.participants| == |r.data.payload.personas| == s0.numInterviews
  {
    match ConfigureNode(s0, o.questions)
    case Err(e) => ServerError(e)
    case Ok(s1) =>
      match PersonaNode(Detailed, s1, o.attempts)
      case Err(e) => ServerError(e)
      case Ok(s2) => HandleFrom(s2, o)
  }

  /** The handler after the persona node: the interview loop, synthesis,
      the section parser and the participant table. */
  function HandleFrom(s: RunState<Entry>, o: Oracles): (r: Reply)
    ensures !r.BadRequest?
    ensures r.Success? ==>
      && r.data.payload.numInterviews == s.numInterviews && r.data.payload.numQuestions == s.numQuestions
      && |r.data.participants| == |r.data.payload.personas| == |s.personas|
  {
    match Conduct(s, o.answers, 0)
    case Err(e) => ServerError(e)
    case Ok(s3) =>
      var t := SynthesisNode(s3, o.synthesis);
      var m := AsStateMap(t);
      Success(ResultData(Serialize(WithBackground, m), ParseSections(t.synthesis),
                         FlaskRows(m.personas.value, m.interviews.value, t.targetDemographic)))
  }

  /** `rows` tabulates a finished run over personas `ps` and questions
      `qs`: one row per persona, in order, each beside that persona's
      interview, whose j-th response answers question j with answer call
      k·Q + j. */
  predicate Tabulates(rows: seq<FlaskRow>, ps: seq<Persona>, qs: seq<string>, demographic: string,
                      answers: nat -> Result<string>) {
    RowsShowPersonas(rows, ps, qs, demographic) && RowsShowAnswers(rows, ps, qs, answers)
  }

  /** One row per persona, in order, each beside an interview of that
      persona with one response per question. */
  predicate RowsShowPersonas(rows: seq<FlaskRow>, ps: seq<Persona>, qs: seq<string>, demographic: string) {
    && |rows| == |ps|
    && (forall k :: 0 <= k < |ps| ==>
          && rows[k].row == FlaskParticipant(Dump(ps[k]), k, demographic)
          && rows[k].interview.Some?
          && rows[k].interview.value.persona == Dump(ps[k])
          && |rows[k].interview.value.responses| == |qs|)
  }

  /** Row k's j-th response answers question j with answer call k·Q + j. */
  predicate RowsShowAnswers(rows: seq<FlaskRow>, ps: seq<Persona>, qs: seq<string>, answers: nat -> Result<string>) {
    && |rows| == |ps|
    && forall k, j :: 0 <= k < |ps| && 0 <= j < |qs| ==>
      && rows[k].interview.Some? && j < |rows[k].interview.value.responses|
      && rows[k].interview.value.responses[j].question == qs[j]
      && answers(RowStart(k, |qs|) + j) == Ok(rows[k].interview.value.responses[j].answer)
  }

  /** `d` reports a finished run: its table tabulates the run, and its
      sections are parsed from the synthesis the payload carries, which is
      the synthesis reply's text whenever the call answered. */
  predicate ReportsRun(d: ResultData, ps: seq<Persona>, qs: seq<string>, demographic: string, o: Oracles) {
    && Tabulates(d.participants, ps, qs, demographic, o.answers)
    && d.sections == ParseSections(d.payload.synthesis)
    && (o.synthesis.Answered? ==> d.payload.synthesis == o.synthesis.text)
  }

  /** A valid request whose question call returns questions, whose
      persona loop succeeds and whose answer calls all return is answered
      with a report of the run over the generated personas and the returned
      questions. A failed synthesis call does not stop the run. */
  lemma HandleCompletes(req: Request, o: Oracles)
    requires req.question.GetOr("") != "" && req.audience.GetOr("") != ""
    requires o.questions.Returned? && |o.questions.questions| >= 1
    requires Generate(Detailed, req.numInterviews.GetOr(5), o.attempts).Ok? && req.numInterviews.GetOr(5) >= 1
    requires Returns(o.answers, 0, RowStart(|Generate(Detailed, req.numInterviews.GetOr(5), o.attempts).value|,
                                            |o.questions.questions|))
    ensures Handle(req, o).Success?
    ensures ReportsRun(Handle(req, o).data, Generate(Detailed, req.numInterviews.GetOr(5), o.attempts).value,
                       o.questions.questions, req.audience.value, o)
  {
    RunCompletes(Start(req), o);
  }

  /** A valid request whose question call returns questions and whose
      persona loop succeeds, but whose answer call n is the first to raise:
      the exception reaches the handler's `except` and becomes a 500 answer
      carrying it, unlike a failed synthesis call. */
  lemma InterviewFailureIsServerError(req: Request, o: Oracles, n: nat)
    requires req.question.GetOr("") != "" && req.audience.GetOr("") != ""
    requires o.questions.Returned? && |o.questions.questions| >= 1
    requires Generate(Detailed, req.numInterviews.GetOr(5), o.attempts).Ok?
    requires n < RowStart(|Generate(Detailed, req.numInterviews.GetOr(5), o.attempts).value|, |o.questions.questions|)
    requires Returns(o.answers, 0, n) && o.answers(n).Err?
    ensures Handle(req, o) == ServerError(o.answers(n).error)
  {
    var s0 := Start(req);
    var s1 := ConfigureNode(s0, o.questions).value;
    var s2 := PersonaNode(Detailed, s1, o.attempts).value;
    assert s2.personas == Generate(Detailed, s0.numInterviews, o.attempts).value;
    assert s2.questions == o.questions.questions;
    assert |s2.personas| >= 1 by {
      assert n < RowStart(|s2.personas|, |s2.questions|);
    }
    ConductFromFreshRaises(s2, o.answers, n);
    assert Run(s0, o) == HandleFrom(s2, o);
  }

  /** The same from the handler's initial state. */
  lemma RunCompletes(s0: RunState<Entry>, o: Oracles)
    requires Fresh(s0) && s0.numInterviews >= 1
    requires o.questions.Returned? && |o.questions.questions| >= 1
    requires Generate(Detailed, s0.numInterviews, o.attempts).Ok?
    requires Returns(o.answers, 0, RowStart(|Generate(Detailed, s0.numInterviews, o.attempts).value|,
                                            |o.questions.questions|))
    ensures Run(s0, o).Success?
    ensures ReportsRun(Run(s0, o).data, Generate(Detailed, s0.numInterviews, o.attempts).value,
                       o.questions.questions, s0.targetDemographic, o)
  {
    var s1 := ConfigureNode(s0, o.questions).value;
    var s2 := PersonaNode(Detailed, s1, o.attempts).value;
    assert s2.personas == Generate(Detailed, s0.numInterviews, o.attempts).value;
    assert s2.questions == o.questions.questions && s2.targetDemographic == s0.targetDemographic;
    HandleFromFresh(s2, o);
    assert Run(s0, o) == HandleFrom(s2, o);
  }

  /** From a fresh state with personas and questions whose answer calls all
      return, the handler's table pairs each persona with its own interview. */
  lemma HandleFromFresh(s: RunState<Entry>, o: Oracles)
    requires Fresh(s) && |s.personas| >= 1 && |s.questions| >= 1
    requires Returns(o.answers, 0, RowStart(|s.personas|, |s.questions|))
    ensures HandleFrom(s, o).Success?
    ensures ReportsRun(HandleFrom(s, o).data, s.personas, s.questions, s.targetDemographic, o)
  {
    ConductFromFresh(s, o.answers);
    var t3 := Conduct(s, o.answers, 0).value;
    var t := SynthesisNode(t3, o.synthesis);
    var m := AsStateMap(t);
    var d := ResultData(Serialize(WithBackground, m), ParseSections(t.synthesis),
                        FlaskRows(m.personas.value, m.interviews.value, t.targetDemographic));
    assert HandleFrom(s, o) == Success(d);
    TableOfRun(s, t3, t, o.answers);
    assert d.payload.synthesis == t.synthesis;
  }

  /** The table built from a finished loop's run: every row sits beside its
      persona's interview, with the answers in row-major call order. */
  lemma TableOfRun(s: RunState<Entry>, t3: RunState<Entry>, t: RunState<Entry>, answers: nat -> Result<string>)
    requires InterviewedInOrder(s, t3, answers) && t == t3.(synthesis := t.synthesis)
    ensures var m := AsStateMap(t);
      Tabulates(FlaskRows(m.personas.value, m.interviews.value, t.targetDemographic),
                s.personas, s.questions, s.targetDemographic, answers)
  {
    var m := AsStateMap(t);
    var rows := FlaskRows(m.personas.value, m.interviews.value, t.targetDemographic);
    forall k | 0 <= k < |s.personas|
      ensures rows[k] == FlaskRow(FlaskParticipant(Dump(s.personas[k]), k, s.targetDemographic),
                                  Some(Interview(Dump(s.personas[k]), t3.interviews[k].responses)))
    {
      RowOfRun(s, t3, t, answers, k);
    }
    RowsTabulate(rows, s, t3, answers);
  }

  /** Rows that pair each persona with its interview of a finished loop
      tabulate the run. */
  lemma RowsTabulate(rows: seq<FlaskRow>, s: RunState<Entry>, t3: RunState<Entry>, answers: nat -> Result<string>)
    requires InterviewedInOrder(s, t3, answers) && |rows| == |s.personas|
    requires forall k :: 0 <= k < |s.personas| ==>
      rows[k] == FlaskRow(FlaskParticipant(Dump(s.personas[k]), k, s.targetDemographic),
                          Some(Interview(Dump(s.personas[k]), t3.interviews[k].responses)))
    ensures Tabulates(rows, s.personas, s.questions, s.targetDemographic, answers)
  {
    RowsShowRun(rows, s, t3, answers);
    RowsShowRunAnswers(rows, s, t3, answers);
  }

  /** ... the rows half, ... */
  lemma RowsShowRun(rows: seq<FlaskRow>, s: RunState<Entry>, t3: RunState<Entry>, answers: nat -> Result<string>)
    requires InterviewedInOrder(s, t3, answers) && |rows| == |s.personas|
    requires forall k :: 0 <= k < |s.personas| ==>
      rows[k] == FlaskRow(FlaskParticipant(Dump(s.personas[k]), k, s.targetDemographic),
                          Some(Interview(Dump(s.personas[k]), t3.interviews[k].responses)))
    ensures RowsShowPersonas(rows, s.personas, s.questions, s.targetDemographic)
  {
  }

  /** ... and the answers half. */
  lemma RowsShowRunAnswers(rows: seq<FlaskRow>, s: RunState<Entry>, t3: RunState<Entry>, answers: nat -> Result<string>)
    requires InterviewedInOrder(s, t3, answers) && |rows| == |s.personas|
    requires forall k :: 0 <= k < |s.personas| ==>
      rows[k].interview.Some? && rows[k].interview.value.responses == t3.interviews[k].responses
    ensures RowsShowAnswers(rows, s.personas, s.questions, answers)
  {
    forall k, j | 0 <= k < |s.personas| && 0 <= j < |s.questions|
      ensures rows[k].interview.Some? && j < |rows[k].interview.value.responses|
      ensures rows[k].interview.value.responses[j].question == s.questions[j]
      ensures answers(RowStart(k, |s.questions|) + j) == Ok(rows[k].interview.value.responses[j].answer)
    {
      assert t3.interviews[k].responses[j].question == s.questions[j];
    }
  }

  /** Row k of that table: persona k's row beside persona k's interview. */
  lemma RowOfRun(s: RunState<Entry>, t3: RunState<Entry>, t: RunState<Entry>, answers: nat -> Result<string>, k: nat)
    requires InterviewedInOrder(s, t3, answers) && t == t3.(synthesis := t.synthesis) && k < |s.personas|
    ensures var m := AsStateMap(t);
      var rows := FlaskRows(m.personas.value, m.interviews.value, t.targetDemographic);
      k < |rows| && rows[k] == FlaskRow(FlaskParticipant(Dump(s.personas[k]), k, s.targetDemographic),
                                        Some(Interview(Dump(s.personas[k]), t3.interviews[k].responses)))
  {
    var m := AsStateMap(t);
    assert t.personas == s.personas && t.interviews == t3.interviews && t.targetDemographic == s.targetDemographic;
    assert m.personas.value[k] == Model(s.personas[k]);
    assert m.interviews.value[k] == Interview(Model(s.personas[k]), t3.interviews[k].responses);
  }
}

=== FILE: followup_workflow.dfy ===
/** The interview step of the follow-up variant: like the plain step, except
    that when a persona's last question has been answered the step asks the
    language model for one follow-up question and the persona's answer to
    it, and files that exchange as the interview's final response.
    Run state, router and step order are shared with `Workflow`. */
module FollowupWorkflow {
  import opened Results
  import opened Personas
  import opened Workflow

  /** One transcript entry, tagged as a main question or the follow-up. */
  datatype CoreEntry = CoreEntry(question: string, answer: string, isFollowup: bool)

  /** A state after a step, with the number of the next oracle call. */
  datatype Stepped = Stepped(state: RunState<CoreEntry>, calls: nat)

  /** `any(entry.get("is_followup") for entry in history)`. */
  predicate HasFollowup(history: seq<CoreEntry>) {
    exists k :: 0 <= k < |history| && history[k].isFollowup
  }

  /** The close-out of a persona's interview: file it with the given
      responses and move to the first question of the next persona. */
  function Filed(s: RunState<CoreEntry>, responses: seq<CoreEntry>): RunState<CoreEntry>
    requires s.personaIndex < |s.personas|
  {
    s.(interviews := s.interviews + [Interview(s.personas[s.personaIndex], responses)], history := [],
       questionIndex := 0, personaIndex := s.personaIndex + 1)
  }

  /** The interview node with follow-up. Call `calls` of the oracle answers
      the main question; at close-out, if the transcript holds no follow-up
      yet, calls `calls + 1` and `calls + 2` produce the follow-up question
      and its answer. None of the three calls sits inside a `try`: the
      first one that raises ends the step with its exception. */
  function StepWithFollowup(s: RunState<CoreEntry>, oracle: nat -> Result<string>, calls: nat): (r: Result<Stepped>)
    ensures r.Err? <==>
      || OutOfPairs(s) || oracle(calls).Err?
      || (s.questionIndex + 1 >= |s.questions| && !HasFollowup(s.history)
          && (oracle(calls + 1).Err? || oracle(calls + 2).Err?))
    ensures r.Err? && OutOfPairs(s) ==> r.error == IndexError
    ensures r.Err? && !OutOfPairs(s) ==>
      exists n :: calls <= n < calls + 3 && Returns(oracle, calls, n) && oracle(n) == Err(r.error)
    ensures r.Ok? ==> SameRun(s, r.value.state) && NextPair(s, r.value.state)
    ensures r.Ok? && s.questionIndex + 1 < |s.questions| ==> r.value.calls == calls + 1
    ensures r.Ok? && s.questionIndex + 1 >= |s.questions| ==>
      && r.value.state.history == []
      && r.value.calls == (if HasFollowup(s.history) then calls + 1 else calls + 3)
  {
    if OutOfPairs(s) then Err(IndexError)
    else
      match oracle(calls)
      case Err(e) => Err(e)
      case Ok(answer) =>
        var main := CoreEntry(s.questions[s.questionIndex], answer, false);
        var history := s.history + [main];
        if s.questionIndex + 1 >= |s.questions| then
          FollowupGuard(s.history, main);
          if HasFollowup(history) then Ok(Stepped(Filed(s, history), calls + 1))
          else
            match oracle(calls + 1)
            case Err(e) => Err(e)
            case Ok(followupQuestion) =>
              match oracle(calls + 2)
              case Err(e) => Err(e)
              case Ok(followupAnswer) =>
                Ok(Stepped(Filed(s, history + [CoreEntry(followupQuestion, followupAnswer, true)]), calls + 3))
        else
          Ok(Stepped(s.(history := history, questionIndex := s.questionIndex + 1), calls + 1))
  }

  /** A main-question entry never makes the guard see a follow-up. */
  lemma FollowupGuard(history: seq<CoreEntry>, main: CoreEntry)
    requires !main.isFollowup
    ensures HasFollowup(history + [main]) <==> HasFollowup(history)
  {
    assert forall k :: 0 <= k < |history| ==> (history + [main])[k] == history[k];
  }

  /** Every step appends to the transcript: the main answer, and at a
      close-out whose open transcript holds no follow-up yet, the follow-up
      exchange after it. */
  lemma StepWithFollowupTranscript(s: RunState<CoreEntry>, oracle: nat -> Result<string>, calls: nat)
    requires StepWithFollowup(s, oracle, calls).Ok?
    ensures var t := StepWithFollowup(s, oracle, calls).value.state;
      var main := CoreEntry(s.questions[s.questionIndex], oracle(calls).value, false);
      && (s.questionIndex + 1 < |s.questions| || HasFollowup(s.history) ==> Transcript(t) == Transcript(s) + [main])
      && (s.questionIndex + 1 >= |s.questions| && !HasFollowup(s.history) ==>
            Transcript(t) == Transcript(s) + [main, CoreEntry(oracle(calls + 1).value, oracle(calls + 2).value, true)])
  {
    var main := CoreEntry(s.questions[s.questionIndex], oracle(calls).value, false);
    if s.questionIndex + 1 >= |s.questions| {
      FollowupCloses(s, oracle, calls);
      var added := if HasFollowup(s.history) then [main]
                   else [main, CoreEntry(oracle(calls + 1).value, oracle(calls + 2).value, true)];
      FlattenSnoc(s.interviews, Interview(s.personas[s.personaIndex], s.history + added));
      AppendAssoc(Flatten(s.interviews), s.history, added);
    } else {
      Advance(s, oracle, calls);
      AppendAssoc(Flatten(s.interviews), s.history, [main]);
    }
  }

  lemma AppendAssoc<T>(a: seq<T>, b: seq<T>, c: seq<T>)
    ensures a + (b + c) == (a + b) + c
    ensures a + (b + c) + [] == (a + b) + c
  {
  }

  /** The close-out step, spelled out for any state whose calls return: the
      main answer is filed, followed by a fresh follow-up exchange unless
      the open transcript already holds one. */
  lemma FollowupCloses(s: RunState<CoreEntry>, oracle: nat -> Result<string>, calls: nat)
    requires s.personaIndex < |s.personas| && s.questionIndex < |s.questions| <= s.questionIndex + 1
    requires oracle(calls).Ok?
    requires !HasFollowup(s.history) ==> oracle(calls + 1).Ok? && oracle(calls + 2).Ok?
    ensures var main := CoreEntry(s.questions[s.questionIndex], oracle(calls).value, false);
      var added := if HasFollowup(s.history) then [main]
                   else [main, CoreEntry(oracle(calls + 1).value, oracle(calls + 2).value, true)];
      StepWithFollowup(s, oracle, calls) == Ok(Stepped(
        s.(interviews := s.interviews + [Interview(s.personas[s.personaIndex], s.history + added)],
           history := [], questionIndex := 0, personaIndex := s.personaIndex + 1),
        if HasFollowup(s.history) then calls + 1 else calls + 3))
  {
    var main := CoreEntry(s.questions[s.questionIndex], oracle(calls).value, false);
    FollowupGuard(s.history, main);
    if !HasFollowup(s.history) {
      var fu := CoreEntry(oracle(calls + 1).value, oracle(calls + 2).value, true);
      AppendAssoc(s.history, [main], [fu]);
      assert [main] + [fu] == [main, fu];
    }
  }

  /** The follow-up interview node followed by the router, until synthesis.
      The loop fails with IndexError, or with the exception one of its
      interview or follow-up calls raised. */
  function ConductWithFollowup(s: RunState<CoreEntry>, oracle: nat -> Result<string>, calls: nat): (r: Result<Stepped>)
    ensures r.Err? ==> r.error == IndexError || exists n :: calls <= n && oracle(n) == Err(r.error)
    ensures r.Ok? ==> Router(r.value.state) == ToSynthesize && SameRun(s, r.value.state)
    decreases |s.personas| - s.personaIndex, |s.questions| - s.questionIndex
  {
    match StepWithFollowup(s, oracle, calls)
    case Err(e) => Err(e)
    case Ok(st) =>
      if Router(st.state) == ToSynthesize then Ok(st) else ConductWithFollowup(st.state, oracle, st.calls)
  }

  /** A filed interview of this variant: `p`'s, with the main questions in
      order, none tagged as follow-up, then exactly one follow-up entry. */
  predicate CompletedWithFollowup(iv: Interview<Persona, CoreEntry>, p: Persona, questions: seq<string>) {
    && iv.persona == p
    && |iv.responses| == |questions| + 1
    && (forall k :: 0 <= k < |questions| ==>
          iv.responses[k].question == questions[k] && !iv.responses[k].isFollowup)
    && iv.responses[|questions|].isFollowup
  }

  /** What holds between steps of this variant. */
  predicate FollowupInv(s: RunState<CoreEntry>) {
    && s.personaIndex <= |s.personas|
    && |s.interviews| == s.personaIndex
    && |s.history| == s.questionIndex
    && (s.questionIndex == 0 || s.questionIndex < |s.questions|)
    && (s.personaIndex == |s.personas| ==> s.questionIndex == 0)
    && (forall k :: 0 <= k < |s.history| ==>
          s.history[k].question == s.questions[k] && !s.history[k].isFollowup)
    && (forall i :: 0 <= i < |s.interviews| ==>
          CompletedWithFollowup(s.interviews[i], s.personas[i], s.questions))
  }

  lemma FreshFollowupInv(s: RunState<CoreEntry>)
    requires Fresh(s)
    ensures FollowupInv(s)
  {
  }

  /** The follow-up guard never fails in a reachable state: the open
      transcript is cleared at every close-out, so it never holds a
      follow-up entry. */
  lemma GuardAlwaysHolds(s: RunState<CoreEntry>)
    requires FollowupInv(s)
    ensures !HasFollowup(s.history)
  {
    forall k | 0 <= k < |s.history|
      ensures !s.history[k].isFollowup
    {
    }
  }

  /** The close-out step from a reachable state whose three calls return,
      spelled out: the main answer and the follow-up exchange are filed
      together. */
  lemma CloseOut(s: RunState<CoreEntry>, oracle: nat -> Result<string>, calls: nat)
    requires FollowupInv(s) && s.personaIndex < |s.personas| && s.questionIndex + 1 == |s.questions|
    requires oracle(calls).Ok? && oracle(calls + 1).Ok? && oracle(calls + 2).Ok?
    ensures StepWithFollowup(s, oracle, calls) == Ok(Stepped(
      s.(interviews := s.interviews + [Interview(s.personas[s.personaIndex],
           s.history + [CoreEntry(s.questions[s.questionIndex], oracle(calls).value, false),
                        CoreEntry(oracle(calls + 1).value, oracle(calls + 2).value, true)])],
         history := [], questionIndex := 0, personaIndex := s.personaIndex + 1),
      calls + 3))
  {
    GuardAlwaysHolds(s);
    FollowupCloses(s, oracle, calls);
  }

  /** A step before the persona's last question only records the answer. */
  lemma Advance(s: RunState<CoreEntry>, oracle: nat -> Result<string>, calls: nat)
    requires s.personaIndex < |s.personas| && s.questionIndex + 1 < |s.questions| && oracle(calls).Ok?
    ensures StepWithFollowup(s, oracle, calls) == Ok(Stepped(
      s.(history := s.history + [CoreEntry(s.questions[s.questionIndex], oracle(calls).value, false)],
         questionIndex := s.questionIndex + 1),
      calls + 1))
  {
  }

  lemma StepPreservesFollowupInv(s: RunState<CoreEntry>, oracle: nat -> Result<string>, calls: nat)
    requires FollowupInv(s) && StepWithFollowup(s, oracle, calls).Ok?
    ensures FollowupInv(StepWithFollowup(s, oracle, calls).value.state)
  {
    if s.questionIndex + 1 >= |s.questions| {
      GuardAlwaysHolds(s);
      CloseOut(s, oracle, calls);
      var t := StepWithFollowup(s, oracle, calls).value.state;
      assert CompletedWithFollowup(t.interviews[s.personaIndex], s.personas[s.personaIndex], s.questions);
    } else {
      Advance(s, oracle, calls);
    }
  }

  /** Entry `e` is the follow-up exchange of calls n (the question) and
      n + 1 (the answer). */
  predicate FollowupFrom(e: CoreEntry, oracle: nat -> Result<string>, n: nat) {
    e.isFollowup && oracle(n) == Ok(e.question) && oracle(n + 1) == Ok(e.answer)
  }

  /** Row-major order with follow-ups: persona i occupies oracle calls
      i·(Q+2) .. i·(Q+2)+Q+1, its j-th main answer at i·(Q+2)+j and the
      follow-up question and answer at the last two. */
  predicate FollowupAnswersInOrder(s: RunState<CoreEntry>, oracle: nat -> Result<string>) {
    var q := |s.questions|;
    && (forall i, j :: 0 <= i < |s.interviews| && 0 <= j < |s.interviews[i].responses| && j < q ==>
          oracle(Slot(i, q) + j) == Ok(s.interviews[i].responses[j].answer))
    && (forall i :: 0 <= i < |s.interviews| && q < |s.interviews[i].responses| ==>
          FollowupFrom(s.interviews[i].responses[q], oracle, Slot(i, q) + q))
    && (forall k :: 0 <= k < |s.history| ==> oracle(Slot(s.personaIndex, q) + k) == Ok(s.history[k].answer))
  }

  /** The first oracle call of persona i's interview: each interview takes
      Q main answers plus the follow-up question and its answer. */
  function Slot(i: nat, q: nat): nat {
    i * (q + 2)
  }

  lemma SlotNext(i: nat, q: nat)
    ensures Slot(i + 1, q) == Slot(i, q) + q + 2
  {
  }

  /** Call j of persona i's slot comes before every call of the personas after it. */
  lemma SlotBelow(i: nat, j: nat, p: nat, q: nat)
    requires i < p && j < q + 2
    ensures Slot(i, q) + j < Slot(p, q)
  {
    SlotNext(i, q);
    MulMonotone(i + 1, p, q + 2);
  }

  /** Filing the follow-up exchange keeps every answer in its row-major slot. */
  lemma CloseOutKeepsOrder(s: RunState<CoreEntry>, t: RunState<CoreEntry>, oracle: nat -> Result<string>, calls: nat)
    requires FollowupAnswersInOrder(s, oracle) && |s.history| == s.questionIndex
    requires s.personaIndex == |s.interviews| < |s.personas| && s.questionIndex + 1 == |s.questions|
    requires calls == Slot(s.personaIndex, |s.questions|) + s.questionIndex
    requires oracle(calls).Ok? && oracle(calls + 1).Ok? && oracle(calls + 2).Ok?
    requires t == s.(interviews := s.interviews + [Interview(s.personas[s.personaIndex],
                       s.history + [CoreEntry(s.questions[s.questionIndex], oracle(calls).value, false),
                                    CoreEntry(oracle(calls + 1).value, oracle(calls + 2).value, true)])],
                     history := [], questionIndex := 0, personaIndex := s.personaIndex + 1)
    ensures FollowupAnswersInOrder(t, oracle)
  {
    var rs := s.history + [CoreEntry(s.questions[s.questionIndex], oracle(calls).value, false),
                           CoreEntry(oracle(calls + 1).value, oracle(calls + 2).value, true)];
    assert rs[..s.questionIndex] == s.history;
    assert t.interviews == s.interviews + [Interview(s.personas[s.personaIndex], rs)];
    assert t.questions == s.questions && t.history == [];
    CloseOutKeepsMain(s, t, rs, oracle, calls);
    CloseOutKeepsFollowups(s, t, rs, oracle, calls);
  }

  /** ... the main answers, ... */
  lemma CloseOutKeepsMain(s: RunState<CoreEntry>, t: RunState<CoreEntry>, rs: seq<CoreEntry>,
                          oracle: nat -> Result<string>, calls: nat)
    requires FollowupAnswersInOrder(s, oracle) && |s.history| == s.questionIndex
    requires s.personaIndex == |s.interviews| < |s.personas| && s.questionIndex + 1 == |s.questions|
    requires calls == Slot(s.personaIndex, |s.questions|) + s.questionIndex && oracle(calls).Ok?
    requires |rs| == |s.questions| + 1 && rs[..s.questionIndex] == s.history
    requires rs[s.questionIndex].answer == oracle(calls).value
    requires t.interviews == s.interviews + [Interview(s.personas[s.personaIndex], rs)] && t.questions == s.questions
    ensures forall i, j :: 0 <= i < |t.interviews| && 0 <= j < |t.interviews[i].responses| && j < |t.questions| ==>
      oracle(Slot(i, |t.questions|) + j) == Ok(t.interviews[i].responses[j].answer)
  {
    var q := |s.questions|;
    var pi := s.personaIndex;
    forall i, j | 0 <= i < |t.interviews| && 0 <= j < |t.interviews[i].responses| && j < q
      ensures oracle(Slot(i, q) + j) == Ok(t.interviews[i].responses[j].answer)
    {
      if i < pi {
        assert t.interviews[i] == s.interviews[i];
      } else if j < s.questionIndex {
        assert rs[j] == rs[..s.questionIndex][j] == s.history[j];
      }
    }
  }

  /** ... and the follow-up exchanges. */
  lemma CloseOutKeepsFollowups(s: RunState<CoreEntry>, t: RunState<CoreEntry>, rs: seq<CoreEntry>,
                               oracle: nat -> Result<string>, calls: nat)
    requires FollowupAnswersInOrder(s, oracle)
    requires s.personaIndex == |s.interviews| < |s.personas| && s.questionIndex + 1 == |s.questions|
    requires calls == Slot(s.personaIndex, |s.questions|) + s.questionIndex
    requires oracle(calls + 1).Ok? && oracle(calls + 2).Ok?
    requires |rs| == |s.questions| + 1
    requires rs[|s.questions|] == CoreEntry(oracle(calls + 1).value, oracle(calls + 2).value, true)
    requires t.interviews == s.interviews + [Interview(s.personas[s.personaIndex], rs)] && t.questions == s.questions
    ensures forall i :: 0 <= i < |t.interviews| && |t.questions| < |t.interviews[i].responses| ==>
      FollowupFrom(t.interviews[i].responses[|t.questions|], oracle, Slot(i, |t.questions|) + |t.questions|)
  {
    var q := |s.questions|;
    forall i | 0 <= i < |t.interviews| && q < |t.interviews[i].responses|
      ensures FollowupFrom(t.interviews[i].responses[q], oracle, Slot(i, q) + q)
    {
      if i < s.personaIndex {
        assert t.interviews[i] == s.interviews[i];
      }
    }
  }

  /** Recording a main answer keeps it in its row-major slot. */
  lemma AdvanceKeepsOrder(s: RunState<CoreEntry>, t: RunState<CoreEntry>, oracle: nat -> Result<string>, calls: nat)
    requires FollowupAnswersInOrder(s, oracle) && |s.history| == s.questionIndex
    requires s.questionIndex < |s.questions|
    requires calls == Slot(s.personaIndex, |s.questions|) + s.questionIndex && oracle(calls).Ok?
    requires t == s.(history := s.history + [CoreEntry(s.questions[s.questionIndex], oracle(calls).value, false)],
                     questionIndex := s.questionIndex + 1)
    ensures FollowupAnswersInOrder(t, oracle)
  {
  }

  /** A step from a reachable state moves the call counter to the slot of
      the pair it visits next. */
  lemma StepNextSlot(s: RunState<CoreEntry>, oracle: nat -> Result<string>, calls: nat)
    requires FollowupInv(s)
    requires calls == Slot(s.personaIndex, |s.questions|) + s.questionIndex
    requires StepWithFollowup(s, oracle, calls).Ok?
    ensures var st := StepWithFollowup(s, oracle, calls).value;
      st.calls == Slot(st.state.personaIndex, |st.state.questions|) + st.state.questionIndex
  {
    if s.questionIndex + 1 >= |s.questions| {
      GuardAlwaysHolds(s);
      SlotNext(s.personaIndex, |s.questions|);
    }
  }

  lemma StepKeepsFollowupOrder(s: RunState<CoreEntry>, oracle: nat -> Result<string>, calls: nat)
    requires FollowupInv(s) && FollowupAnswersInOrder(s, oracle)
    requires calls == Slot(s.personaIndex, |s.questions|) + s.questionIndex
    requires StepWithFollowup(s, oracle, calls).Ok?
    ensures var st := StepWithFollowup(s, oracle, calls).value;
      && FollowupAnswersInOrder(st.state, oracle)
      && st.calls == Slot(st.state.personaIndex, |st.state.questions|) + st.state.questionIndex
  {
    StepNextSlot(s, oracle, calls);
    if s.questionIndex + 1 >= |s.questions| {
      GuardAlwaysHolds(s);
      CloseOut(s, oracle, calls);
      CloseOutKeepsOrder(s, StepWithFollowup(s, oracle, calls).value.state, oracle, calls);
    } else {
      Advance(s, oracle, calls);
      AdvanceKeepsOrder(s, StepWithFollowup(s, oracle, calls).value.state, oracle, calls);
    }
  }

  /** The calls of one step from a reachable state lie inside the run's
      P·(Q+2) calls, so they return when all of those do. */
  lemma StepCallsReturn(s: RunState<CoreEntry>, oracle: nat -> Result<string>, calls: nat)
    requires FollowupInv(s) && s.personaIndex < |s.personas| && |s.questions| >= 1
    requires calls == Slot(s.personaIndex, |s.questions|) + s.questionIndex
    requires Returns(oracle, calls, Slot(|s.personas|, |s.questions|))
    ensures StepWithFollowup(s, oracle, calls).Ok?
  {
    SlotBelow(s.personaIndex, s.questionIndex, |s.personas|, |s.questions|);
    assert oracle(calls).Ok?;
    if s.questionIndex + 1 >= |s.questions| {
      GuardAlwaysHolds(s);
      SlotBelow(s.personaIndex, s.questionIndex + 2, |s.personas|, |s.questions|);
      assert oracle(calls + 1).Ok? && oracle(calls + 2).Ok?;
    }
  }

  /** From a reachable state with a persona left, when every call of the
      run returns, the loop reaches synthesis with every persona
      interviewed and every answer in place. */
  lemma {:induction false} ConductWithFollowupCompletes(s: RunState<CoreEntry>, oracle: nat -> Result<string>, calls: nat)
    requires FollowupInv(s) && FollowupAnswersInOrder(s, oracle)
    requires s.personaIndex < |s.personas| && |s.questions| >= 1
    requires calls == Slot(s.personaIndex, |s.questions|) + s.questionIndex
    requires Returns(oracle, calls, Slot(|s.personas|, |s.questions|))
    ensures ConductWithFollowup(s, oracle, calls).Ok?
    ensures var st := ConductWithFollowup(s, oracle, calls).value;
      && FollowupInv(st.state) && FollowupAnswersInOrder(st.state, oracle)
      && st.state.personaIndex == |st.state.personas|
      && st.calls == Slot(|s.personas|, |s.questions|)
    decreases |s.personas| - s.personaIndex, |s.questions| - s.questionIndex
  {
    StepCallsReturn(s, oracle, calls);
    var st := StepWithFollowup(s, oracle, calls).value;
    StepPreservesFollowupInv(s, oracle, calls);
    StepKeepsFollowupOrder(s, oracle, calls);
    if Router(st.state) == ToInterview {
      ConductWithFollowupCompletes(st.state, oracle, st.calls);
      assert ConductWithFollowup(s, oracle, calls) == ConductWithFollowup(st.state, oracle, st.calls);
    } else {
      assert ConductWithFollowup(s, oracle, calls) == Ok(st);
      assert st.state.personaIndex == |s.personas| && st.state.questionIndex == 0;
    }
  }

  /** When call n is the first of the run's calls to raise, whether it is a
      main answer, a follow-up question or a follow-up answer, the loop
      stops there with that exception. */
  lemma {:induction false} ConductWithFollowupRaises(s: RunState<CoreEntry>, oracle: nat -> Result<string>, calls: nat, n: nat)
    requires FollowupInv(s) && s.personaIndex < |s.personas| && |s.questions| >= 1
    requires calls == Slot(s.personaIndex, |s.questions|) + s.questionIndex
    requires calls <= n < Slot(|s.personas|, |s.questions|)
    requires Returns(oracle, calls, n) && oracle(n).Err?
    ensures ConductWithFollowup(s, oracle, calls) == Err(oracle(n).error)
    decreases |s.personas| - s.personaIndex, |s.questions| - s.questionIndex
  {
    GuardAlwaysHolds(s);
    var last := s.questionIndex + 1 >= |s.questions|;
    if n == calls || (last && n < calls + 3) {
      assert StepWithFollowup(s, oracle, calls) == Err(oracle(n).error);
    } else {
      assert oracle(calls).Ok?;
      assert last ==> oracle(calls + 1).Ok? && oracle(calls + 2).Ok?;
      var st := StepWithFollowup(s, oracle, calls).value;
      StepPreservesFollowupInv(s, oracle, calls);
      StepNextSlot(s, oracle, calls);
      assert Router(st.state) == ToInterview;
      ConductWithFollowupRaises(st.state, oracle, st.calls, n);
    }
  }

  /** `st` is the end of a follow-up loop run from `s`: the same run, P
      interviews, each with Q + 1 responses — the Q main answers in question
      order, none a follow-up, then the one follow-up — after P·(Q+2) oracle
      calls in row-major order. */
  predicate InterviewedWithFollowups(s: RunState<CoreEntry>, st: Stepped, oracle: nat -> Result<string>) {
    && SameRun(s, st.state)
    && st.calls == Slot(|s.personas|, |s.questions|)
    && st.state.history == []
    && |st.state.interviews| == |s.personas|
    && (forall i :: 0 <= i < |s.personas| ==>
          && st.state.interviews[i].persona == s.personas[i]
          && |st.state.interviews[i].responses| == |s.questions| + 1
          && FollowupFrom(st.state.interviews[i].responses[|s.questions|], oracle, Slot(i, |s.questions|) + |s.questions|))
    && (forall i, j :: 0 <= i < |s.personas| && 0 <= j < |s.questions| ==>
          && st.state.interviews[i].responses[j].question == s.questions[j]
          && !st.state.interviews[i].responses[j].isFollowup
          && oracle(Slot(i, |s.questions|) + j) == Ok(st.state.interviews[i].responses[j].answer))
  }

  /** A finished loop of this variant, read through the invariant. */
  lemma FinishedWithFollowups(s: RunState<CoreEntry>, st: Stepped, oracle: nat -> Result<string>)
    requires SameRun(s, st.state) && st.calls == Slot(|s.personas|, |s.questions|)
    requires FollowupInv(st.state) && FollowupAnswersInOrder(st.state, oracle)
    requires st.state.personaIndex == |st.state.personas|
    ensures InterviewedWithFollowups(s, st, oracle)
  {
    MainEntriesInPlace(s, st.state, oracle);
    FollowupEntriesInPlace(s, st.state, oracle);
  }

  /** ... its main entries, ... */
  lemma MainEntriesInPlace(s: RunState<CoreEntry>, t: RunState<CoreEntry>, oracle: nat -> Result<string>)
    requires SameRun(s, t) && FollowupInv(t) && FollowupAnswersInOrder(t, oracle) && t.personaIndex == |t.personas|
    ensures forall i, j :: 0 <= i < |s.personas| && 0 <= j < |s.questions| ==>
      && t.interviews[i].responses[j].question == s.questions[j]
      && !t.interviews[i].responses[j].isFollowup
      && oracle(Slot(i, |s.questions|) + j) == Ok(t.interviews[i].responses[j].answer)
  {
    var q := |t.questions|;
    assert t.personas == s.personas && t.questions == s.questions;
    forall i, j | 0 <= i < |t.personas| && 0 <= j < q
      ensures && t.interviews[i].responses[j].question == t.questions[j]
              && !t.interviews[i].responses[j].isFollowup
              && oracle(Slot(i, q) + j) == Ok(t.interviews[i].responses[j].answer)
    {
      assert CompletedWithFollowup(t.interviews[i], t.personas[i], t.questions);
    }
  }

  /** ... and its follow-up entries. */
  lemma FollowupEntriesInPlace(s: RunState<CoreEntry>, t: RunState<CoreEntry>, oracle: nat -> Result<string>)
    requires SameRun(s, t) && FollowupInv(t) && FollowupAnswersInOrder(t, oracle) && t.personaIndex == |t.personas|
    ensures t.history == [] && |t.interviews| == |s.personas|
    ensures forall i :: 0 <= i < |s.personas| ==>
      && t.interviews[i].persona == s.personas[i]
      && |t.interviews[i].responses| == |s.questions| + 1
      && FollowupFrom(t.interviews[i].responses[|s.questions|], oracle, Slot(i, |s.questions|) + |s.questions|)
  {
    var q := |t.questions|;
    assert t.personas == s.personas && t.questions == s.questions;
    forall i | 0 <= i < |t.personas|
      ensures && t.interviews[i].persona == t.personas[i]
              && |t.interviews[i].responses| == q + 1
              && FollowupFrom(t.interviews[i].responses[q], oracle, Slot(i, q) + q)
    {
      assert CompletedWithFollowup(t.interviews[i], t.personas[i], t.questions);
    }
  }

  /** From a fresh run with P >= 1 personas and Q >= 1 questions whose
      P·(Q+2) calls all return, the follow-up loop runs to completion with
      every persona interviewed in row-major order. */
  lemma {:induction false} ConductWithFollowupFromFresh(s: RunState<CoreEntry>, oracle: nat -> Result<string>)
    requires Fresh(s) && |s.personas| >= 1 && |s.questions| >= 1
    requires Returns(oracle, 0, Slot(|s.personas|, |s.questions|))
    ensures ConductWithFollowup(s, oracle, 0).Ok?
    ensures InterviewedWithFollowups(s, ConductWithFollowup(s, oracle, 0).value, oracle)
  {
    FreshFollowupInv(s);
    assert Slot(0, |s.questions|) == 0;
    assert FollowupAnswersInOrder(s, oracle);
    ConductWithFollowupCompletes(s, oracle, 0);
    FinishedWithFollowups(s, ConductWithFollowup(s, oracle, 0).value, oracle);
  }

  /** From a fresh run with personas and questions, the first of its calls
      to raise ends the loop with its exception. */
  lemma ConductWithFollowupFromFreshRaises(s: RunState<CoreEntry>, oracle: nat -> Result<string>, n: nat)
    requires Fresh(s) && |s.personas| >= 1 && |s.questions| >= 1
    requires n < Slot(|s.personas|, |s.questions|) && Returns(oracle, 0, n) && oracle(n).Err?
    ensures ConductWithFollowup(s, oracle, 0) == Err(oracle(n).error)
  {
    FreshFollowupInv(s);
    assert Slot(0, |s.questions|) == 0;
    ConductWithFollowupRaises(s, oracle, 0, n);
  }
}

=== FILE: inline_sections.dfy ===
/** The section parser inside the Flask handler: it routes each content
    line of the synthesis text to the field its latest heading names,
    strips a bullet or "N. " marker, and accumulates the lines of a field
    separated by "; ". Pain points and recommendations share a field. */
module InlineSections {
  import opened Results
  import opened Text
  import opened InsightExtraction

  /** The four headings the parser recognises. */
  datatype Bucket = KeyThemes | Perspectives | PainPoints | Recommendations

  /** The field a bucket's lines go to. */
  function Target(b: Bucket): Section {
    match b
    case KeyThemes => KeyInsights
    case Perspectives => Observations
    case PainPoints => Takeaways
    case Recommendations => Takeaways
  }

  /** The heading a raw (unstripped) line opens, by priority: KEY THEMES,
      then DIVERSE PERSPECTIVES, then PAIN POINTS or OPPORTUNITIES, then
      RECOMMENDATIONS (with or without ACTIONABLE). */
  function BucketOf(line: string): (r: Option<Bucket>)
    ensures Contains(Upper(line), "KEY THEMES") ==> r == Some(KeyThemes)
    ensures (!Contains(Upper(line), "KEY THEMES") && Contains(Upper(line), "DIVERSE PERSPECTIVES"))
            ==> r == Some(Perspectives)
    ensures (!Contains(Upper(line), "KEY THEMES") && !Contains(Upper(line), "DIVERSE PERSPECTIVES")
             && (Contains(Upper(line), "PAIN POINTS") || Contains(Upper(line), "OPPORTUNITIES")))
            ==> r == Some(PainPoints)
    ensures (!Contains(Upper(line), "KEY THEMES") && !Contains(Upper(line), "DIVERSE PERSPECTIVES")
             && !Contains(Upper(line), "PAIN POINTS") && !Contains(Upper(line), "OPPORTUNITIES"))
            ==> (r == Some(Recommendations) <==> Contains(Upper(line), "RECOMMENDATIONS"))
    ensures r.None? ==> !Contains(Upper(line), "KEY THEMES") && !Contains(Upper(line), "RECOMMENDATIONS")
  {
    var u := Upper(line);
    PhraseContainsWord(u, "ACTIONABLE RECOMMENDATIONS", "RECOMMENDATIONS", 11);
    if Contains(u, "KEY THEMES") then Some(KeyThemes)
    else if Contains(u, "DIVERSE PERSPECTIVES") then Some(Perspectives)
    else if Contains(u, "PAIN POINTS") || Contains(u, "OPPORTUNITIES") then Some(PainPoints)
    else if Contains(u, "ACTIONABLE RECOMMENDATIONS") || Contains(u, "RECOMMENDATIONS") then Some(Recommendations)
    else None
  }

  predicate StartsWith(s: string, prefix: string) {
    |prefix| <= |s| && s[..|prefix|] == prefix
  }

  /** A line with a leading "- ", "* " or "• " bullet. */
  predicate Bulleted(s: string) {
    StartsWith(s, "- ") || StartsWith(s, "* ") || StartsWith(s, "• ")
  }

  /** A line numbered with a single digit, as in "3. ". */
  predicate Numbered(s: string) {
    |s| > 2 && IsDigit(s[0]) && s[1..3] == ". "
  }

  /** The cleaned content of a stripped line: a bullet or number marker
      removed and the rest stripped again. */
  function Clean(s: string): (r: string)
    ensures |r| <= |s|
    ensures r == [] || !IsSpace(r[0]) || r == s
  {
    if Bulleted(s) then Strip(s[2..])
    else if Numbered(s) then Strip(s[3..])
    else s
  }

  /** Cleaning a stripped, non-empty line never leaves it empty: the marker
      is followed by at least the line's last, non-blank character. */
  lemma CleanNonEmpty(s: string)
    requires s != [] && !IsSpace(s[|s| - 1])
    ensures Clean(s) != []
  {
    if Bulleted(s) {
      assert |s| > 2;
      assert s[2..][|s| - 3] == s[|s| - 1];
    } else if Numbered(s) {
      assert |s| > 3;
      assert s[3..][|s| - 4] == s[|s| - 1];
    }
  }

  /** Cleaning takes a bullet back off: whatever follows "- ", "* " or
      "• " comes out stripped. */
  lemma CleanRemovesMarker(marker: string, x: string)
    requires marker in ["- ", "* ", "• "]
    ensures Clean(marker + x) == Strip(x)
  {
    assert (marker + x)[..2] == marker;
    assert (marker + x)[2..] == x;
  }

  /** Cleaning takes a single-digit number back off: whatever follows the
      digit and ". " comes out stripped. */
  lemma CleanRemovesNumber(d: char, x: string)
    requires IsDigit(d)
    ensures Clean([d] + ". " + x) == Strip(x)
  {
    var s := [d] + ". " + x;
    assert s[1..3] == ". ";
    assert s[3..] == x;
    assert !Bulleted(s) by {
      assert s[..2] == [d, '.'];
    }
  }

  /** A line with neither a bullet nor a single-digit number is kept as it
      is. */
  lemma CleanKeepsUnmarked(s: string)
    requires !Bulleted(s) && !Numbered(s)
    ensures Clean(s) == s
  {
  }

  /** `field += ("; " if field else "") + content`. */
  function Append(field: string, content: string): string {
    field + (if field != [] then "; " else "") + content
  }

  /** The handler's loop variables: the three fields and the current heading. */
  datatype ParseState = ParseState(fields: Insights, current: Option<Bucket>)

  /** A line that adds content under the current heading: not a heading,
      not blank, not a markdown header. */
  predicate IsContent(line: string) {
    BucketOf(line).None? && Strip(line) != [] && Strip(line)[0] != '#'
  }

  /** The content a line adds, if it adds any. */
  function ContentOf(line: string): (r: Option<string>)
    ensures r.Some? <==> IsContent(line)
    ensures r.Some? ==> r.value != []
  {
    if IsContent(line) then
      StrippedCleanNonEmpty(line);
      Some(Clean(Strip(line)))
    else None
  }

  lemma StrippedCleanNonEmpty(line: string)
    requires Strip(line) != []
    ensures Clean(Strip(line)) != []
  {
    CleanNonEmpty(Strip(line));
  }

  /** One pass of the loop body. */
  function ParseStep(st: ParseState, line: string): ParseState {
    match BucketOf(line)
    case Some(b) => st.(current := Some(b))
    case None =>
      var stripped := Strip(line);
      if stripped == [] || stripped[0] == '#' then st
      else if st.current.None? then st
      else
        var sec := Target(st.current.value);
        st.(fields := st.fields.Set(sec, Append(st.fields.Get(sec), Clean(stripped))))
  }

  function ParseLines(lines: seq<string>): ParseState {
    if |lines| == 0 then ParseState(Blank, None)
    else ParseStep(ParseLines(lines[..|lines| - 1]), lines[|lines| - 1])
  }

  /** The parser on the whole synthesis text; an empty text leaves all three fields empty. */
  function ParseSections(synthesis: string): (r: Insights)
    ensures synthesis == [] ==> r == Blank
  {
    if synthesis == [] then Blank else ParseLines(Split(synthesis, "\n")).fields
  }

  // ---------------------------------------------------------------------
  // Reference: the cleaned content lines each field receives, in order.

  /** The heading in force after these lines: the last one among them. */
  function Governing(lines: seq<string>): Option<Bucket> {
    if |lines| == 0 then None
    else if BucketOf(lines[|lines| - 1]).Some? then BucketOf(lines[|lines| - 1])
    else Governing(lines[..|lines| - 1])
  }

  /** The cleaned content lines routed to `sec`: those whose governing
      heading targets `sec`. */
  function Routed(lines: seq<string>, sec: Section): (r: seq<string>)
    ensures forall k :: 0 <= k < |r| ==> r[k] != []
  {
    if |lines| == 0 then []
    else
      var init := lines[..|lines| - 1];
      var g := Governing(init);
      var c := ContentOf(lines[|lines| - 1]);
      if c.Some? && g.Some? && Target(g.value) == sec then Routed(init, sec) + [c.value]
      else Routed(init, sec)
  }

  /** What one line does to the fields: a content line under a heading is
      appended to that heading's field, every other line leaves them alone. */
  lemma StepFields(st: ParseState, line: string)
    ensures var c := ContentOf(line);
      ParseStep(st, line).fields
      == if c.Some? && st.current.Some?
         then st.fields.Set(Target(st.current.value), Append(st.fields.Get(Target(st.current.value)), c.value))
         else st.fields
  {
  }

  /** Appending to a field is joining one more entry onto its entries. */
  lemma JoinAppend(entries: seq<string>, x: string)
    requires forall k :: 0 <= k < |entries| ==> entries[k] != []
    ensures Join("; ", entries + [x]) == Append(Join("; ", entries), x)
  {
    if |entries| == 0 {
      assert entries + [x] == [x];
    } else {
      JoinSnoc("; ", entries, x);
      JoinNonEmpty("; ", entries);
    }
  }

  /** One more line updates each field as one more routed entry would. */
  lemma StepMatchesRouting(st: ParseState, lines: seq<string>, sec: Section)
    requires |lines| > 0
    requires st.current == Governing(lines[..|lines| - 1])
    requires st.fields.Get(sec) == Join("; ", Routed(lines[..|lines| - 1], sec))
    ensures ParseStep(st, lines[|lines| - 1]).fields.Get(sec) == Join("; ", Routed(lines, sec))
  {
    var init := lines[..|lines| - 1];
    var line := lines[|lines| - 1];
    var before := Routed(init, sec);
    var c := ContentOf(line);
    StepFields(st, line);
    if c.Some? && st.current.Some? && Target(st.current.value) == sec {
      JoinAppend(before, c.value);
    }
  }

  /** After any prefix of the lines, the parser's heading is the governing
      one and each field is its routed content joined with "; ". */
  lemma {:induction false} ParseMatchesRouting(lines: seq<string>)
    ensures ParseLines(lines).current == Governing(lines)
    ensures forall sec :: ParseLines(lines).fields.Get(sec) == Join("; ", Routed(lines, sec))
  {
    if |lines| > 0 {
      var init := lines[..|lines| - 1];
      ParseMatchesRouting(init);
      forall sec: Section
        ensures ParseLines(lines).fields.Get(sec) == Join("; ", Routed(lines, sec))
      {
        StepMatchesRouting(ParseLines(init), lines, sec);
      }
    }
  }

  /** The parser's fields are the routed content of each field, joined with
      "; ": key themes to key insights, perspectives to observations, and
      pain points together with recommendations to takeaways. */
  lemma ParseSectionsMatchesRouting(synthesis: string)
    requires synthesis != []
    ensures var lines := Split(synthesis, "\n");
      ParseSections(synthesis)
      == Insights(Join("; ", Routed(lines, KeyInsights)),
                  Join("; ", Routed(lines, Observations)),
                  Join("; ", Routed(lines, Takeaways)))
  {
    var lines := Split(synthesis, "\n");
    ParseMatchesRouting(lines);
    var f := ParseLines(lines).fields;
    assert f.keyInsights == f.Get(KeyInsights);
    assert f.observations == f.Get(Observations);
    assert f.takeaways == f.Get(Takeaways);
  }

  /** Heading, blank and '#' lines add nothing to any field. */
  lemma NonContentAddsNothing(st: ParseState, line: string)
    requires !IsContent(line)
    ensures ParseStep(st, line).fields == st.fields
  {
  }

  /** Nothing is collected before the first heading. */
  lemma {:induction false} NothingBeforeFirstHeading(lines: seq<string>)
    requires forall k :: 0 <= k < |lines| ==> BucketOf(lines[k]).None?
    ensures ParseLines(lines) == ParseState(Blank, None)
  {
    if |lines| > 0 {
      NothingBeforeFirstHeading(lines[..|lines| - 1]);
    }
  }
}

=== FILE: insights.dfy ===
/** The dashboard bridge's reading of a synthesis text into three fields
    (key insights, observations, takeaways). Headings are recognised by
    words in the upper-cased line; the body lines after a heading are cut
    into sentence fragments at ". "; a section's value is made from its
    first two fragments, and a field left empty gets a fixed fallback. */
module InsightExtraction {
  import opened Results
  import opened Text

  datatype Section = KeyInsights | Observations | Takeaways

  datatype Insights = Insights(keyInsights: string, observations: string, takeaways: string) {
    function Get(sec: Section): string {
      match sec
      case KeyInsights => keyInsights
      case Observations => observations
      case Takeaways => takeaways
    }

    function Set(sec: Section, v: string): (r: Insights)
      ensures r.Get(sec) == v
      ensures forall other :: other != sec ==> r.Get(other) == Get(other)
    {
      match sec
      case KeyInsights => this.(keyInsights := v)
      case Observations => this.(observations := v)
      case Takeaways => this.(takeaways := v)
    }
  }

  const Blank := Insights("", "", "")

  /** The section a (stripped) line opens, if it is a heading. Each test
      checks a two-word phrase or the single word inside it, so only the
      single words matter, and THEMES outranks PERSPECTIVES, which outranks
      RECOMMENDATIONS. */
  function HeadingOf(line: string): (r: Option<Section>)
    ensures Contains(Upper(line), "THEMES") ==> r == Some(KeyInsights)
    ensures (!Contains(Upper(line), "THEMES") && Contains(Upper(line), "PERSPECTIVES"))
            ==> r == Some(Observations)
    ensures (!Contains(Upper(line), "THEMES") && !Contains(Upper(line), "PERSPECTIVES")
             && Contains(Upper(line), "RECOMMENDATIONS")) ==> r == Some(Takeaways)
    ensures (!Contains(Upper(line), "THEMES") && !Contains(Upper(line), "PERSPECTIVES")
             && !Contains(Upper(line), "RECOMMENDATIONS")) ==> r == None
  {
    var u := Upper(line);
    PhraseContainsWord(u, "KEY THEMES", "THEMES", 4);
    PhraseContainsWord(u, "DIVERSE PERSPECTIVES", "PERSPECTIVES", 8);
    PhraseContainsWord(u, "ACTIONABLE RECOMMENDATIONS", "RECOMMENDATIONS", 11);
    if Contains(u, "KEY THEMES") || Contains(u, "THEMES") then Some(KeyInsights)
    else if Contains(u, "DIVERSE PERSPECTIVES") || Contains(u, "PERSPECTIVES") then Some(Observations)
    else if Contains(u, "ACTIONABLE RECOMMENDATIONS") || Contains(u, "RECOMMENDATIONS") then Some(Takeaways)
    else None
  }

  /** A line containing a two-word heading phrase contains its last word. */
  lemma PhraseContainsWord(u: string, phrase: string, word: string, at: nat)
    requires at + |word| == |phrase| && phrase[at..] == word
    ensures Contains(u, phrase) ==> Contains(u, word)
  {
    if Contains(u, phrase) {
      assert OccursAt(phrase, word, at);
      ContainsTransitive(u, phrase, word);
    }
  }

  /** A non-empty text with no whitespace at either end. */
  predicate Trimmed(x: string) {
    x != [] && !IsSpace(x[0]) && !IsSpace(x[|x| - 1])
  }

  /** The stripped pieces of a split, with the empty ones dropped. */
  function NonEmptyStripped(pieces: seq<string>): (r: seq<string>)
    ensures |r| <= |pieces|
    ensures forall k :: 0 <= k < |r| ==> Trimmed(r[k])
  {
    if |pieces| == 0 then []
    else
      var first := Strip(pieces[0]);
      var rest := NonEmptyStripped(pieces[1..]);
      if first == [] then rest
      else
        StrippedIsTrimmed(pieces[0]);
        ConsTrimmed(first, rest);
        [first] + rest
  }

  lemma StrippedIsTrimmed(s: string)
    requires Strip(s) != []
    ensures Trimmed(Strip(s))
  {
  }

  lemma ConsTrimmed(x: string, xs: seq<string>)
    requires Trimmed(x) && forall k :: 0 <= k < |xs| ==> Trimmed(xs[k])
    ensures forall k :: 0 <= k < |xs| + 1 ==> Trimmed(([x] + xs)[k])
  {
    forall k | 0 <= k < |xs| + 1
      ensures Trimmed(([x] + xs)[k])
    {
      if k > 0 {
        assert ([x] + xs)[k] == xs[k - 1];
      }
    }
  }

  /** `[s.strip() for s in line.split('. ') if s.strip()]`: non-empty,
      stripped fragments. */
  function Fragments(line: string): (r: seq<string>)
    ensures forall k :: 0 <= k < |r| ==> Trimmed(r[k])
  {
    var pieces := Split(line, ". ");
    NonEmptyStripped(pieces)
  }

  /** A section committed when the next heading arrives: its first two
      fragments joined by a space. */
  function MidJoin(content: seq<string>): string {
    Join(" ", PyTake(content, 2))
  }

  /** The section still open when the text ends: its first two fragments
      joined by ". ", with a final period. */
  function EndJoin(content: seq<string>): string {
    Join(". ", PyTake(content, 2)) + "."
  }

  lemma MidJoinNonEmpty(content: seq<string>)
    requires |content| >= 1 && content[0] != []
    ensures MidJoin(content) != []
  {
    var taken := PyTake(content, 2);
    assert taken[0] == content[0];
    if |taken| == 2 {
      assert Join(" ", taken) == taken[0] + " " + Join(" ", taken[1..]);
    }
  }

  /** The loop's variables: the fields committed so far, the open section
      and the fragments gathered for it. */
  datatype Scan = Scan(insights: Insights, current: Option<Section>, content: seq<string>)

  /** `if current_section and section_content: insights[current_section] = ...`. */
  function Commit(st: Scan): Insights {
    if st.current.Some? && st.content != [] then st.insights.Set(st.current.value, MidJoin(st.content))
    else st.insights
  }

  /** One pass of the loop body on one raw line. */
  function Feed(st: Scan, raw: string): Scan {
    var line := Strip(raw);
    match HeadingOf(line)
    case Some(sec) => Scan(Commit(st), Some(sec), [])
    case None =>
      if line != [] && st.current.Some? then st.(content := st.content + Fragments(line)) else st
  }

  /** The loop over a list of lines. */
  function ScanLines(lines: seq<string>): (st: Scan)
    ensures forall k :: 0 <= k < |st.content| ==> st.content[k] != []
    ensures st.current.None? ==> st.content == []
  {
    if |lines| == 0 then Scan(Blank, None, [])
    else Feed(ScanLines(lines[..|lines| - 1]), lines[|lines| - 1])
  }

  /** `# Capture last section`. */
  function Finish(st: Scan): Insights {
    if st.current.Some? && st.content != [] then st.insights.Set(st.current.value, EndJoin(st.content))
    else st.insights
  }

  const ObservationsFallback := "Participants showed varied perspectives based on their backgrounds and experiences."
  const TakeawaysFallback := "Consider implementing changes based on user feedback and identified patterns."

  /** The text before the first '.', as `text.split('.')[0]`. */
  function FirstSentence(text: string): (r: string)
    ensures !Contains(r, ".")
    ensures IndexOf(text, ".") == -1 ==> r == text
    ensures IndexOf(text, ".") != -1 ==> r == text[..IndexOf(text, ".")]
  {
    Split(text, ".")[0]
  }

  /** The whole extractor. An empty text gives a fixed triple naming the
      research question; otherwise every field the sections leave empty
      takes its fallback, so no field is ever empty. */
  function Extract(text: string, researchQuestion: string): (r: Insights)
    ensures text == [] ==> r == Insights("Analysis completed for: " + researchQuestion,
                                         "Multiple perspectives gathered from diverse participants",
                                         "Further analysis recommended based on initial findings")
    ensures r.keyInsights != [] && r.observations != [] && r.takeaways != []
  {
    if text == [] then
      Insights("Analysis completed for: " + researchQuestion,
               "Multiple perspectives gathered from diverse participants",
               "Further analysis recommended based on initial findings")
    else
      var v := Finish(ScanLines(Split(text, "\n")));
      Insights(OrElse(v.keyInsights, FirstSentence(text) + "."),
               OrElse(v.observations, ObservationsFallback),
               OrElse(v.takeaways, TakeawaysFallback))
  }

  // ---------------------------------------------------------------------
  // A reference reading of the same text: the lines grouped into blocks,
  // one per heading, and each field taken from the last block of its kind
  // that has content.

  /** A heading's section and the fragments of the body lines under it. */
  datatype Block = Block(section: Section, fragments: seq<string>)

  /** Adds one raw line to the blocks: a heading opens a new, empty block
      (its own text is dropped); a non-blank body line adds its fragments
      to the open block; lines before the first heading are ignored. */
  function AddLine(bs: seq<Block>, raw: string): seq<Block> {
    var line := Strip(raw);
    match HeadingOf(line)
    case Some(sec) => bs + [Block(sec, [])]
    case None =>
      if bs == [] || line == [] then bs
      else bs[..|bs| - 1] + [bs[|bs| - 1].(fragments := bs[|bs| - 1].fragments + Fragments(line))]
  }

  function Blocks(lines: seq<string>): seq<Block> {
    if |lines| == 0 then [] else AddLine(Blocks(lines[..|lines| - 1]), lines[|lines| - 1])
  }

  /** The value the closed blocks leave for `sec`: the last one of that
      kind with content, space-joined; "" when there is none. */
  function CommittedValue(bs: seq<Block>, sec: Section): string {
    if |bs| == 0 then ""
    else
      var b := bs[|bs| - 1];
      if b.section == sec && b.fragments != [] then MidJoin(b.fragments)
      else CommittedValue(bs[..|bs| - 1], sec)
  }

  /** The value for `sec` once the text ends: the final block, if it is of
      that kind and has content, is joined end-style; otherwise the value
      the earlier blocks committed stands. */
  function ValueOf(bs: seq<Block>, sec: Section): string {
    if |bs| == 0 then ""
    else
      var b := bs[|bs| - 1];
      if b.section == sec && b.fragments != [] then EndJoin(b.fragments)
      else CommittedValue(bs[..|bs| - 1], sec)
  }

  /** The loop's variables mirror the blocks: the open section and its
      fragments are the last block, and each committed field is what the
      closed blocks leave for it. */
  predicate Mirrors(st: Scan, bs: seq<Block>) {
    && (st.current.None? <==> bs == [])
    && (bs != [] ==> st.current == Some(bs[|bs| - 1].section) && st.content == bs[|bs| - 1].fragments)
    && (forall sec :: st.insights.Get(sec) == CommittedValue(if bs == [] then [] else bs[..|bs| - 1], sec))
  }

  lemma CommitMatchesClose(st: Scan, bs: seq<Block>)
    requires Mirrors(st, bs)
    ensures forall sec :: Commit(st).Get(sec) == CommittedValue(bs, sec)
  {
    forall sec: Section
      ensures Commit(st).Get(sec) == CommittedValue(bs, sec)
    {
      if bs != [] {
        assert CommittedValue(bs, sec) == (if bs[|bs| - 1].section == sec && bs[|bs| - 1].fragments != []
                                           then MidJoin(bs[|bs| - 1].fragments)
                                           else CommittedValue(bs[..|bs| - 1], sec));
      }
    }
  }

  lemma FeedMatchesAddLine(st: Scan, bs: seq<Block>, raw: string)
    requires Mirrors(st, bs)
    ensures Mirrors(Feed(st, raw), AddLine(bs, raw))
  {
    var line := Strip(raw);
    match HeadingOf(line)
    case Some(sec) =>
      CommitMatchesClose(st, bs);
      var bs2 := bs + [Block(sec, [])];
      assert AddLine(bs, raw) == bs2;
      assert bs2[..|bs2| - 1] == bs;
    case None =>
      if bs != [] && line != [] {
        var bs2 := bs[..|bs| - 1] + [bs[|bs| - 1].(fragments := bs[|bs| - 1].fragments + Fragments(line))];
        assert AddLine(bs, raw) == bs2;
        assert bs2[..|bs2| - 1] == bs[..|bs| - 1];
      }
  }

  lemma {:induction false} ScanMatchesBlocks(lines: seq<string>)
    ensures Mirrors(ScanLines(lines), Blocks(lines))
  {
    if |lines| > 0 {
      ScanMatchesBlocks(lines[..|lines| - 1]);
      FeedMatchesAddLine(ScanLines(lines[..|lines| - 1]), Blocks(lines[..|lines| - 1]), lines[|lines| - 1]);
    }
  }

  /** The extractor agrees with the block reading: each field is the value
      its last block with content gives, or the field's fallback. */
  lemma ExtractMatchesBlocks(text: string, researchQuestion: string)
    requires text != []
    ensures var bs := Blocks(Split(text, "\n"));
      Extract(text, researchQuestion)
      == Insights(OrElse(ValueOf(bs, KeyInsights), FirstSentence(text) + "."),
                  OrElse(ValueOf(bs, Observations), ObservationsFallback),
                  OrElse(ValueOf(bs, Takeaways), TakeawaysFallback))
  {
    var lines := Split(text, "\n");
    ScanMatchesBlocks(lines);
    var st := ScanLines(lines);
    var bs := Blocks(lines);
    forall sec: Section
      ensures Finish(st).Get(sec) == ValueOf(bs, sec)
    {
    }
    assert Finish(st).keyInsights == Finish(st).Get(KeyInsights);
    assert Finish(st).observations == Finish(st).Get(Observations);
    assert Finish(st).takeaways == Finish(st).Get(Takeaways);
  }

  /** Lines before the first heading are ignored, whatever they say. */
  lemma {:induction false} PreambleIgnored(pre: seq<string>, lines: seq<string>)
    requires forall k :: 0 <= k < |pre| ==> HeadingOf(Strip(pre[k])).None?
    ensures Blocks(pre + lines) == Blocks(lines)
  {
    if |lines| == 0 {
      NoHeadingNoBlocks(pre);
      assert pre + lines == pre;
    } else {
      var init := lines[..|lines| - 1];
      var last := lines[|lines| - 1];
      PreambleIgnored(pre, init);
      SplitLast(pre, lines);
      BlocksSnoc(pre + init, last);
      BlocksSnoc(init, last);
    }
  }

  lemma SplitLast<T>(pre: seq<T>, xs: seq<T>)
    requires |xs| > 0
    ensures xs == xs[..|xs| - 1] + [xs[|xs| - 1]]
    ensures pre + xs == (pre + xs[..|xs| - 1]) + [xs[|xs| - 1]]
  {
  }

  lemma BlocksSnoc(lines: seq<string>, raw: string)
    ensures Blocks(lines + [raw]) == AddLine(Blocks(lines), raw)
  {
    assert (lines + [raw])[..|lines|] == lines;
  }

  lemma {:induction false} NoHeadingNoBlocks(pre: seq<string>)
    requires forall k :: 0 <= k < |pre| ==> HeadingOf(Strip(pre[k])).None?
    ensures Blocks(pre) == []
  {
    if |pre| > 0 {
      NoHeadingNoBlocks(pre[..|pre| - 1]);
    }
  }

  /** A later block of the same kind with content replaces the value of an
      earlier one, and a heading whose block stays empty changes nothing. */
  lemma LastBlockWins(bs: seq<Block>, sec: Section, fragments: seq<string>)
    ensures fragments != [] ==> ValueOf(bs + [Block(sec, fragments)], sec) == EndJoin(fragments)
    ensures fragments != [] ==> CommittedValue(bs + [Block(sec, fragments)], sec) == MidJoin(fragments)
    ensures CommittedValue(bs + [Block(sec, [])], sec) == CommittedValue(bs, sec)
  {
    assert (bs + [Block(sec, [])])[..|bs|] == bs;
  }
}

=== FILE: nodes.dfy ===
/** The workflow nodes around the interview loop: configuration (which asks
    the language model for the question list), the initial state built by
    the backend's entry point, and synthesis. */
module Nodes {
  import opened Results
  import opened Personas
  import opened Text
  import opened Workflow

  const DefaultNumInterviews: int := 10
  const DefaultNumQuestions: int := 5

  /** What the structured question call returned. */
  datatype QuestionsReply =
    | Returned(questions: seq<string>)  // an object whose `questions` is this list
    | ReturnedNone                      // None, whose `.questions` raises AttributeError
    | Raised(error: Error)              // the call itself raised

  /** The configuration node of the interactive copies: install whatever
      list came back, of whatever length, and pass both counts through. */
  function ConfigureNode<E>(s: RunState<E>, reply: QuestionsReply): (r: Result<RunState<E>>)
    ensures r.Ok? <==> reply.Returned?
    ensures reply.ReturnedNone? ==> r == Err(AttributeError)
    ensures reply.Raised? ==> r == Err(reply.error)
    ensures r.Ok? ==> r.value == s.(questions := reply.questions)
  {
    match reply
    case Returned(qs) => Ok(s.(questions := qs))
    case ReturnedNone => Err(AttributeError)
    case Raised(e) => Err(e)
  }

  /** The backend's configuration node: like the above, but both requested
      counts are replaced by the defaults. */
  function BackendConfigureNode<E>(s: RunState<E>, reply: QuestionsReply): (r: Result<RunState<E>>)
    ensures r.Ok? <==> reply.Returned?
    ensures reply.ReturnedNone? ==> r == Err(AttributeError)
    ensures reply.Raised? ==> r == Err(reply.error)
    ensures r.Ok? ==> r.value.numQuestions == 5 && r.value.numInterviews == 10
    ensures r.Ok? ==> r.value.questions == reply.questions
  {
    match ConfigureNode(s, reply)
    case Ok(t) => Ok(t.(numQuestions := DefaultNumQuestions, numInterviews := DefaultNumInterviews))
    case Err(e) => Err(e)
  }

  /** The requested counts play no part in configuration: the question list
      is taken as returned, and the counts come out as they went in. */
  lemma ConfigureIgnoresCounts<E>(s: RunState<E>, qs: seq<string>, ni: int, nq: int)
    ensures ConfigureNode(s.(numInterviews := ni, numQuestions := nq), Returned(qs))
         == Ok(s.(numInterviews := ni, numQuestions := nq, questions := qs))
  {
  }

  /** Whatever was requested, the backend configuration leaves the same state. */
  lemma BackendOverridesCounts<E>(s: RunState<E>, reply: QuestionsReply, ni: int, nq: int)
    ensures BackendConfigureNode(s.(numInterviews := ni, numQuestions := nq), reply)
         == BackendConfigureNode(s, reply)
  {
  }

  /** Python's `n or default` on an optional count: a missing or zero count
      takes the default; anything else, negative included, is kept. */
  function OrDefault(n: Option<int>, default: int): (r: int)
    ensures n.Some? && n.value != 0 ==> r == n.value
    ensures n.None? || n.value == 0 ==> r == default
  {
    if n.None? || n.value == 0 then default else n.value
  }

  /** The state the backend's entry point starts the graph from. */
  function InitialState<E>(researchQuestion: string, targetDemographic: string,
                           numInterviews: Option<int>, numQuestions: Option<int>): (s: RunState<E>)
    ensures Fresh(s)
    ensures s.questions == [] && s.personas == [] && s.synthesis == ""
    ensures s.researchQuestion == researchQuestion && s.targetDemographic == targetDemographic
    ensures s.numInterviews != 0 && s.numQuestions != 0
    ensures numInterviews.Some? && numInterviews.value != 0 ==> s.numInterviews == numInterviews.value
    ensures numQuestions.Some? && numQuestions.value != 0 ==> s.numQuestions == numQuestions.value
  {
    RunState(researchQuestion, targetDemographic,
             OrDefault(numInterviews, DefaultNumInterviews), OrDefault(numQuestions, DefaultNumQuestions),
             [], [], 0, 0, [], [], "")
  }

  /** The synthesis call either answers or raises; `description` is `str(e)`. */
  datatype SynthesisReply = Answered(text: string) | Failed(description: string)

  const SynthesisErrorPrefix := "Error during synthesis: "
  const SynthesisErrorSuffix := "\n\nRaw interview data available for manual analysis."

  /** The synthesis node: a failure of the call is swallowed into a
      placeholder text, so the node itself never fails. */
  function SynthesisNode<E>(s: RunState<E>, reply: SynthesisReply): (t: RunState<E>)
    ensures t == s.(synthesis := t.synthesis)
    ensures reply.Answered? ==> t.synthesis == reply.text
    ensures reply.Failed? ==>
      && |t.synthesis| == |SynthesisErrorPrefix| + |reply.description| + |SynthesisErrorSuffix|
      && t.synthesis[..|SynthesisErrorPrefix|] == SynthesisErrorPrefix
      && t.synthesis[|t.synthesis| - |SynthesisErrorSuffix|..] == SynthesisErrorSuffix
  {
    match reply
    case Answered(text) => s.(synthesis := text)
    case Failed(d) => s.(synthesis := SynthesisErrorPrefix + d + SynthesisErrorSuffix)
  }

  /** The placeholder keeps the failure's description intact: it can be cut
      back out from between the fixed prefix and suffix. */
  lemma SynthesisFailureRecoverable<E>(s: RunState<E>, description: string)
    ensures var text := SynthesisNode(s, Failed(description)).synthesis;
      PySlice(text, |SynthesisErrorPrefix|, |text| - |SynthesisErrorSuffix|) == description
  {
    var text := SynthesisNode(s, Failed(description)).synthesis;
    assert text[|SynthesisErrorPrefix|..|text| - |SynthesisErrorSuffix|] == description;
  }
}

=== FILE: persona_generation.dfy ===
/** The persona-generation node: up to five structured calls to the language
    model, each validated into a list of personas, until one yields exactly
    the requested number. Each attempt's outcome comes from an oracle
    indexed by attempt number. */
module PersonaGeneration {
  import opened Results
  import opened Personas
  import opened Text
  import opened Workflow

  /** The number of structured calls the node makes before giving up. */
  const MaxRetries: nat := 5

  /** What one structured call, followed by validation, produced. */
  datatype AttemptOutcome =
    | ReturnedNone                       // the call returned None
    | Validated(personas: seq<Persona>)  // validation produced this list
    | Raised(error: Error)               // the call or validation raised

  /** The exception the attempt's `try` block raises, if any: None and a
      count mismatch are turned into ValueError, which the loop retries. */
  function AttemptError(outcome: AttemptOutcome, num: int): (e: Option<Error>)
    ensures e.None? <==> outcome.Validated? && |outcome.personas| == num
    ensures outcome.Raised? ==> e == Some(outcome.error)
    ensures outcome.ReturnedNone? ==> e == Some(ValueError("LLM returned None"))
    ensures outcome.Validated? && |outcome.personas| != num ==>
      e == Some(ValueError(CountMismatch(num, |outcome.personas|)))
    ensures !outcome.Raised? && e.Some? ==> Retryable(e.value)
  {
    match outcome
    case ReturnedNone => Some(ValueError("LLM returned None"))
    case Validated(ps) =>
      if |ps| != num
      then Some(ValueError(CountMismatch(num, |ps|)))
      else None
    case Raised(err) => Some(err)
  }

  /** `f"Expected {num_personas} personas, got {len(validated.personas)}"`. */
  function CountMismatch(num: int, got: nat): string {
    "Expected " + IntToString(num) + " personas, got " + IntToString(got)
  }

  /** The exceptions the `except` clause catches. */
  predicate Retryable(e: Error) {
    e.ValidationError? || e.ValueError? || e.TypeError?
  }

  predicate Succeeds(outcome: AttemptOutcome, num: int) {
    AttemptError(outcome, num).None?
  }

  predicate FailsRetryably(outcome: AttemptOutcome, num: int) {
    AttemptError(outcome, num).Some? && Retryable(AttemptError(outcome, num).value)
  }

  predicate FailsFatally(outcome: AttemptOutcome, num: int) {
    AttemptError(outcome, num).Some? && !Retryable(AttemptError(outcome, num).value)
  }

  /** Attempts `from` up to (not including) `to` all failed in a way the loop retries. */
  predicate RetriedThrough(outcomes: nat -> AttemptOutcome, num: int, from: nat, to: nat) {
    forall m :: from <= m < to ==> FailsRetryably(outcomes(m), num)
  }

  /** The two copies of the node word the final RuntimeError differently. */
  datatype Wording = Detailed | Terse

  /** `f"Failed to generate personas after {max_retries} attempts: {e}"`
      in the interactive copies; a fixed message in the backend copy. */
  function ExhaustedMessage(w: Wording, last: Error): string
    requires Retryable(last)
  {
    match w
    case Detailed => "Failed to generate personas after " + IntToString(MaxRetries) + " attempts: " + last.message
    case Terse => "❗️Failed after " + IntToString(MaxRetries) + " attempts"
  }

  /** The retry loop from attempt `attempt` on. The result is decided by the
      first attempt that is not a retryable failure: a success returns its
      personas, a non-retryable exception escapes unchanged; if every
      remaining attempt fails retryably, the fifth failure becomes a
      RuntimeError. */
  function AttemptFrom(w: Wording, num: int, outcomes: nat -> AttemptOutcome, attempt: nat): (r: Result<seq<Persona>>)
    requires attempt < MaxRetries
    ensures r.Ok? ==> |r.value| == num
    ensures r.Err? ==> !Retryable(r.error)
    decreases MaxRetries - attempt
  {
    match AttemptError(outcomes(attempt), num)
    case None => Ok(outcomes(attempt).personas)
    case Some(e) =>
      if !Retryable(e) then Err(e)
      else if attempt == MaxRetries - 1 then Err(RuntimeError(ExhaustedMessage(w, e)))
      else AttemptFrom(w, num, outcomes, attempt + 1)
  }

  /** The first attempt that is not a retryable failure decides the loop:
      a success returns its personas, a non-retryable exception escapes
      unchanged; five retryable failures end in the RuntimeError. */
  lemma {:induction false} FirstDecisiveAttempt(w: Wording, num: int, outcomes: nat -> AttemptOutcome, attempt: nat, k: nat)
    requires attempt <= k < MaxRetries && RetriedThrough(outcomes, num, attempt, k)
    ensures Succeeds(outcomes(k), num) ==> AttemptFrom(w, num, outcomes, attempt) == Ok(outcomes(k).personas)
    ensures FailsFatally(outcomes(k), num) ==>
      AttemptFrom(w, num, outcomes, attempt) == Err(AttemptError(outcomes(k), num).value)
    ensures FailsRetryably(outcomes(k), num) && k == MaxRetries - 1 ==>
      AttemptFrom(w, num, outcomes, attempt)
      == Err(RuntimeError(ExhaustedMessage(w, AttemptError(outcomes(MaxRetries - 1), num).value)))
    decreases k - attempt
  {
    if attempt < k {
      assert FailsRetryably(outcomes(attempt), num);
      FirstDecisiveAttempt(w, num, outcomes, attempt + 1, k);
    }
  }

  /** The whole loop, from the first attempt: it returns exactly the
      requested number of personas, and no retryable exception escapes it. */
  function Generate(w: Wording, num: int, outcomes: nat -> AttemptOutcome): (r: Result<seq<Persona>>)
    ensures r.Ok? ==> |r.value| == num
    ensures r.Err? ==> !Retryable(r.error)
  {
    AttemptFrom(w, num, outcomes, 0)
  }

  /** The node: on success it installs the personas the retry loop
      returned and restarts the interview bookkeeping; the open transcript
      is not touched. A failure of the loop escapes the node unchanged. */
  function PersonaNode<E>(w: Wording, s: RunState<E>, outcomes: nat -> AttemptOutcome): (r: Result<RunState<E>>)
    ensures r.Ok? <==> Generate(w, s.numInterviews, outcomes).Ok?
    ensures r.Ok? ==> r.value.personas == Generate(w, s.numInterviews, outcomes).value
    ensures r.Err? ==> r.error == Generate(w, s.numInterviews, outcomes).error
    ensures r.Ok? ==> |r.value.personas| == s.numInterviews
    ensures r.Ok? ==> r.value.personaIndex == 0 && r.value.questionIndex == 0 && r.value.interviews == []
    ensures r.Ok? ==> r.value == s.(personas := r.value.personas, personaIndex := 0, questionIndex := 0, interviews := [])
  {
    match Generate(w, s.numInterviews, outcomes)
    case Err(e) => Err(e)
    case Ok(ps) => Ok(s.(personas := ps, personaIndex := 0, questionIndex := 0, interviews := []))
  }

  /** Only the first five outcomes matter: the loop makes at most five calls. */
  lemma {:induction false} AtMostFiveAttempts(w: Wording, num: int, o1: nat -> AttemptOutcome,
                                              o2: nat -> AttemptOutcome, attempt: nat)
    requires attempt < MaxRetries
    requires forall k :: attempt <= k < MaxRetries ==> o1(k) == o2(k)
    ensures AttemptFrom(w, num, o1, attempt) == AttemptFrom(w, num, o2, attempt)
    decreases MaxRetries - attempt
  {
    if attempt + 1 < MaxRetries {
      AtMostFiveAttempts(w, num, o1, o2, attempt + 1);
    }
  }

  /** The loop either succeeds with exactly `num` personas, or fails with
      the first non-retryable exception, or with the RuntimeError after five
      retryable failures; there is no other way out. */
  lemma {:induction false} GenerateOutcomes(w: Wording, num: int, outcomes: nat -> AttemptOutcome, attempt: nat)
    requires attempt < MaxRetries
    ensures var r := AttemptFrom(w, num, outcomes, attempt);
      || (exists k :: attempt <= k < MaxRetries && RetriedThrough(outcomes, num, attempt, k)
                      && Succeeds(outcomes(k), num) && r == Ok(outcomes(k).personas))
      || (exists k :: attempt <= k < MaxRetries && RetriedThrough(outcomes, num, attempt, k)
                      && FailsFatally(outcomes(k), num) && r == Err(AttemptError(outcomes(k), num).value))
      || (RetriedThrough(outcomes, num, attempt, MaxRetries) && r.Err? && r.error.RuntimeError?)
    decreases MaxRetries - attempt
  {
    var r := AttemptFrom(w, num, outcomes, attempt);
    assert RetriedThrough(outcomes, num, attempt, attempt);
    if Succeeds(outcomes(attempt), num) || FailsFatally(outcomes(attempt), num) {
    } else if attempt + 1 < MaxRetries {
      GenerateOutcomes(w, num, outcomes, attempt + 1);
      assert r == AttemptFrom(w, num, outcomes, attempt + 1);
      forall k | attempt + 1 <= k <= MaxRetries && RetriedThrough(outcomes, num, attempt + 1, k)
        ensures RetriedThrough(outcomes, num, attempt, k)
      {
      }
    } else {
      assert RetriedThrough(outcomes, num, attempt, MaxRetries);
    }
  }

  /** A model that always returns the wrong number of personas is called
      five times, and the fifth count mismatch is what the RuntimeError reports. */
  lemma WrongCountExhausts(num: int, got: seq<Persona>, outcomes: nat -> AttemptOutcome)
    requires |got| != num
    requires forall k :: outcomes(k) == Validated(got)
    ensures Generate(Detailed, num, outcomes)
         == Err(RuntimeError(ExhaustedMessage(Detailed, ValueError(CountMismatch(num, |got|)))))
  {
    assert RetriedThrough(outcomes, num, 0, MaxRetries);
  }

  /** A model that always returns None is called five times, and the
      RuntimeError reports the last "LLM returned None". */
  lemma NoneExhausts(w: Wording, num: int, outcomes: nat -> AttemptOutcome)
    requires forall k :: outcomes(k) == ReturnedNone
    ensures Generate(w, num, outcomes) == Err(RuntimeError(ExhaustedMessage(w, ValueError("LLM returned None"))))
  {
    assert RetriedThrough(outcomes, num, 0, MaxRetries);
  }

  /** A None reply does not end the loop: the next attempt decides instead. */
  lemma NoneIsRetried(w: Wording, num: int, outcomes: nat -> AttemptOutcome, attempt: nat)
    requires attempt + 1 < MaxRetries && outcomes(attempt) == ReturnedNone
    ensures AttemptFrom(w, num, outcomes, attempt) == AttemptFrom(w, num, outcomes, attempt + 1)
  {
  }
}

=== FILE: personas.dfy ===
/** The records the workflow passes around: personas (as validated model
    objects and as plain mappings), transcript entries, completed interviews
    and the rows of the dashboard's participant table. */
module Personas {
  import opened Results

  /** The validated `Persona` model: six required fields. */
  datatype Persona = Persona(
    name: string,
    age: int,
    job: string,
    traits: seq<string>,
    communicationStyle: string,
    background: string)

  /** A persona held as a plain mapping, where any key may be missing. */
  datatype PersonaDict = PersonaDict(
    name: Option<string>,
    age: Option<int>,
    job: Option<string>,
    traits: Option<seq<string>>,
    communicationStyle: Option<string>,
    background: Option<string>)

  /** Code that accepts either form tells them apart by their attributes. */
  datatype PersonaShape = Model(persona: Persona) | Mapping(fields: PersonaDict)

  /** Validating a mapping into a model: every field must be present. */
  function Load(d: PersonaDict): Option<Persona> {
    if d.name.Some? && d.age.Some? && d.job.Some? && d.traits.Some?
       && d.communicationStyle.Some? && d.background.Some?
    then Some(Persona(d.name.value, d.age.value, d.job.value, d.traits.value,
                      d.communicationStyle.value, d.background.value))
    else None
  }

  /** `persona.model_dump()`: the mapping with every field present, from
      which validation rebuilds the same persona. */
  function Dump(p: Persona): (d: PersonaDict)
    ensures Load(d) == Some(p)
    ensures d.name.Some? && d.age.Some? && d.job.Some? && d.traits.Some?
  {
    PersonaDict(Some(p.name), Some(p.age), Some(p.job), Some(p.traits),
                Some(p.communicationStyle), Some(p.background))
  }

  /** The two persona models of the code base: the interactive copies
      declare the six fields above, the backend's model has no `background`. */
  datatype Schema = WithBackground | WithoutBackground

  /** The persona as the schema's model holds it: a model without a
      `background` field is represented with an empty one. */
  function Conform(schema: Schema, p: Persona): Persona {
    match schema
    case WithBackground => p
    case WithoutBackground => p.(background := "")
  }

  /** Validating a mapping into the schema's model: every field the model
      declares must be present; a model without `background` ignores that key. */
  function LoadAs(schema: Schema, d: PersonaDict): Option<Persona> {
    match schema
    case WithBackground => Load(d)
    case WithoutBackground =>
      if d.name.Some? && d.age.Some? && d.job.Some? && d.traits.Some? && d.communicationStyle.Some?
      then Some(Persona(d.name.value, d.age.value, d.job.value, d.traits.value, d.communicationStyle.value, ""))
      else None
  }

  /** `model_dump()` of the schema's model: the model's fields and no
      other, from which validation rebuilds the persona the model held. */
  function DumpAs(schema: Schema, p: Persona): (d: PersonaDict)
    ensures LoadAs(schema, d) == Some(Conform(schema, p))
    ensures d.background.Some? <==> schema == WithBackground
    ensures d.name == Some(p.name) && d.age == Some(p.age) && d.job == Some(p.job)
    ensures d.traits == Some(p.traits) && d.communicationStyle == Some(p.communicationStyle)
  {
    match schema
    case WithBackground => Dump(p)
    case WithoutBackground => Dump(p).(background := None)
  }

  /** Any persona, in either form, as a mapping; a model is dumped with
      the fields of its schema. */
  function AsMapping(schema: Schema, shape: PersonaShape): PersonaDict {
    match shape
    case Model(p) => DumpAs(schema, p)
    case Mapping(d) => d
  }

  /** One `{question, answer}` transcript entry. */
  datatype Entry = Entry(question: string, answer: string)

  /** One completed interview: the persona and its responses in order. */
  datatype Interview<P, E> = Interview(persona: P, responses: seq<E>)

  /** One row of the dashboard's participant table. */
  datatype ParticipantRow = ParticipantRow(
    id: int,
    header: string,
    audience: string,
    status: string,
    target: string,
    limit: string)
}

=== FILE: pipeline.dfy ===
/** Whole runs of the workflow graph, configuration → personas → interview
    loop → synthesis, as the backend's entry point and the dashboard bridge
    drive them. Every language-model call is an oracle argument. */
module Pipeline {
  import opened Results
  import opened Personas
  import opened Text
  import opened Workflow
  import opened FollowupWorkflow
  import opened PersonaGeneration
  import opened Nodes
  import opened InsightExtraction
  import opened Dashboard
  import opened Serialization
  import opened Templates

  /** The oracles of one run: the question list reply, the persona attempts,
      the interview calls' replies by call number (an answer, or the
      exception the call raised) and the synthesis reply. */
  datatype Oracles = Oracles(
    questions: QuestionsReply,
    attempts: nat -> AttemptOutcome,
    answers: nat -> Result<string>,
    synthesis: SynthesisReply)

  /** The run after the persona node: the interview loop, synthesis and
      serialization with the backend's persona model, which has no
      `background`. An exception from an interview call passes through. */
  function RunFrom(s: RunState<Entry>, o: Oracles): (r: Result<Serialized>)
    ensures r.Ok? ==> r.value.numInterviews == s.numInterviews && |r.value.personas| == |s.personas|
    ensures r.Ok? ==> forall k :: 0 <= k < |r.value.personas| ==> r.value.personas[k].background.None?
  {
    match Conduct(s, o.answers, 0)
    case Err(e) => Err(e)
    case Ok(s3) => Ok(Serialize(WithoutBackground, AsStateMap(SynthesisNode(s3, o.synthesis))))
  }

  /** The backend's `execute_research`, with the persona node's template
      braces doubled. */
  function BackendRun(researchQuestion: string, targetDemographic: string,
                      numInterviews: Option<int>, numQuestions: Option<int>, o: Oracles): (r: Result<Serialized>)
    ensures r.Ok? ==> r.value.numInterviews == 10 && r.value.numQuestions == 5
    ensures r.Ok? ==> |r.value.personas| == 10
  {
    var s0 := InitialState<Entry>(researchQuestion, targetDemographic, numInterviews, numQuestions);
    match BackendConfigureNode(s0, o.questions)
    case Err(e) => Err(e)
    case Ok(s1) =>
      match BackendPersonaNode(s1, o.attempts)
      case Err(e) => Err(e)
      case Ok(s2) => RunFrom(s2, o)
  }

  /** The same run with the persona template as written. No such run ever
      produces a result: once configuration succeeds, the persona node
      raises KeyError(" personas"). */
  function BackendRunAsWritten(researchQuestion: string, targetDemographic: string,
                               numInterviews: Option<int>, numQuestions: Option<int>, o: Oracles): (r: Result<Serialized>)
    ensures r.Err?
    ensures o.questions.Returned? ==> r == Err(KeyError(" personas"))
  {
    var s0 := InitialState<Entry>(researchQuestion, targetDemographic, numInterviews, numQuestions);
    match BackendConfigureNode(s0, o.questions)
    case Err(e) => Err(e)
    case Ok(s1) =>
      BackendPersonaNodeAlwaysRaises(s1, o.attempts);
      match BackendPersonaNodeAsWritten(s1, o.attempts)
      case Err(e) => Err(e)
      case Ok(s2) => RunFrom(s2, o)
  }

  /** A backend run whose configuration returns questions, whose persona
      loop succeeds and whose answer calls all return: ten personas,
      whatever was requested, each interviewed on every returned question
      in row-major oracle order, and serialized without a background key so
      that every persona validates back into the backend's model. */
  lemma BackendRunCompletes(researchQuestion: string, targetDemographic: string,
                            numInterviews: Option<int>, numQuestions: Option<int>, o: Oracles)
    requires o.questions.Returned? && |o.questions.questions| >= 1
    requires Generate(Terse, DefaultNumInterviews, o.attempts).Ok?
    requires Returns(o.answers, 0, RowStart(|Generate(Terse, DefaultNumInterviews, o.attempts).value|, |o.questions.questions|))
    ensures BackendRun(researchQuestion, targetDemographic, numInterviews, numQuestions, o).Ok?
    ensures var r := BackendRun(researchQuestion, targetDemographic, numInterviews, numQuestions, o).value;
      var ps := Generate(Terse, DefaultNumInterviews, o.attempts).value;
      var qs := o.questions.questions;
      && r.questions == qs
      && |ps| == |r.interviews| == DefaultNumInterviews
      && KeepsPersonas(r, ps) && KeepsAnswers(r, ps, qs, o.answers)
  {
    var s0 := InitialState<Entry>(researchQuestion, targetDemographic, numInterviews, numQuestions);
    var s1 := BackendConfigureNode(s0, o.questions).value;
    BackendPersonaNodeIsRetryLoop(s1, o.attempts);
    var s2 := BackendPersonaNode(s1, o.attempts).value;
    assert s2.personas == Generate(Terse, DefaultNumInterviews, o.attempts).value;
    assert s2.questions == o.questions.questions;
    RunFromKeepsPersonas(s2, o);
    RunFromKeepsAnswers(s2, o);
    assert BackendRun(researchQuestion, targetDemographic, numInterviews, numQuestions, o) == RunFrom(s2, o);
  }

  /** The mapping `d` is persona `p` dumped with the schema's fields, and
      validates back into the schema's model of `p`. */
  predicate Kept(schema: Schema, d: PersonaDict, p: Persona) {
    d == DumpAs(schema, p) && LoadAs(schema, d) == Some(Conform(schema, p))
  }

  /** The serialized run keeps every persona of `ps`, in order, standalone
      and in its interview, without a background key. */
  predicate KeepsPersonas(r: Serialized, ps: seq<Persona>) {
    && |r.personas| == |ps| && |r.interviews| == |ps|
    && (forall i :: 0 <= i < |ps| ==>
          Kept(WithoutBackground, r.personas[i], ps[i]) && Kept(WithoutBackground, r.interviews[i].persona, ps[i]))
  }

  /** The serialized run keeps every answer: interview i's j-th response
      answers question j with answer call i·Q + j. */
  predicate KeepsAnswers(r: Serialized, ps: seq<Persona>, qs: seq<string>, answers: nat -> Result<string>) {
    && |r.interviews| == |ps|
    && (forall i, j :: 0 <= i < |ps| && 0 <= j < |qs| ==>
          && |r.interviews[i].responses| == |qs| && r.interviews[i].responses[j].question == qs[j]
          && answers(RowStart(i, |qs|) + j) == Ok(r.interviews[i].responses[j].answer))
  }

  /** A backend run whose configuration returns questions and whose persona
      loop succeeds, but whose answer call n is the first to raise: the
      exception escapes `execute_research` unchanged. */
  lemma BackendRunInterviewRaises(researchQuestion: string, targetDemographic: string,
                                  numInterviews: Option<int>, numQuestions: Option<int>, o: Oracles, n: nat)
    requires o.questions.Returned? && |o.questions.questions| >= 1
    requires Generate(Terse, DefaultNumInterviews, o.attempts).Ok?
    requires n < RowStart(|Generate(Terse, DefaultNumInterviews, o.attempts).value|, |o.questions.questions|)
    requires Returns(o.answers, 0, n) && o.answers(n).Err?
    ensures BackendRun(researchQuestion, targetDemographic, numInterviews, numQuestions, o) == Err(o.answers(n).error)
  {
    var s0 := InitialState<Entry>(researchQuestion, targetDemographic, numInterviews, numQuestions);
    var s1 := BackendConfigureNode(s0, o.questions).value;
    BackendPersonaNodeIsRetryLoop(s1, o.attempts);
    var s2 := BackendPersonaNode(s1, o.attempts).value;
    assert |s2.personas| == DefaultNumInterviews && s2.questions == o.questions.questions;
    ConductFromFreshRaises(s2, o.answers, n);
    assert BackendRun(researchQuestion, targetDemographic, numInterviews, numQuestions, o) == RunFrom(s2, o);
  }

  /** From a fresh state with personas and questions whose answer calls all
      return, the interview loop, synthesis and serialization keep every
      persona, in order. */
  lemma RunFromKeepsPersonas(s: RunState<Entry>, o: Oracles)
    requires Fresh(s) && |s.personas| >= 1 && |s.questions| >= 1
    requires Returns(o.answers, 0, RowStart(|s.personas|, |s.questions|))
    ensures RunFrom(s, o).Ok?
    ensures var r := RunFrom(s, o).value;
      && r.questions == s.questions
      && KeepsPersonas(r, s.personas)
  {
    ConductFromFresh(s, o.answers);
    SerializeRoundTrip(WithoutBackground, SynthesisNode(Conduct(s, o.answers, 0).value, o.synthesis));
  }

  /** ... and every answer, in row-major oracle order. */
  lemma RunFromKeepsAnswers(s: RunState<Entry>, o: Oracles)
    requires Fresh(s) && |s.personas| >= 1 && |s.questions| >= 1
    requires Returns(o.answers, 0, RowStart(|s.personas|, |s.questions|))
    ensures RunFrom(s, o).Ok?
    ensures var r := RunFrom(s, o).value;
      KeepsAnswers(r, s.personas, s.questions, o.answers)
  {
    ConductFromFresh(s, o.answers);
    var t3 := Conduct(s, o.answers, 0).value;
    var t := SynthesisNode(t3, o.synthesis);
    SerializedKeepsAnswers(s, t3, t, o.answers);
    assert RunFrom(s, o).value == Serialize(WithoutBackground, AsStateMap(t));
  }

  /** Synthesis and serialization of a finished loop's run keep its answers. */
  lemma SerializedKeepsAnswers(s: RunState<Entry>, t3: RunState<Entry>, t: RunState<Entry>,
                               answers: nat -> Result<string>)
    requires InterviewedInOrder(s, t3, answers) && t == t3.(synthesis := t.synthesis)
    ensures KeepsAnswers(Serialize(WithoutBackground, AsStateMap(t)), s.personas, s.questions, answers)
  {
    SerializedResponses(WithoutBackground, t);
    var r := Serialize(WithoutBackground, AsStateMap(t));
    forall i, j | 0 <= i < |s.personas| && 0 <= j < |s.questions|
      ensures |r.interviews[i].responses| == |s.questions| && r.interviews[i].responses[j].question == s.questions[j]
      ensures answers(RowStart(i, |s.questions|) + j) == Ok(r.interviews[i].responses[j].answer)
    {
      assert r.interviews[i].responses == t3.interviews[i].responses;
      assert t3.interviews[i].responses[j].question == s.questions[j];
    }
  }

  /** Serialization copies every interview's entries as they are. */
  lemma SerializedResponses(schema: Schema, t: RunState<Entry>)
    ensures |Serialize(schema, AsStateMap(t)).interviews| == |t.interviews|
    ensures forall k :: 0 <= k < |t.interviews| ==>
      Serialize(schema, AsStateMap(t)).interviews[k].responses == t.interviews[k].responses
  {
  }

  /** What the bridge hands to the dashboard. */
  datatype BridgeResult = BridgeResult(
    insights: Insights,
    participants: seq<ParticipantRow>,
    samples: Option<seq<Sample>>)

  /** The interviews as the bridge sees them: each persona a model. */
  function AsShown(ivs: seq<Interview<Persona, CoreEntry>>): (r: seq<Interview<Option<PersonaShape>, CoreEntry>>)
    ensures |r| == |ivs|
    ensures forall i :: 0 <= i < |r| ==> r[i] == Interview(Some(Model(ivs[i].persona)), ivs[i].responses)
  {
    seq(|ivs|, i requires 0 <= i < |ivs| => Interview(Some(Model(ivs[i].persona)), ivs[i].responses))
  }

  function Models(ps: seq<Persona>): (r: seq<PersonaShape>)
    ensures |r| == |ps| && forall i :: 0 <= i < |r| ==> r[i] == Model(ps[i])
  {
    seq(|ps|, i requires 0 <= i < |ps| => Model(ps[i]))
  }

  /** The bridge's `run_langgraph_research` over the follow-up workflow. */
  function BridgeRun(question: string, audience: string, numInterviews: Option<int>, numQuestions: Option<int>,
                     o: Oracles): (r: Result<BridgeResult>)
    ensures r.Ok? ==> r.value.insights.keyInsights != [] && r.value.insights.observations != []
                      && r.value.insights.takeaways != []
  {
    var s0 := InitialState<CoreEntry>(question, audience, numInterviews, numQuestions);
    match ConfigureNode(s0, o.questions)
    case Err(e) => Err(e)
    case Ok(s1) =>
      match PersonaNode(Detailed, s1, o.attempts)
      case Err(e) => Err(e)
      case Ok(s2) => BridgeFrom(s2, question, audience, o)
  }

  /** The bridge run after the persona node: the follow-up loop, synthesis,
      then the samples, the insights and the participant table. */
  function BridgeFrom(s: RunState<CoreEntry>, question: string, audience: string, o: Oracles): (r: Result<BridgeResult>)
    ensures r.Ok? ==> r.value.insights.keyInsights != [] && r.value.insights.observations != []
                      && r.value.insights.takeaways != []
  {
    match ConductWithFollowup(s, o.answers, 0)
    case Err(e) => Err(e)
    case Ok(st) =>
      var s3 := SynthesisNode(st.state, o.synthesis);
      var ivs := AsShown(s3.interviews);
      match SampleResponses(ivs)
      case Err(e) => Err(e)
      case Ok(samples) =>
        Ok(BridgeResult(Extract(s3.synthesis, question),
                        Participants(ivs, Models(s3.personas), audience), samples))
  }

  /** A bridge run whose configuration returns questions, whose persona
      loop succeeds and whose interview and follow-up calls all return: one
      row per persona, in order, and one sample for each of the first three
      interviews, pairing the persona's name with its answer to the first
      question. */
  lemma BridgeRunCompletes(question: string, audience: string, numInterviews: Option<int>,
                           numQuestions: Option<int>, o: Oracles)
    requires o.questions.Returned? && |o.questions.questions| >= 1
    requires Generate(Detailed, OrDefault(numInterviews, DefaultNumInterviews), o.attempts).Ok?
    requires Returns(o.answers, 0, Slot(|Generate(Detailed, OrDefault(numInterviews, DefaultNumInterviews), o.attempts).value|,
                                        |o.questions.questions|))
    ensures BridgeRun(question, audience, numInterviews, numQuestions, o).Ok?
    ensures var r := BridgeRun(question, audience, numInterviews, numQuestions, o).value;
      var ps := Generate(Detailed, OrDefault(numInterviews, DefaultNumInterviews), o.attempts).value;
      var q := |o.questions.questions|;
      && |r.participants| == |ps|
      && (forall i :: 0 <= i < |ps| ==> r.participants[i] == FormatPersona(Model(ps[i]), i, audience))
      && r.samples.Some?
      && |r.samples.value| == (if |ps| < 3 then |ps| else 3)
      && (forall i :: 0 <= i < |r.samples.value| ==>
            r.samples.value[i].personaName == ps[i].name && o.answers(Slot(i, q)) == Ok(r.samples.value[i].sampleAnswer))
  {
    var s0 := InitialState<CoreEntry>(question, audience, numInterviews, numQuestions);
    var s1 := ConfigureNode(s0, o.questions).value;
    var s2 := PersonaNode(Detailed, s1, o.attempts).value;
    assert s2.personas == Generate(Detailed, OrDefault(numInterviews, DefaultNumInterviews), o.attempts).value;
    assert s2.questions == o.questions.questions;
    BridgeFromFresh(s2, question, audience, o);
    assert BridgeRun(question, audience, numInterviews, numQuestions, o) == BridgeFrom(s2, question, audience, o);
  }

  /** From a fresh state with personas and questions: one row per persona
      and the first three interviews' samples. */
  lemma BridgeFromFresh(s: RunState<CoreEntry>, question: string, audience: string, o: Oracles)
    requires Fresh(s) && |s.personas| >= 1 && |s.questions| >= 1
    requires Returns(o.answers, 0, Slot(|s.personas|, |s.questions|))
    ensures BridgeFrom(s, question, audience, o).Ok?
    ensures var r := BridgeFrom(s, question, audience, o).value;
      && |r.participants| == |s.personas|
      && (forall i :: 0 <= i < |s.personas| ==> r.participants[i] == FormatPersona(Model(s.personas[i]), i, audience))
      && r.samples.Some?
      && |r.samples.value| == (if |s.personas| < 3 then |s.personas| else 3)
      && (forall i :: 0 <= i < |r.samples.value| ==>
            r.samples.value[i].personaName == s.personas[i].name
            && o.answers(Slot(i, |s.questions|)) == Ok(r.samples.value[i].sampleAnswer))
  {
    ConductWithFollowupFromFresh(s, o.answers);
    var st := ConductWithFollowup(s, o.answers, 0).value;
    var s3 := SynthesisNode(st.state, o.synthesis);
    assert s3.interviews == st.state.interviews && s3.personas == s.personas;
    BridgeRowsAndSamples(s, st, audience, o.answers);
  }

  /** A bridge run whose configuration returns questions and whose persona
      loop succeeds, but whose call n of the follow-up loop is the first to
      raise: the workflow fails with that exception. */
  lemma BridgeRunInterviewRaises(question: string, audience: string, numInterviews: Option<int>,
                                 numQuestions: Option<int>, o: Oracles, n: nat)
    requires o.questions.Returned? && |o.questions.questions| >= 1
    requires Generate(Detailed, OrDefault(numInterviews, DefaultNumInterviews), o.attempts).Ok?
    requires n < Slot(|Generate(Detailed, OrDefault(numInterviews, DefaultNumInterviews), o.attempts).value|,
                      |o.questions.questions|)
    requires Returns(o.answers, 0, n) && o.answers(n).Err?
    ensures BridgeRun(question, audience, numInterviews, numQuestions, o) == Err(o.answers(n).error)
  {
    var s0 := InitialState<CoreEntry>(question, audience, numInterviews, numQuestions);
    var s1 := ConfigureNode(s0, o.questions).value;
    var s2 := PersonaNode(Detailed, s1, o.attempts).value;
    assert s2.personas == Generate(Detailed, OrDefault(numInterviews, DefaultNumInterviews), o.attempts).value;
    assert s2.questions == o.questions.questions;
    assert |s2.personas| >= 1 by {
      assert n < Slot(|s2.personas|, |s2.questions|);
    }
    ConductWithFollowupFromFreshRaises(s2, o.answers, n);
    assert BridgeRun(question, audience, numInterviews, numQuestions, o) == BridgeFrom(s2, question, audience, o);
  }

  /** The table and samples of a finished follow-up run. */
  lemma BridgeRowsAndSamples(s: RunState<CoreEntry>, st: Stepped, audience: string, answers: nat -> Result<string>)
    requires |s.personas| >= 1 && |s.questions| >= 1 && InterviewedWithFollowups(s, st, answers)
    ensures var ivs := AsShown(st.state.interviews);
      |Participants(ivs, Models(s.personas), audience)| == |s.personas|
    ensures var ivs := AsShown(st.state.interviews);
      forall i :: 0 <= i < |s.personas| ==>
        Participants(ivs, Models(s.personas), audience)[i] == FormatPersona(Model(s.personas[i]), i, audience)
    ensures SampleResponses(AsShown(st.state.interviews)).Ok?
    ensures SampleResponses(AsShown(st.state.interviews)).value.Some?
    ensures var ss := SampleResponses(AsShown(st.state.interviews)).value.value;
      && |ss| == (if |s.personas| < 3 then |s.personas| else 3)
      && forall i :: 0 <= i < |ss| ==>
           ss[i].personaName == s.personas[i].name && answers(Slot(i, |s.questions|)) == Ok(ss[i].sampleAnswer)
  {
    var t := st.state;
    forall i | 0 <= i < |s.personas|
      ensures t.interviews[i].persona == s.personas[i] && t.interviews[i].responses != []
      ensures answers(Slot(i, |s.questions|)) == Ok(t.interviews[i].responses[0].answer)
    {
      assert t.interviews[i].responses[0].question == s.questions[0];
      assert answers(Slot(i, |s.questions|) + 0) == Ok(t.interviews[i].responses[0].answer);
    }
    BridgeTable(s.personas, t.interviews, audience);
    BridgeSamples(s.personas, t.interviews, |s.questions|, answers);
  }

  /** Interviews that each carry their persona give one row per persona. */
  lemma BridgeTable(ps: seq<Persona>, ivs: seq<Interview<Persona, CoreEntry>>, audience: string)
    requires |ivs| == |ps| >= 1
    requires forall i :: 0 <= i < |ps| ==> ivs[i].persona == ps[i]
    ensures |Participants(AsShown(ivs), Models(ps), audience)| == |ps|
    ensures forall i :: 0 <= i < |ps| ==>
      Participants(AsShown(ivs), Models(ps), audience)[i] == FormatPersona(Model(ps[i]), i, audience)
  {
    var shown := AsShown(ivs);
    EveryInterviewGivesARow(shown, audience);
    assert Truthy(shown[0].persona);
    SomePersonaSomeRow(shown, audience, 0);
  }

  /** The samples of interviews whose first answer is call Slot(i, q). */
  lemma BridgeSamples(ps: seq<Persona>, ivs: seq<Interview<Persona, CoreEntry>>, q: nat, answers: nat -> Result<string>)
    requires |ivs| == |ps| >= 1
    requires forall i :: 0 <= i < |ps| ==>
      ivs[i].persona == ps[i] && ivs[i].responses != [] && answers(Slot(i, q)) == Ok(ivs[i].responses[0].answer)
    ensures SampleResponses(AsShown(ivs)).Ok? && SampleResponses(AsShown(ivs)).value.Some?
    ensures var ss := SampleResponses(AsShown(ivs)).value.value;
      && |ss| == (if |ps| < 3 then |ps| else 3)
      && forall i :: 0 <= i < |ss| ==> ss[i].personaName == ps[i].name && answers(Slot(i, q)) == Ok(ss[i].sampleAnswer)
  {
    var shown := AsShown(ivs);
    var first := PyTake(shown, 3);
    assert forall k :: 0 <= k < |first| ==> first[k] == shown[k];
    SamplesOfCompleteInterviews(first);
  }
}

=== FILE: results.dfy ===
/** Failure-carrying values for the parts of the workflow that raise Python
    exceptions, and the exceptions themselves. */
module Results {

  datatype Option<T> = None | Some(value: T) {
    /** `d.get(key, default)` for a key that may be missing. */
    function GetOr(default: T): T {
      match this
      case Some(v) => v
      case None => default
    }
  }

  /** The Python exceptions the modelled code raises, catches or lets through.
      The message text of an exception raised by a collaborator is opaque. */
  datatype Error =
    | IndexError
    | KeyError(key: string)
    | AttributeError
    | NameError(name: string)
    | ValueError(message: string)
    | TypeError(message: string)
    | ValidationError(message: string)
    | RuntimeError(message: string)
    | OtherError(name: string, message: string)

  /** A value, or the exception that escaped instead. */
  datatype Result<T> = Ok(value: T) | Err(error: Error)
}

=== FILE: serialization.dfy ===
/** The backend's conversion of a final run state into a plain payload:
    personas and the interviews' personas become mappings, every other value
    is copied, and a key the state lacks takes an empty default. */
module Serialization {
  import opened Results
  import opened Personas
  import opened Workflow

  /** A final state as the framework hands it back: any key may be missing,
      and a persona may be a model or already a mapping. */
  datatype StateMap = StateMap(
    researchQuestion: Option<string>,
    targetDemographic: Option<string>,
    numInterviews: Option<int>,
    numQuestions: Option<int>,
    questions: Option<seq<string>>,
    personas: Option<seq<PersonaShape>>,
    interviews: Option<seq<Interview<PersonaShape, Entry>>>,
    synthesis: Option<string>)

  /** The serialized payload, without its timestamp. */
  datatype Serialized = Serialized(
    researchQuestion: string,
    targetDemographic: string,
    numInterviews: int,
    numQuestions: int,
    questions: seq<string>,
    personas: seq<PersonaDict>,
    interviews: seq<Interview<PersonaDict, Entry>>,
    synthesis: string)

  function DumpInterview(schema: Schema, iv: Interview<PersonaShape, Entry>): Interview<PersonaDict, Entry> {
    Interview(AsMapping(schema, iv.persona), iv.responses)
  }

  /** `serialize_state`: the personas and interviews keep their count and
      order; a mapping persona passes through as it is, a model is dumped
      with the fields of `schema`. */
  function Serialize(schema: Schema, m: StateMap): (r: Serialized)
    ensures |r.personas| == |m.personas.GetOr([])| && |r.interviews| == |m.interviews.GetOr([])|
    ensures forall k :: 0 <= k < |r.personas| && m.personas.value[k].Mapping? ==>
      r.personas[k] == m.personas.value[k].fields
    ensures forall k :: 0 <= k < |r.personas| && m.personas.value[k].Model? ==>
      r.personas[k] == DumpAs(schema, m.personas.value[k].persona)
    ensures forall k :: 0 <= k < |r.interviews| ==> r.interviews[k].responses == m.interviews.value[k].responses
  {
    var ps := m.personas.GetOr([]);
    var ivs := m.interviews.GetOr([]);
    Serialized(m.researchQuestion.GetOr(""), m.targetDemographic.GetOr(""),
               m.numInterviews.GetOr(0), m.numQuestions.GetOr(0), m.questions.GetOr([]),
               seq(|ps|, k requires 0 <= k < |ps| => AsMapping(schema, ps[k])),
               seq(|ivs|, k requires 0 <= k < |ivs| => DumpInterview(schema, ivs[k])),
               m.synthesis.GetOr(""))
  }

  /** A run state as the framework's mapping, every key present. */
  function AsStateMap(s: RunState<Entry>): StateMap {
    StateMap(Some(s.researchQuestion), Some(s.targetDemographic), Some(s.numInterviews),
             Some(s.numQuestions), Some(s.questions),
             Some(seq(|s.personas|, k requires 0 <= k < |s.personas| => Model(s.personas[k]))),
             Some(seq(|s.interviews|, k requires 0 <= k < |s.interviews| =>
               Interview(Model(s.interviews[k].persona), s.interviews[k].responses))),
             Some(s.synthesis))
  }

  /** Serializing a run loses nothing the schema's model holds: the scalars
      are copied, and every persona, standalone or in an interview, carries
      exactly the model's keys and validates back to the model it was, in
      the same position. */
  lemma SerializeRoundTrip(schema: Schema, s: RunState<Entry>)
    ensures var r := Serialize(schema, AsStateMap(s));
      && r.researchQuestion == s.researchQuestion && r.targetDemographic == s.targetDemographic
      && r.numInterviews == s.numInterviews && r.numQuestions == s.numQuestions
      && r.questions == s.questions && r.synthesis == s.synthesis
      && |r.personas| == |s.personas| && |r.interviews| == |s.interviews|
      && (forall k :: 0 <= k < |s.personas| ==>
            r.personas[k] == DumpAs(schema, s.personas[k])
            && LoadAs(schema, r.personas[k]) == Some(Conform(schema, s.personas[k])))
      && (forall k :: 0 <= k < |s.interviews| ==>
            r.interviews[k].persona == DumpAs(schema, s.interviews[k].persona)
            && LoadAs(schema, r.interviews[k].persona) == Some(Conform(schema, s.interviews[k].persona))
            && r.interviews[k].responses == s.interviews[k].responses)
  {
  }

  /** A state with no keys at all serializes to empty defaults. */
  lemma SerializeDefaults(schema: Schema)
    ensures Serialize(schema, StateMap(None, None, None, None, None, None, None, None))
         == Serialized("", "", 0, 0, [], [], [], "")
  {
  }
}

=== FILE: stub_payload.dfy ===
/** The minimal backend's research endpoint: it answers with synthetic,
    fully deterministic data shaped like a real result, numbered
    participants with one canned interview each. */
module StubPayload {
  import opened Results
  import opened Personas
  import opened Text
  import opened Dashboard

  /** The request fields the handler reads; a missing count takes 5
      interviews or 3 questions, a missing text is empty. */
  datatype Request = Request(question: Option<string>, audience: Option<string>,
                             numInterviews: Option<int>, numQuestions: Option<int>)

  /** The `data` object of the answer. */
  datatype StubData = StubData(
    keyInsights: string,
    observations: string,
    takeaways: string,
    numInterviews: int,
    numQuestions: int,
    participants: seq<ParticipantRow>,
    interviews: seq<Interview<PersonaDict, Entry>>)

  datatype StubResponse = StubResponse(success: bool, data: StubData)

  /** The number of iterations of `range(n)`. */
  function Count(n: int): (c: nat)
    ensures n >= 0 ==> c == n
    ensures n < 0 ==> c == 0
  {
    if n < 0 then 0 else n
  }

  /** The synthetic age of participant `i`: the ages cycle through 20..29. */
  function StubAge(i: nat): (a: int)
    ensures 20 <= a <= 29
  {
    20 + i % 10
  }

  function StubParticipant(i: nat, audience: string): ParticipantRow {
    ParticipantRow(i + 1, ParticipantName(i), OrElse(audience, "Gen Z"), "Active",
                   IntToString(StubAge(i)), "N/A")
  }

  /** The persona mapping filed with interview `i`: name, age, job and two
      traits, and nothing else. */
  function StubPersona(i: nat): PersonaDict {
    PersonaDict(Some(ParticipantName(i)), Some(StubAge(i)), Some("N/A"),
                Some(["curious", "pragmatic"]), None, None)
  }

  /** `f"Q{j + 1}: {question or 'Your thoughts?'}"`. */
  function StubQuestion(j: nat, question: string): string {
    "Q" + IntToString(j + 1) + ": " + OrElse(question, "Your thoughts?")
  }

  function StubAnswer(i: nat, j: nat, audience: string): string {
    "Sample answer " + IntToString(j + 1) + " from participant " + IntToString(i + 1)
    + " about " + OrElse(audience, "the topic") + "."
  }

  function StubInterview(i: nat, numQuestions: int, question: string, audience: string): (iv: Interview<PersonaDict, Entry>)
    ensures |iv.responses| == Count(numQuestions)
    ensures forall j :: 0 <= j < |iv.responses| ==> iv.responses[j].question == StubQuestion(j, question)
  {
    Interview(StubPersona(i),
              seq(Count(numQuestions), j requires 0 <= j < Count(numQuestions) =>
                Entry(StubQuestion(j, question), StubAnswer(i, j, audience))))
  }

  /** The handler's answer. Both counts are echoed, every list has one entry
      per requested interview, and the call always reports success. */
  function RunStub(req: Request): (r: StubResponse)
    ensures r.success
    ensures r.data.numInterviews == req.numInterviews.GetOr(5)
    ensures r.data.numQuestions == req.numQuestions.GetOr(3)
    ensures |r.data.participants| == |r.data.interviews| == Count(req.numInterviews.GetOr(5))
    ensures forall i :: 0 <= i < |r.data.participants| ==> r.data.participants[i].id == i + 1
    ensures forall i :: 0 <= i < |r.data.interviews| ==>
      |r.data.interviews[i].responses| == Count(req.numQuestions.GetOr(3))
  {
    var question := req.question.GetOr("");
    var audience := req.audience.GetOr("");
    var ni := req.numInterviews.GetOr(5);
    var nq := req.numQuestions.GetOr(3);
    StubResponse(true, StubData(
      "Users shared concise views on '" + OrElse(question, "the question") + "'.",
      "Audience '" + OrElse(audience, "General") + "' highlighted a few consistent themes.",
      "Iterate with focused improvements and validate with small cohorts.",
      ni, nq,
      seq(Count(ni), i requires 0 <= i < Count(ni) => StubParticipant(i, audience)),
      seq(Count(ni), i requires 0 <= i < Count(ni) => StubInterview(i, nq, question, audience))))
  }

  /** Row `i` of the table and interview `i` describe the same participant:
      the header is the interview persona's name and the target reads back
      as its age. */
  lemma RowMatchesInterview(req: Request, i: nat)
    requires i < Count(req.numInterviews.GetOr(5))
    ensures var d := RunStub(req).data;
      var row := d.participants[i];
      var p := d.interviews[i].persona;
      && p.name == Some(row.header)
      && p.age.Some? && 20 <= p.age.value <= 29
      && |row.target| >= 1 && (forall k :: 0 <= k < |row.target| ==> IsDigit(row.target[k]))
      && ParseInt(row.target) == p.age.value
  {
    IntToStringRoundTrip(StubAge(i));
  }

  /** The participant type falls back to "Gen Z" only for an empty audience. */
  lemma AudienceOrGenZ(req: Request, i: nat)
    requires i < Count(req.numInterviews.GetOr(5))
    ensures req.audience.GetOr("") != "" ==> RunStub(req).data.participants[i].audience == req.audience.value
    ensures req.audience.GetOr("") == "" ==> RunStub(req).data.participants[i].audience == "Gen Z"
  {
  }

  /** The stub's persona mappings lack the style and background fields, so
      none of them would validate as a persona. */
  lemma StubPersonaNotValid(i: nat)
    ensures Load(StubPersona(i)) == None
  {
  }

  /** Question labels are numbered, so two responses of an interview never
      carry the same question text. */
  lemma StubQuestionsDistinct(j: nat, k: nat, question: string)
    requires j != k
    ensures StubQuestion(j, question) != StubQuestion(k, question)
  {
    var a := IntToString(j + 1);
    var b := IntToString(k + 1);
    var x := OrElse(question, "Your thoughts?");
    if StubQuestion(j, question) == StubQuestion(k, question) {
      assert |a| == |b|;
      assert a == StubQuestion(j, question)[1..1 + |a|];
      assert b == StubQuestion(k, question)[1..1 + |b|];
      NatToStringInjective(j + 1, k + 1);
    }
  }
}

=== FILE: templates.dfy ===
/** Python's `str.format` with keyword arguments, enough to tell which
    prompt templates can be filled in, and the backend's persona node, whose
    template fills in only after its JSON hint has its braces doubled. */
module Templates {
  import opened Results
  import opened Personas
  import opened Text
  import opened Workflow
  import opened PersonaGeneration

  /** Prepends literal output to a formatting result. */
  function Prepend(s: string, r: Result<string>): (q: Result<string>)
    ensures q.Ok? <==> r.Ok?
    ensures q.Ok? ==> q.value == s + r.value
    ensures q.Err? ==> q.error == r.error
  {
    match r
    case Ok(t) => Ok(s + t)
    case Err(e) => Err(e)
  }

  /** The characters that end a field's argument name: a format spec, a
      conversion, an attribute access or an index. */
  predicate EndsName(c: char) {
    c == ':' || c == '!' || c == '.' || c == '['
  }

  /** Text with none of the characters that end an argument name. */
  predicate Bare(s: string) {
    ':' !in s && '!' !in s && '.' !in s && '[' !in s
  }

  /** The argument name of a replacement field: the text before any format
      spec, conversion, attribute access or index. */
  function FieldName(field: string): (name: string)
    ensures |name| <= |field| && name == field[..|name|]
    ensures Bare(name)
    ensures |name| < |field| ==> EndsName(field[|name|])
  {
    if field == [] || EndsName(field[0]) then []
    else [field[0]] + FieldName(field[1..])
  }

  /** `template.format(**args)`, left to right: `{{` and `}}` are literal
      braces, `{name...}` is replaced by the argument `name`, a field with no
      name asks for a positional argument there is none of, a missing name
      raises KeyError with that name (the part before any `.` or `[`), and
      an unmatched brace raises ValueError. */
  function Format(template: string, args: map<string, string>): (r: Result<string>)
    ensures r.Err? ==> r.error.KeyError? || r.error == IndexError || r.error.ValueError?
    ensures r.Err? && r.error.KeyError? ==> r.error.key != [] && r.error.key !in args
    decreases |template|
  {
    if template == [] then Ok("")
    else if template[0] == '{' then
      if |template| >= 2 && template[1] == '{' then Prepend("{", Format(template[2..], args))
      else
        var close := IndexOf(template, "}");
        if close == -1 then Err(ValueError("Single '{' encountered in format string"))
        else
          var name := FieldName(template[1..close]);
          if name == [] then Err(IndexError)
          else if name !in args then Err(KeyError(name))
          else Prepend(args[name], Format(template[close + 1..], args))
    else if template[0] == '}' then
      if |template| >= 2 && template[1] == '}' then Prepend("}", Format(template[2..], args))
      else Err(ValueError("Single '}' encountered in format string"))
    else Prepend([template[0]], Format(template[1..], args))
  }

  /** Text with no braces. */
  predicate Plain(s: string) {
    '{' !in s && '}' !in s
  }

  /** Plain text is copied through, and formatting goes on after it. */
  lemma {:induction false} PlainPassesThrough(text: string, rest: string, args: map<string, string>)
    requires Plain(text)
    ensures Format(text + rest, args) == Prepend(text, Format(rest, args))
    decreases |text|
  {
    if text == [] {
      assert text + rest == rest;
      if Format(rest, args).Ok? {
        assert text + Format(rest, args).value == Format(rest, args).value;
      }
    } else {
      var t := text + rest;
      assert t[0] == text[0] && text[0] in text;
      assert t[1..] == text[1..] + rest;
      assert Plain(text[1..]) by {
        assert forall c :: c in text[1..] ==> c in text;
      }
      PlainPassesThrough(text[1..], rest, args);
      assert Format(t, args) == Prepend([text[0]], Format(t[1..], args));
      if Format(rest, args).Ok? {
        var v := Format(rest, args).value;
        assert [text[0]] + (text[1..] + v) == text + v;
      }
    }
  }

  /** A bare field naming a present argument is replaced by its value. */
  lemma FieldReplaced(name: string, rest: string, args: map<string, string>)
    requires name != [] && Plain(name) && Bare(name)
    requires name in args
    ensures Format("{" + name + "}" + rest, args) == Prepend(args[name], Format(rest, args))
  {
    var t := "{" + name + "}" + rest;
    FirstCloseAfter(name, rest);
    assert t[1..|name| + 1] == name;
    FieldNameWhole(name);
    assert t[|name| + 2..] == rest;
  }

  /** A field naming a missing argument raises KeyError with the name,
      whatever format spec follows it. */
  lemma FieldMissing(name: string, spec: string, rest: string, args: map<string, string>)
    requires name != [] && Plain(name) && Bare(name)
    requires Plain(spec)
    requires name !in args
    ensures Format("{" + name + ":" + spec + "}" + rest, args) == Err(KeyError(name))
  {
    var field := name + ":" + spec;
    assert Plain(field) by {
      assert forall c :: c in field ==> c in name || c == ':' || c in spec;
    }
    assert "{" + name + ":" + spec + "}" + rest == "{" + field + "}" + rest;
    FirstCloseAfter(field, rest);
    var t := "{" + field + "}" + rest;
    assert t[1..|field| + 1] == field;
    assert (name + ":" + spec) == name + (":" + spec);
    FieldNameBefore(name, ":" + spec);
  }

  /** An attribute access or an index on a missing argument raises
      KeyError with the argument's name alone, not the whole field. */
  lemma AccessOnMissingRaises(name: string, access: string, rest: string, args: map<string, string>)
    requires name != [] && Plain(name) && Bare(name)
    requires access != [] && (access[0] == '.' || access[0] == '[') && Plain(access)
    requires name !in args
    ensures Format("{" + name + access + "}" + rest, args) == Err(KeyError(name))
  {
    var field := name + access;
    assert Plain(field) by {
      assert forall c :: c in field ==> c in name || c in access;
    }
    assert "{" + name + access + "}" + rest == "{" + field + "}" + rest;
    FirstCloseAfter(field, rest);
    var t := "{" + field + "}" + rest;
    assert t[1..|field| + 1] == field;
    FieldNameBefore(name, access);
  }

  /** A doubled brace gives one literal brace. */
  lemma DoubledBraces(rest: string, args: map<string, string>)
    ensures Format("{{" + rest, args) == Prepend("{", Format(rest, args))
    ensures Format("}}", args) == Ok("}")
  {
    assert ("{{" + rest)[2..] == rest;
    assert "}}"[2..] == "";
    assert "}" + "" == "}";
  }

  lemma FirstCloseAfter(field: string, rest: string)
    requires Plain(field)
    ensures IndexOf("{" + field + "}" + rest, "}") == |field| + 1
  {
    var t := "{" + field + "}" + rest;
    assert t[|field| + 1..|field| + 2] == "}";
    assert OccursAt(t, "}", |field| + 1);
    forall k | 0 <= k < |field| + 1
      ensures !OccursAt(t, "}", k)
    {
      assert t[k..k + 1][0] == t[k];
      if k > 0 {
        assert t[k] == field[k - 1];
        assert field[k - 1] in field;
      }
    }
  }

  lemma {:induction false} FieldNameWhole(name: string)
    requires Bare(name)
    ensures FieldName(name) == name
  {
    if name != [] {
      assert Bare(name[1..]) by {
        assert forall c :: c in name[1..] ==> c in name;
      }
      FieldNameWhole(name[1..]);
      assert name[0] in name;
      assert name == [name[0]] + name[1..];
    }
  }

  /** The argument name stops at the first character that ends it. */
  lemma {:induction false} FieldNameBefore(name: string, tail: string)
    requires Bare(name)
    requires tail != [] && EndsName(tail[0])
    ensures FieldName(name + tail) == name
  {
    if name != [] {
      assert Bare(name[1..]) by {
        assert forall c :: c in name[1..] ==> c in name;
      }
      FieldNameBefore(name[1..], tail);
      assert name[0] in name;
      assert (name + tail)[1..] == name[1..] + tail;
    } else {
      assert (name + tail)[0] == tail[0];
    }
  }

  // ---------------------------------------------------------------------
  // The persona prompt. Its three plain stretches are shared by both
  // spellings; only the closing JSON hint differs.

  const Lead := "Generate exactly "
  const Middle := " unique personas for an interview." + " Each should belong to" + " the target demographic: "
  const Tail := ". Respond only in JSON using this format: "
  /** The hint's inside, between its braces: a name and a spec. */
  const HintName := " personas"
  const HintSpec := " [ ... ] "

  /** The prompt around a given closing hint. */
  function PromptWith(hint: string): string {
    Lead + ("{" + "num_personas" + "}" + (Middle + ("{" + "demographic" + "}" + (Tail + hint))))
  }

  /** The backend's template: the hint's braces are single, so the hint
      reads as a replacement field named " personas". */
  const BackendPersonaPrompt := PromptWith("{" + HintName + ":" + HintSpec + "}" + "")

  /** The template of the other two copies: the hint's braces are doubled. */
  const PersonaPrompt := PromptWith("{{" + (HintName + ":" + HintSpec + "}}"))

  function PromptArgs(num: int, demographic: string): map<string, string> {
    map["num_personas" := IntToString(num), "demographic" := demographic]
  }

  lemma MiddlePlain()
    ensures Plain(Middle)
  {
    assert Plain(" unique personas for an interview.");
    assert Plain(" Each should belong to");
    assert Plain(" the target demographic: ");
  }

  lemma TailPlain()
    ensures Plain(Lead) && Plain(Tail)
  {
    assert Plain(". Respond only in JSON");
    assert Plain(" using this format: ");
    assert Tail == ". Respond only in JSON" + " using this format: ";
  }

  lemma HintNamePlain()
    ensures Plain(HintName) && Plain(HintSpec) && Bare(HintName)
  {
  }

  lemma NamesPlain()
    ensures Plain("num_personas") && Bare("num_personas")
    ensures Plain("demographic") && Bare("demographic")
  {
  }

  lemma PiecesArePlain()
    ensures Plain(Lead) && Plain(Middle) && Plain(Tail)
    ensures Plain(HintName) && Plain(HintSpec) && Bare(HintName)
    ensures Plain("num_personas") && Bare("num_personas")
    ensures Plain("demographic") && Bare("demographic")
  {
    MiddlePlain();
    TailPlain();
    HintNamePlain();
    NamesPlain();
  }

  /** Formatting the prompt fills in the count and the demographic and
      then formats the hint. */
  lemma PromptFormatsHint(hint: string, num: int, demographic: string)
    ensures Format(hint, PromptArgs(num, demographic)).Err? ==>
      Format(PromptWith(hint), PromptArgs(num, demographic)) == Format(hint, PromptArgs(num, demographic))
    ensures Format(hint, PromptArgs(num, demographic)).Ok? ==>
      Format(PromptWith(hint), PromptArgs(num, demographic))
      == Ok(Lead + (IntToString(num) + (Middle + (demographic + (Tail + Format(hint, PromptArgs(num, demographic)).value)))))
  {
    var args := PromptArgs(num, demographic);
    PiecesArePlain();
    var afterDemo := Tail + hint;
    PlainPassesThrough(Tail, hint, args);
    var afterMiddle := "{" + "demographic" + "}" + afterDemo;
    FieldReplaced("demographic", afterDemo, args);
    var afterNum := Middle + afterMiddle;
    PlainPassesThrough(Middle, afterMiddle, args);
    var afterLead := "{" + "num_personas" + "}" + afterNum;
    FieldReplaced("num_personas", afterNum, args);
    PlainPassesThrough(Lead, afterLead, args);
  }

  /** The backend's prompt cannot be filled in: formatting reaches the hint
      and raises KeyError(" personas"). */
  lemma BackendPromptRaises(num: int, demographic: string)
    ensures Format(BackendPersonaPrompt, PromptArgs(num, demographic)) == Err(KeyError(HintName))
  {
    PiecesArePlain();
    FieldMissing(HintName, HintSpec, "", PromptArgs(num, demographic));
    PromptFormatsHint("{" + HintName + ":" + HintSpec + "}" + "", num, demographic);
  }

  /** With doubled braces the prompt fills in: the count and demographic are
      substituted and the hint keeps one pair of braces. */
  lemma PersonaPromptFills(num: int, demographic: string)
    ensures Format(PersonaPrompt, PromptArgs(num, demographic))
         == Ok(Lead + (IntToString(num) + (Middle + (demographic + (Tail + ("{" + ((HintName + ":" + HintSpec) + "}")))))))
  {
    var args := PromptArgs(num, demographic);
    PiecesArePlain();
    var body := HintName + ":" + HintSpec;
    assert Plain(body) by {
      assert forall c :: c in body ==> c in HintName || c == ':' || c in HintSpec;
    }
    DoubledBraces(body + "}}", args);
    PlainPassesThrough(body, "}}", args);
    PromptFormatsHint("{{" + (body + "}}"), num, demographic);
  }

  /** The backend's persona node as written: the prompt is formatted for a
      progress message before the retry loop, outside its `try`, so a
      formatting error escapes before any attempt. */
  function BackendPersonaNodeAsWritten<E>(s: RunState<E>, outcomes: nat -> AttemptOutcome): (r: Result<RunState<E>>)
    ensures Format(BackendPersonaPrompt, PromptArgs(s.numInterviews, s.targetDemographic)).Err? ==>
      r == Err(Format(BackendPersonaPrompt, PromptArgs(s.numInterviews, s.targetDemographic)).error)
  {
    match Format(BackendPersonaPrompt, PromptArgs(s.numInterviews, s.targetDemographic))
    case Err(e) => Err(e)
    case Ok(_) => PersonaNode(Terse, s, outcomes)
  }

  /** The node as written never generates a persona: whatever the model
      would have returned, it fails with KeyError(" personas"). */
  lemma BackendPersonaNodeAlwaysRaises<E>(s: RunState<E>, outcomes: nat -> AttemptOutcome)
    ensures BackendPersonaNodeAsWritten(s, outcomes) == Err(KeyError(HintName))
  {
    BackendPromptRaises(s.numInterviews, s.targetDemographic);
  }

  /** The node with the hint's braces doubled, as in the other two copies. */
  function BackendPersonaNode<E>(s: RunState<E>, outcomes: nat -> AttemptOutcome): (r: Result<RunState<E>>)
    ensures r.Ok? ==> |r.value.personas| == s.numInterviews
  {
    match Format(PersonaPrompt, PromptArgs(s.numInterviews, s.targetDemographic))
    case Err(e) => Err(e)
    case Ok(_) => PersonaNode(Terse, s, outcomes)
  }

  /** With the braces doubled, the node is exactly the bounded retry loop. */
  lemma BackendPersonaNodeIsRetryLoop<E>(s: RunState<E>, outcomes: nat -> AttemptOutcome)
    ensures BackendPersonaNode(s, outcomes) == PersonaNode(Terse, s, outcomes)
  {
    PersonaPromptFills(s.numInterviews, s.targetDemographic);
  }
}

=== FILE: text.dfy ===
/** Python string primitives the workflow relies on, restricted to what the
    modelled code calls: substring search (`in`, `find`, `rfind`), `split` on
    a non-empty separator, `join`, `strip`, `upper`, slicing with Python's
    clamping rules and decimal rendering of integers (`str(n)`).
    Character classes are the ASCII ones. */
module Text {

  /** Whitespace as Python's `str.strip()` sees it in the ASCII range:
      tab, line feed, vertical tab, form feed, carriage return, the four
      information separators and space. */
  predicate IsSpace(c: char) {
    c == ' ' || ('\t' <= c <= '\r') || ('\U{1C}' <= c <= '\U{1F}')
  }

  predicate IsDigit(c: char) {
    '0' <= c <= '9'
  }

  function UpperChar(c: char): char {
    if 'a' <= c <= 'z' then (c as int - 32) as char else c
  }

  /** `s.upper()` on ASCII letters. */
  function Upper(s: string): (r: string)
    ensures |r| == |s|
    ensures forall i :: 0 <= i < |s| ==> r[i] == UpperChar(s[i])
  {
    seq(|s|, i requires 0 <= i < |s| => UpperChar(s[i]))
  }

  /** `t` occurs in `s` starting at position `i`. */
  predicate OccursAt(s: string, t: string, i: int) {
    0 <= i && i + |t| <= |s| && s[i..i + |t|] == t
  }

  /** `t in s` for strings: `t` occurs as a contiguous block of `s`. */
  predicate Contains(s: string, t: string) {
    exists i | 0 <= i <= |s| - |t| :: OccursAt(s, t, i)
  }

  /** Containment is transitive: whatever contains `KEY THEMES` contains `THEMES`. */
  lemma ContainsTransitive(s: string, t: string, u: string)
    requires Contains(s, t) && Contains(t, u)
    ensures Contains(s, u)
  {
    var i :| 0 <= i <= |s| - |t| && OccursAt(s, t, i);
    var j :| 0 <= j <= |t| - |u| && OccursAt(t, u, j);
    forall k | 0 <= k < |u|
      ensures s[i + j + k] == u[k]
    {
      assert u[k] == t[j + k] == s[i + j + k];
    }
    assert s[i + j..i + j + |u|] == u;
    assert OccursAt(s, u, i + j);
  }

  lemma ContainsChar(s: string, c: char)
    ensures Contains(s, [c]) <==> c in s
  {
    if c in s {
      var i :| 0 <= i < |s| && s[i] == c;
      assert OccursAt(s, [c], i);
    }
    if Contains(s, [c]) {
      var i :| 0 <= i <= |s| - 1 && OccursAt(s, [c], i);
      assert s[i] == s[i..i + 1][0] == c;
    }
  }

  /** Occurrence search from position `from`, as `s.find(t, from)`. */
  function IndexFrom(s: string, t: string, from: nat): (r: int)
    requires from <= |s|
    ensures r == -1 || (from <= r && OccursAt(s, t, r))
    ensures forall k :: from <= k && (r == -1 || k < r) ==> !OccursAt(s, t, k)
    decreases |s| - from
  {
    if from + |t| > |s| then -1
    else if OccursAt(s, t, from) then from
    else if from == |s| then -1
    else IndexFrom(s, t, from + 1)
  }

  /** `s.find(t)`: the first occurrence of `t`, or -1. */
  function IndexOf(s: string, t: string): (r: int)
    ensures r == -1 <==> !Contains(s, t)
    ensures r != -1 ==> OccursAt(s, t, r)
    ensures forall k :: (r == -1 || k < r) ==> !OccursAt(s, t, k)
  {
    IndexFrom(s, t, 0)
  }

  /** Last occurrence of `t` starting at or before `upTo`. */
  function LastFrom(s: string, t: string, upTo: int): (r: int)
    requires upTo < |s| + 1
    ensures r == -1 || (r <= upTo && OccursAt(s, t, r))
    ensures forall k :: k <= upTo && r < k ==> !OccursAt(s, t, k)
    decreases upTo + 1
  {
    if upTo < 0 then -1
    else if OccursAt(s, t, upTo) then upTo
    else LastFrom(s, t, upTo - 1)
  }

  /** `s.rfind(t)`: the last occurrence of `t`, or -1. */
  function LastIndexOf(s: string, t: string): (r: int)
    ensures r == -1 <==> !Contains(s, t)
    ensures r != -1 ==> OccursAt(s, t, r)
    ensures forall k :: r < k ==> !OccursAt(s, t, k)
  {
    LastFrom(s, t, |s|)
  }

  /** `sep.join(parts)`. */
  function Join(sep: string, parts: seq<string>): (r: string)
    ensures |parts| == 1 ==> r == parts[0]
    ensures parts == [] ==> r == ""
  {
    if |parts| == 0 then ""
    else if |parts| == 1 then parts[0]
    else parts[0] + sep + Join(sep, parts[1..])
  }

  /** `s.split(sep)` for a non-empty separator: the pieces between the
      non-overlapping occurrences of `sep`, found left to right. */
  function Split(s: string, sep: string): (parts: seq<string>)
    requires |sep| > 0
    ensures |parts| >= 1
    ensures forall k :: 0 <= k < |parts| ==> !Contains(parts[k], sep)
    decreases |s|
  {
    var i := IndexOf(s, sep);
    if i == -1 then [s]
    else
      assert !Contains(s[..i], sep) by {
        forall k | OccursAt(s[..i], sep, k) ensures false {
          assert s[..i][k..k + |sep|] == s[k..k + |sep|];
          assert OccursAt(s, sep, k);
        }
      }
      [s[..i]] + Split(s[i + |sep|..], sep)
  }

  /** Joining one more part adds the separator and the part at the end. */
  lemma {:induction false} JoinSnoc(sep: string, parts: seq<string>, last: string)
    requires |parts| >= 1
    ensures Join(sep, parts + [last]) == Join(sep, parts) + sep + last
    decreases |parts|
  {
    if |parts| > 1 {
      JoinSnoc(sep, parts[1..], last);
      assert (parts + [last])[1..] == parts[1..] + [last];
    }
  }

  /** A join whose first part is non-empty is non-empty. */
  lemma JoinNonEmpty(sep: string, parts: seq<string>)
    requires |parts| >= 1 && parts[0] != []
    ensures Join(sep, parts) != []
  {
    if |parts| > 1 {
      assert Join(sep, parts) == parts[0] + sep + Join(sep, parts[1..]);
    }
  }

  /** Joining the pieces of a split with the same separator gives the text back. */
  lemma {:induction false} JoinSplit(s: string, sep: string)
    requires |sep| > 0
    ensures Join(sep, Split(s, sep)) == s
    decreases |s|
  {
    var i := IndexOf(s, sep);
    if i != -1 {
      var rest := s[i + |sep|..];
      JoinSplit(rest, sep);
      var tail := Split(rest, sep);
      assert Split(s, sep) == [s[..i]] + tail;
      assert Join(sep, [s[..i]] + tail) == s[..i] + sep + Join(sep, tail);
      assert s == s[..i] + s[i..i + |sep|] + rest;
    }
  }

  /** No proper suffix of `sep` is also a prefix of it, so two occurrences
      of `sep` can never overlap (", ", "; ", ". " and "\n" are all such). */
  predicate BorderFree(sep: string) {
    forall k :: 0 < k < |sep| ==> sep[k..] != sep[..|sep| - k]
  }

  lemma FirstOccurrenceAfterPart(p: string, sep: string, x: string)
    requires |sep| > 0 && BorderFree(sep) && !Contains(p, sep)
    ensures IndexOf(p + sep + x, sep) == |p|
  {
    var s := p + sep + x;
    assert s[|p|..|p| + |sep|] == sep;
    assert OccursAt(s, sep, |p|);
    forall k | 0 <= k < |p|
      ensures !OccursAt(s, sep, k)
    {
      if k + |sep| <= |p| {
        assert s[k..k + |sep|] == p[k..k + |sep|];
        assert !OccursAt(p, sep, k);
      } else if k + |sep| <= |s| {
        // an occurrence here would overlap the one at |p| by d characters
        var d := |p| - k;
        assert s[k..k + |sep|][d..] == s[|p|..k + |sep|] == sep[..|sep| - d];
        assert sep[d..] != sep[..|sep| - d];
      }
    }
  }

  /** Splitting a join gives the parts back, provided no part contains the
      separator and the separator cannot overlap itself. */
  lemma {:induction false} SplitJoin(parts: seq<string>, sep: string)
    requires |sep| > 0 && BorderFree(sep) && |parts| >= 1
    requires forall k :: 0 <= k < |parts| ==> !Contains(parts[k], sep)
    ensures Split(Join(sep, parts), sep) == parts
    decreases |parts|
  {
    if |parts| == 1 {
      assert IndexOf(parts[0], sep) == -1;
    } else {
      var x := Join(sep, parts[1..]);
      FirstOccurrenceAfterPart(parts[0], sep, x);
      var s := parts[0] + sep + x;
      assert s[..|parts[0]|] == parts[0];
      assert s[|parts[0]| + |sep|..] == x;
      SplitJoin(parts[1..], sep);
      assert parts == [parts[0]] + parts[1..];
    }
  }

  /** `s.lstrip()`: drops leading whitespace. */
  function StripLeft(s: string): (r: string)
    ensures |r| <= |s| && r == s[|s| - |r|..]
    ensures forall k :: 0 <= k < |s| - |r| ==> IsSpace(s[k])
    ensures r == [] || !IsSpace(r[0])
  {
    if |s| > 0 && IsSpace(s[0]) then StripLeft(s[1..]) else s
  }

  /** `s.rstrip()`: drops trailing whitespace. */
  function StripRight(s: string): (r: string)
    ensures |r| <= |s| && r == s[..|r|]
    ensures forall k :: |r| <= k < |s| ==> IsSpace(s[k])
    ensures r == [] || !IsSpace(r[|r| - 1])
  {
    if |s| > 0 && IsSpace(s[|s| - 1]) then StripRight(s[..|s| - 1]) else s
  }

  /** `s.strip()`: the text with whitespace removed from both ends; empty
      exactly when the text is all whitespace. */
  function Strip(s: string): (r: string)
    ensures |r| <= |s|
    ensures r == [] || (!IsSpace(r[0]) && !IsSpace(r[|r| - 1]))
    ensures r == [] <==> forall k :: 0 <= k < |s| ==> IsSpace(s[k])
    ensures |r| <= |StripLeft(s)| && r == StripLeft(s)[..|r|]
  {
    StripRight(StripLeft(s))
  }

  /** Python's `v or fallback` on strings: the fallback replaces an empty text. */
  function OrElse(v: string, fallback: string): string {
    if v == [] then fallback else v
  }

  /** Python's `xs[:n]`: a negative bound counts from the end, and both
      bounds are clamped to the sequence. */
  function PyTake<T>(xs: seq<T>, n: int): (r: seq<T>)
    ensures |r| <= |xs| && r == xs[..|r|]
    ensures n >= 0 ==> |r| == if n < |xs| then n else |xs|
    ensures n < 0 ==> |r| == if |xs| + n > 0 then |xs| + n else 0
  {
    if n >= 0 then (if n < |xs| then xs[..n] else xs)
    else if |xs| + n > 0 then xs[..|xs| + n] else []
  }

  /** Python's `s[a:b]` for non-negative bounds. */
  function PySlice<T>(xs: seq<T>, a: nat, b: nat): (r: seq<T>)
    ensures a <= b <= |xs| ==> r == xs[a..b]
    ensures b <= a ==> r == []
  {
    var hi := if b < |xs| then b else |xs|;
    var lo := if a < hi then a else hi;
    xs[lo..hi]
  }

  function DigitChar(d: nat): char
    requires d < 10
  {
    ('0' as int + d) as char
  }

  /** `str(n)` for a natural number: its decimal digits, most significant first. */
  function NatToString(n: nat): (r: string)
    ensures |r| >= 1
    ensures forall k :: 0 <= k < |r| ==> IsDigit(r[k])
    ensures |r| > 1 ==> r[0] != '0'
  {
    if n < 10 then [DigitChar(n)]
    else NatToString(n / 10) + [DigitChar(n % 10)]
  }

  /** The value of a string of decimal digits. */
  function ParseDigits(s: string): (v: int)
    requires forall k :: 0 <= k < |s| ==> IsDigit(s[k])
    ensures v >= 0
  {
    if |s| == 0 then 0
    else
      assert IsDigit(s[|s| - 1]);
      assert s[|s| - 1] as int >= '0' as int;
      10 * ParseDigits(s[..|s| - 1]) + (s[|s| - 1] as int - '0' as int)
  }

  /** Reading the decimal rendering back gives the number. */
  lemma {:induction false} ParseNatToString(n: nat)
    ensures ParseDigits(NatToString(n)) == n
  {
    var s := NatToString(n);
    if n >= 10 {
      ParseNatToString(n / 10);
      assert s[..|s| - 1] == NatToString(n / 10);
    }
  }

  /** Different numbers have different decimal renderings. */
  lemma NatToStringInjective(a: nat, b: nat)
    requires NatToString(a) == NatToString(b)
    ensures a == b
  {
    ParseNatToString(a);
    ParseNatToString(b);
  }

  /** `str(i)` for any integer. */
  function IntToString(i: int): (r: string)
    ensures i >= 0 ==> r == NatToString(i)
    ensures i < 0 ==> r == "-" + NatToString(-i)
  {
    if i >= 0 then NatToString(i) else "-" + NatToString(-i)
  }

  /** `int(s)` restricted to what `str` produces: an optional minus sign and digits. */
  function ParseInt(s: string): int
    requires |s| >= 1
    requires forall k :: 1 <= k < |s| ==> IsDigit(s[k])
    requires s[0] == '-' || IsDigit(s[0])
  {
    if s[0] == '-' then -ParseDigits(s[1..]) else ParseDigits(s)
  }

  /** `int(str(i)) == i`. */
  lemma IntToStringRoundTrip(i: int)
    ensures var r := IntToString(i);
      && |r| >= 1 && (r[0] == '-' || IsDigit(r[0]))
      && (forall k :: 1 <= k < |r| ==> IsDigit(r[k]))
      && ParseInt(r) == i
  {
    if i >= 0 {
      ParseNatToString(i);
    } else {
      ParseNatToString(-i);
      assert ("-" + NatToString(-i))[1..] == NatToString(-i);
    }
  }
}

=== FILE: workflow.dfy ===
/** The interview loop of the research workflow: the run state, the router
    that decides between another interview step and synthesis, and the
    interview step itself in its plain form (one question, one answer, and a
    close-out when the persona's last question has been answered).
    The language model's answers come from an oracle indexed by call number,
    so the order in which the loop consults it is part of what is proved. */
module Workflow {
  import opened Results
  import opened Personas

  /** The state threaded through the workflow graph. `E` is the type of one
      transcript entry, which differs between the variants of the step. */
  datatype RunState<E> = RunState(
    researchQuestion: string,
    targetDemographic: string,
    numInterviews: int,
    numQuestions: int,
    questions: seq<string>,
    personas: seq<Persona>,
    personaIndex: nat,
    questionIndex: nat,
    history: seq<E>,
    interviews: seq<Interview<Persona, E>>,
    synthesis: string)

  /** The router's two answers: run the interview node again, or go on to synthesis. */
  datatype Route = ToInterview | ToSynthesize

  function Router<E>(s: RunState<E>): (r: Route)
    ensures r == ToSynthesize <==> s.personaIndex >= |s.personas|
  {
    if s.personaIndex >= |s.personas| then ToSynthesize else ToInterview
  }

  /** A run about to enter its first interview step: both indices at zero
      and nothing recorded yet. */
  predicate Fresh<E>(s: RunState<E>) {
    s.personaIndex == 0 && s.questionIndex == 0 && s.history == [] && s.interviews == []
  }

  /** `t` is the state one interview step after `s`: the next question of
      the same persona, or the first question of the next persona after
      the last one. */
  predicate NextPair<E>(s: RunState<E>, t: RunState<E>) {
    if s.questionIndex + 1 >= |s.questions|
    then t.personaIndex == s.personaIndex + 1 && t.questionIndex == 0
    else t.personaIndex == s.personaIndex && t.questionIndex == s.questionIndex + 1
  }

  /** The interview step touches only the indices, the open transcript and
      the completed interviews. */
  predicate SameRun<E(==)>(s: RunState<E>, t: RunState<E>) {
    t == s.(personaIndex := t.personaIndex, questionIndex := t.questionIndex,
            history := t.history, interviews := t.interviews)
  }

  /** All responses of a sequence of interviews, interview by interview. */
  function Flatten<E>(ivs: seq<Interview<Persona, E>>): seq<E> {
    if |ivs| == 0 then [] else Flatten(ivs[..|ivs| - 1]) + ivs[|ivs| - 1].responses
  }

  /** Every entry recorded so far, in the order it was recorded. */
  function Transcript<E>(s: RunState<E>): seq<E> {
    Flatten(s.interviews) + s.history
  }

  lemma FlattenSnoc<E>(ivs: seq<Interview<Persona, E>>, iv: Interview<Persona, E>)
    ensures Flatten(ivs + [iv]) == Flatten(ivs) + iv.responses
  {
    assert (ivs + [iv])[..|ivs|] == ivs;
  }

  /** The indices point past the persona list or the question list. */
  predicate OutOfPairs<E>(s: RunState<E>) {
    s.personaIndex >= |s.personas| || s.questionIndex >= |s.questions|
  }

  /** Calls `from` up to (not including) `to` of the answer oracle all
      return an answer instead of raising. */
  predicate Returns(oracle: nat -> Result<string>, from: nat, to: nat) {
    forall n :: from <= n < to ==> oracle(n).Ok?
  }

  /** The interview node: answer `questions[qi]` as `personas[pi]` and record
      it; after the persona's last question, file the interview, clear the
      open transcript and move to the next persona. Indexing past either list
      raises IndexError, as the node does not check its indices; the answer
      call sits outside any `try`, so an exception it raises leaves the node
      unchanged. */
  function Step(s: RunState<Entry>, reply: Result<string>): (r: Result<RunState<Entry>>)
    ensures r.Err? <==> OutOfPairs(s) || reply.Err?
    ensures r.Err? ==> r.error == (if OutOfPairs(s) then IndexError else reply.error)
    ensures r.Ok? ==> SameRun(s, r.value) && NextPair(s, r.value)
  {
    if OutOfPairs(s) then Err(IndexError)
    else
      match reply
      case Err(e) => Err(e)
      case Ok(answer) =>
        var persona := s.personas[s.personaIndex];
        var question := s.questions[s.questionIndex];
        var history := s.history + [Entry(question, answer)];
        if s.questionIndex + 1 >= |s.questions| then
          Ok(s.(interviews := s.interviews + [Interview(persona, history)], history := [], questionIndex := 0,
                personaIndex := s.personaIndex + 1))
        else
          Ok(s.(history := history, questionIndex := s.questionIndex + 1))
  }

  /** The step at a persona's last question, spelled out. */
  lemma StepCloses(s: RunState<Entry>, answer: string)
    requires s.personaIndex < |s.personas| && s.questionIndex < |s.questions| <= s.questionIndex + 1
    ensures Step(s, Ok(answer)) == Ok(s.(
      interviews := s.interviews + [Interview(s.personas[s.personaIndex],
                                              s.history + [Entry(s.questions[s.questionIndex], answer)])],
      history := [], questionIndex := 0, personaIndex := s.personaIndex + 1))
  {
  }

  /** The step at any earlier question, spelled out. */
  lemma StepAdvances(s: RunState<Entry>, answer: string)
    requires s.personaIndex < |s.personas| && s.questionIndex + 1 < |s.questions|
    ensures Step(s, Ok(answer)) == Ok(s.(history := s.history + [Entry(s.questions[s.questionIndex], answer)],
                                         questionIndex := s.questionIndex + 1))
  {
  }

  /** Every step records exactly one entry, at the end of the transcript:
      nothing recorded earlier is lost or reordered by a close-out. */
  lemma StepExtendsTranscript(s: RunState<Entry>, answer: string)
    requires Step(s, Ok(answer)).Ok?
    ensures Transcript(Step(s, Ok(answer)).value) == Transcript(s) + [Entry(s.questions[s.questionIndex], answer)]
  {
    var e := Entry(s.questions[s.questionIndex], answer);
    if s.questionIndex + 1 >= |s.questions| {
      StepCloses(s, answer);
      FlattenSnoc(s.interviews, Interview(s.personas[s.personaIndex], s.history + [e]));
    } else {
      StepAdvances(s, answer);
    }
  }

  /** The interview node followed by the router, repeated until the router
      sends the run to synthesis. The personas-to-interview edge is
      unconditional, so the first step runs before the router is consulted.
      Call `calls + k` of the oracle answers the k-th step. The loop fails
      with IndexError, or with the exception one of its answer calls raised. */
  function Conduct(s: RunState<Entry>, oracle: nat -> Result<string>, calls: nat): (r: Result<RunState<Entry>>)
    ensures r.Err? ==> r.error == IndexError || exists n :: calls <= n && oracle(n) == Err(r.error)
    ensures r.Ok? ==> Router(r.value) == ToSynthesize && SameRun(s, r.value)
    decreases |s.personas| - s.personaIndex, |s.questions| - s.questionIndex
  {
    match Step(s, oracle(calls))
    case Err(e) => Err(e)
    case Ok(t) =>
      if Router(t) == ToSynthesize then Ok(t) else Conduct(t, oracle, calls + 1)
  }

  /** Interview `iv` is `p`'s, with one response per question, in question order. */
  predicate Completed(iv: Interview<Persona, Entry>, p: Persona, questions: seq<string>) {
    && iv.persona == p
    && |iv.responses| == |questions|
    && forall k :: 0 <= k < |questions| ==> iv.responses[k].question == questions[k]
  }

  /** What holds between interview steps: one filed interview per finished
      persona, and an open transcript holding the current persona's answers
      to the questions before `questionIndex`. */
  predicate Inv(s: RunState<Entry>) {
    && s.personaIndex <= |s.personas|
    && |s.interviews| == s.personaIndex
    && |s.history| == s.questionIndex
    && (s.questionIndex == 0 || s.questionIndex < |s.questions|)
    && (s.personaIndex == |s.personas| ==> s.questionIndex == 0)
    && (forall k :: 0 <= k < |s.history| ==> s.history[k].question == s.questions[k])
    && (forall i :: 0 <= i < |s.interviews| ==> Completed(s.interviews[i], s.personas[i], s.questions))
  }

  lemma FreshInv(s: RunState<Entry>)
    requires Fresh(s)
    ensures Inv(s)
  {
  }

  /** The step keeps the invariant: `len(all_interviews) == current_persona_index`
      and each filed interview is complete and in question order. */
  lemma StepPreservesInv(s: RunState<Entry>, reply: Result<string>)
    requires Inv(s) && Step(s, reply).Ok?
    ensures Inv(Step(s, reply).value)
  {
    var answer := reply.value;
    var t := Step(s, reply).value;
    if s.questionIndex + 1 >= |s.questions| {
      StepCloses(s, answer);
      assert t.interviews[s.personaIndex].responses == s.history + [Entry(s.questions[s.questionIndex], answer)];
      assert Completed(t.interviews[s.personaIndex], s.personas[s.personaIndex], s.questions);
    } else {
      StepAdvances(s, answer);
    }
  }

  /** Between steps the router sends the run to synthesis exactly when every
      persona has a filed interview. */
  lemma RouterMeansAllInterviewed(s: RunState<Entry>)
    requires Inv(s)
    ensures Router(s) == ToSynthesize <==> |s.interviews| == |s.personas|
  {
  }

  /** The first oracle call of persona i's interview when each interview
      takes `q` answers. */
  function RowStart(i: nat, q: nat): nat {
    i * q
  }

  lemma RowStartNext(i: nat, q: nat)
    ensures RowStart(i + 1, q) == RowStart(i, q) + q
  {
  }

  lemma MulMonotone(a: nat, b: nat, c: nat)
    requires a <= b
    ensures a * c <= b * c
  {
    var d: nat := b - a;
    assert b * c == a * c + d * c;
  }

  /** The call answering question j of persona i comes before every call
      of the personas after it. */
  lemma RowStartBelow(i: nat, j: nat, p: nat, q: nat)
    requires i < p && j < q
    ensures RowStart(i, q) + j < RowStart(p, q)
  {
    RowStartNext(i, q);
    MulMonotone(i + 1, p, q);
  }

  /** The oracle's answers sit where row-major order puts them: call
      `i * Q + j` answered question j of persona i. */
  predicate AnswersInOrder(s: RunState<Entry>, oracle: nat -> Result<string>) {
    var q := |s.questions|;
    && (forall i, j :: 0 <= i < |s.interviews| && 0 <= j < |s.interviews[i].responses| && j < q ==>
          oracle(RowStart(i, q) + j) == Ok(s.interviews[i].responses[j].answer))
    && (forall k :: 0 <= k < |s.history| ==> oracle(RowStart(s.personaIndex, q) + k) == Ok(s.history[k].answer))
  }

  /** Filing an interview keeps every answer in its row-major slot. */
  lemma CloseKeepsOrder(s: RunState<Entry>, t: RunState<Entry>, oracle: nat -> Result<string>, calls: nat, answer: string)
    requires AnswersInOrder(s, oracle) && |s.history| == s.questionIndex
    requires s.personaIndex == |s.interviews| < |s.personas| && s.questionIndex + 1 == |s.questions|
    requires calls == RowStart(s.personaIndex, |s.questions|) + s.questionIndex && oracle(calls) == Ok(answer)
    requires t == s.(interviews := s.interviews + [Interview(s.personas[s.personaIndex],
                       s.history + [Entry(s.questions[s.questionIndex], answer)])],
                     history := [], questionIndex := 0, personaIndex := s.personaIndex + 1)
    ensures AnswersInOrder(t, oracle)
  {
    var q := |s.questions|;
    var pi := s.personaIndex;
    var rs := t.interviews[pi].responses;
    forall i, j | 0 <= i < |t.interviews| && 0 <= j < |t.interviews[i].responses| && j < q
      ensures oracle(RowStart(i, q) + j) == Ok(t.interviews[i].responses[j].answer)
    {
      if i < pi {
        assert t.interviews[i] == s.interviews[i];
      } else if j < s.questionIndex {
        assert rs[j] == s.history[j];
      }
    }
  }

  /** A step moves the call counter along with the pair it visits. */
  lemma StepNextCall(s: RunState<Entry>, reply: Result<string>, calls: nat)
    requires calls == RowStart(s.personaIndex, |s.questions|) + s.questionIndex
    requires Step(s, reply).Ok?
    ensures var t := Step(s, reply).value;
      calls + 1 == RowStart(t.personaIndex, |t.questions|) + t.questionIndex
  {
    if s.questionIndex + 1 >= |s.questions| {
      RowStartNext(s.personaIndex, |s.questions|);
    }
  }

  lemma StepKeepsOrder(s: RunState<Entry>, oracle: nat -> Result<string>, calls: nat)
    requires Inv(s) && AnswersInOrder(s, oracle)
    requires calls == RowStart(s.personaIndex, |s.questions|) + s.questionIndex
    requires Step(s, oracle(calls)).Ok?
    ensures var t := Step(s, oracle(calls)).value;
      AnswersInOrder(t, oracle) && calls + 1 == RowStart(t.personaIndex, |t.questions|) + t.questionIndex
  {
    var answer := oracle(calls).value;
    StepNextCall(s, oracle(calls), calls);
    if s.questionIndex + 1 >= |s.questions| {
      StepCloses(s, answer);
      CloseKeepsOrder(s, Step(s, oracle(calls)).value, oracle, calls, answer);
    } else {
      StepAdvances(s, answer);
    }
  }

  /** One returning step of the loop from a reachable state keeps the
      invariant and the row-major order, and the loop goes on from there. */
  lemma StepInOrder(s: RunState<Entry>, oracle: nat -> Result<string>, calls: nat)
    requires Inv(s) && AnswersInOrder(s, oracle) && s.personaIndex < |s.personas| && |s.questions| >= 1
    requires calls == RowStart(s.personaIndex, |s.questions|) + s.questionIndex
    requires oracle(calls).Ok?
    ensures Step(s, oracle(calls)).Ok?
    ensures var t := Step(s, oracle(calls)).value;
      && Inv(t) && AnswersInOrder(t, oracle) && SameRun(s, t)
      && calls + 1 == RowStart(t.personaIndex, |t.questions|) + t.questionIndex
      && Conduct(s, oracle, calls) == if Router(t) == ToSynthesize then Ok(t) else Conduct(t, oracle, calls + 1)
  {
    StepPreservesInv(s, oracle(calls));
    StepKeepsOrder(s, oracle, calls);
    ConductUnfolds(s, oracle, calls);
  }

  /** The first call of a returning range returns, and so do the rest. */
  lemma ReturnsFirst(oracle: nat -> Result<string>, from: nat, to: nat)
    requires Returns(oracle, from, to) && from < to
    ensures oracle(from).Ok? && Returns(oracle, from + 1, to)
  {
  }

  /** From any state satisfying the invariant with a persona left to
      interview, the loop runs to completion when every answer call it makes
      returns: it reaches synthesis with every persona interviewed, each
      answer where row-major order puts it. */
  lemma {:induction false} ConductCompletes(s: RunState<Entry>, oracle: nat -> Result<string>, calls: nat)
    requires Inv(s) && AnswersInOrder(s, oracle)
    requires s.personaIndex < |s.personas| && |s.questions| >= 1
    requires calls == RowStart(s.personaIndex, |s.questions|) + s.questionIndex
    requires Returns(oracle, calls, RowStart(|s.personas|, |s.questions|))
    ensures Conduct(s, oracle, calls).Ok?
    ensures var t := Conduct(s, oracle, calls).value;
      Inv(t) && AnswersInOrder(t, oracle) && t.personaIndex == |t.personas|
    decreases |s.personas| - s.personaIndex, |s.questions| - s.questionIndex
  {
    RowStartBelow(s.personaIndex, s.questionIndex, |s.personas|, |s.questions|);
    ReturnsFirst(oracle, calls, RowStart(|s.personas|, |s.questions|));
    StepInOrder(s, oracle, calls);
    var t := Step(s, oracle(calls)).value;
    if Router(t) == ToInterview {
      ConductCompletes(t, oracle, calls + 1);
      assert Conduct(s, oracle, calls) == Conduct(t, oracle, calls + 1);
    } else {
      assert Conduct(s, oracle, calls) == Ok(t);
    }
  }

  /** One round of the loop: a step, then synthesis or the next round. */
  lemma ConductUnfolds(s: RunState<Entry>, oracle: nat -> Result<string>, calls: nat)
    requires Step(s, oracle(calls)).Ok?
    ensures var t := Step(s, oracle(calls)).value;
      Conduct(s, oracle, calls) == if Router(t) == ToSynthesize then Ok(t) else Conduct(t, oracle, calls + 1)
  {
  }

  /** When answer call n is the first one to raise, the loop stops there and
      the exception leaves it unchanged: nothing is caught, nothing is filed. */
  lemma {:induction false} ConductRaises(s: RunState<Entry>, oracle: nat -> Result<string>, calls: nat, n: nat)
    requires Inv(s) && s.personaIndex < |s.personas| && |s.questions| >= 1
    requires calls == RowStart(s.personaIndex, |s.questions|) + s.questionIndex
    requires calls <= n < RowStart(|s.personas|, |s.questions|)
    requires Returns(oracle, calls, n) && oracle(n).Err?
    ensures Conduct(s, oracle, calls) == Err(oracle(n).error)
    decreases |s.personas| - s.personaIndex, |s.questions| - s.questionIndex
  {
    if calls < n {
      assert oracle(calls).Ok?;
      var t := Step(s, oracle(calls)).value;
      StepPreservesInv(s, oracle(calls));
      StepNextCall(s, oracle(calls), calls);
      ConductUnfolds(s, oracle, calls);
      assert Router(t) == ToInterview;
      ConductRaises(t, oracle, calls + 1, n);
    }
  }

  /** `t` is the end of a loop run from `s`: the same run, every persona
      interviewed, interview i persona i's, and its j-th response answering
      question j with oracle answer i·Q + j. */
  predicate InterviewedInOrder(s: RunState<Entry>, t: RunState<Entry>, oracle: nat -> Result<string>) {
    && SameRun(s, t)
    && t.personaIndex == |s.personas| && t.questionIndex == 0 && t.history == []
    && |t.interviews| == |s.personas|
    && (forall i :: 0 <= i < |s.personas| ==>
          t.interviews[i].persona == s.personas[i] && |t.interviews[i].responses| == |s.questions|)
    && (forall i, j :: 0 <= i < |s.personas| && 0 <= j < |s.questions| ==>
          t.interviews[i].responses[j].question == s.questions[j]
          && oracle(RowStart(i, |s.questions|) + j) == Ok(t.interviews[i].responses[j].answer))
  }

  /** A finished loop, read through the invariant. */
  lemma FinishedInRowMajorOrder(s: RunState<Entry>, t: RunState<Entry>, oracle: nat -> Result<string>)
    requires SameRun(s, t) && Inv(t) && AnswersInOrder(t, oracle) && t.personaIndex == |t.personas|
    ensures InterviewedInOrder(s, t, oracle)
  {
    var q := |t.questions|;
    forall i, j | 0 <= i < |t.personas| && 0 <= j < q
      ensures t.interviews[i].responses[j].question == t.questions[j]
      ensures oracle(RowStart(i, q) + j) == Ok(t.interviews[i].responses[j].answer)
    {
      assert Completed(t.interviews[i], t.personas[i], t.questions);
    }
    forall i | 0 <= i < |t.personas|
      ensures t.interviews[i].persona == t.personas[i] && |t.interviews[i].responses| == q
    {
      assert Completed(t.interviews[i], t.personas[i], t.questions);
    }
  }

  /** The interview loop from a fresh run with P >= 1 personas and Q >= 1
      questions, whose P·Q answer calls all return, visits (0,0), (0,1), ...,
      (P-1,Q-1) in that order: interview i belongs to persona i and its j-th
      response answers question j with the oracle's answer number i·Q + j.
      The count of questions asked is the length of the question list; the
      requested count plays no part. */
  lemma {:induction false} ConductFromFresh(s: RunState<Entry>, oracle: nat -> Result<string>)
    requires Fresh(s) && |s.personas| >= 1 && |s.questions| >= 1
    requires Returns(oracle, 0, RowStart(|s.personas|, |s.questions|))
    ensures Conduct(s, oracle, 0).Ok?
    ensures InterviewedInOrder(s, Conduct(s, oracle, 0).value, oracle)
  {
    FreshInv(s);
    ConductCompletes(s, oracle, 0);
    FinishedInRowMajorOrder(s, Conduct(s, oracle, 0).value, oracle);
  }

  /** From a fresh run with personas and questions, the first answer call
      that raises ends the loop with its exception. */
  lemma ConductFromFreshRaises(s: RunState<Entry>, oracle: nat -> Result<string>, n: nat)
    requires Fresh(s) && |s.personas| >= 1 && |s.questions| >= 1
    requires n < RowStart(|s.personas|, |s.questions|) && Returns(oracle, 0, n) && oracle(n).Err?
    ensures Conduct(s, oracle, 0) == Err(oracle(n).error)
  {
    FreshInv(s);
    ConductRaises(s, oracle, 0, n);
  }

  /** With no personas, or no questions, the first interview step indexes an
      empty list and the run fails with IndexError instead of reaching
      synthesis, before any answer call. */
  lemma ConductWithoutPairsFails(s: RunState<Entry>, oracle: nat -> Result<string>)
    requires Fresh(s) && (|s.personas| == 0 || |s.questions| == 0)
    ensures Conduct(s, oracle, 0) == Err(IndexError)
  {
  }
}
